=== FILE: README.md ===
# Anima: emotion-driven music recommendation, modelled in Dafny

Anima reads a user's face in a photo, takes the dominant emotion that the
face-analysis service reports, and answers with a Spotify playlist for that
emotion. Users sign in with a password or with Spotify. They keep a history
of analyses and saved playlists, and can push a playlist to their own
Spotify account.

This project models the server's services and the two client helpers that
hold logic:

| module | file | what it models |
|---|---|---|
| `Catalog` | catalog.dfy | The emotion tables: descriptors, feature filters and playlist descriptions. Also the per-track bound check, the release year, the response shape of a track and the mode label. |
| `Collector` | collector.dfy | `_collect_diverse_candidates`: three query strategies merged without repeated ids, stopping at the target count. |
| `Diversifier` | diversifier.dfy | `_diversify_tracks`: three selection phases over a shuffled pool, then a reorder, then a prefix. |
| `Recommendation` | recommendation.dfy | `SpotifyService`: its "audio features available" flag, the batched feature filter and feature analysis, and `get_recommendations` end to end. |
| `MusicController` | music_controller.dfy | The recommendation endpoint's guards and its response. |
| `AuthSchemas` | auth_schemas.dfy | The registration body's field rules. |
| `AuthService` | auth_service.dfy | Register, log in, look up by id. |
| `Users` | users.dfy | The users table, with unique id, email and username. |
| `SpotifyAuth` | spotify_auth.dfy | Username sanitising and de-duplication; linking, unlinking and creating accounts from a Spotify profile; the authorization request. |
| `SpotifyUser` | spotify_user.dfy | Token refresh, and playlist creation and track adding in batches of 100. |
| `History` | history.dfy | Analyses and saved playlists: filtered, sorted, paged listings, edits, deletion and the statistics. |
| `Rekognition` | rekognition.dfy | Image validation by size and magic bytes; the reading of a face-detection reply. |
| `MusicClient` | music_client.dfy | The client's duration display. |
| `EmotionClient` | emotion_client.dfy | The client's emotion names, emojis and colours. |

Three helper modules are shared:

- `Wrappers`: `Option`, `Result` and the HTTP-style `Error(status, detail)`.
- `Text`: ASCII case mapping, decimal rendering and parsing, padding, joining.
- `Batching`: fixed-size chunks of a sequence, and their flattening.

Everything outside the program is a parameter:

- Spotify's search, playlist, top-track, audio-features, token and profile endpoints become functions or reply values.
- AWS face detection becomes a reply value.
- Password hashing, the clock, fresh row ids and random choices are parameters too.

Each random choice is modelled by what it guarantees:

- A shuffle is any permutation.
- The score sort followed by random swaps is any reordering.
- The sampled genre/mood pairs are an input.

Database tables are classes holding a `seq` of rows. The services that write
to them are methods that `modify` the table. Every loop that updates state is
a method with loop invariants, proved equal to a specification function. The
lemmas state their properties about that function.

## Model

| member | source | states |
|---|---|---|
| Catalog.TablesCoverEmotionTags | server/app/services/spotify_service.py:23-76 | The descriptor table and the feature-filter table are keyed by exactly the eight emotion tags. So is the description table. |
| Catalog.PassesFilters | server/app/services/spotify_service.py:401-449 | A track passes exactly when every bound its emotion sets holds. Tolerance is 0.05, and 10 BPM on tempo. A missing feature reads as its default. |
| Catalog.EmptySpecPassesAll | server/app/services/spotify_service.py:401-449 | With no bounds set, every track passes. |
| Catalog.DefaultsPassAllButAngry | server/app/services/spotify_service.py:403-449 | A track with no features at all passes every emotion's filter except ANGRY's, whose 0.60 energy floor rejects the default 0.5. |
| Catalog.BeforeDash | server/app/services/spotify_service.py:468 | The result is the prefix of the date before its first '-' (the whole date when there is none), and holds no '-'. |
| Catalog.ReleaseYear | server/app/services/spotify_service.py:465-471 | The year is never negative. |
| Catalog.ReleaseYearDependsOnYearPart | server/app/services/spotify_service.py:466-471 | Only the text before the first '-' of the date matters: the date cut there gives the same year. |
| Catalog.ReleaseYearOfIsoDate | server/app/services/spotify_service.py:466-469 | A date of the form "Y" or "Y-…", for any natural number Y written in decimal, yields Y. |
| Catalog.BeforeDashOfDigits | server/app/services/spotify_service.py:468 | A digit string followed by "-…", or standing alone, is cut back to that digit string. |
| Catalog.ProcessTrack | server/app/services/spotify_service.py:532-555 | A track is dropped exactly when it has no id, or when its first album image has no url. Otherwise the result keeps the id, names every artist (a missing name reads "Unknown") and carries the first image url. |
| Catalog.ModeLabel | server/app/services/spotify_service.py:600-605 | The label is one of the three mode labels. |
| Catalog.ModeLabelThresholds | server/app/services/spotify_service.py:600-605 | "Mayor" exactly above 0.6, "Menor" exactly below 0.4, "Mixto" exactly in between, both ends included. |
| Catalog.ModeLabelMonotone | server/app/services/spotify_service.py:600-605 | A larger mean never gives a more minor label. |
| Catalog.PlaylistDescription | server/app/services/spotify_service.py:615-627 | A tag gets its own description; anything else gets the generic one. |
| Collector.PlaylistQueries | server/app/services/spotify_service.py:250-253 | One "<emotion> vibes" query (emotion lower-cased), then "best <genre>" for at most the first three genres, so four queries at most. |
| Collector.StepProperties | server/app/services/spotify_service.py:243-245 | One track is appended exactly when it has an id not yet seen. The seen-id set grows by that id. |
| Collector.AbsorbProperties | server/app/services/spotify_service.py:242-245 | Merging one result list extends the candidates, keeps the ids distinct, adds only tracks of that list, and afterwards every id of the list has been seen. |
| Collector.GatherSaturated | server/app/services/spotify_service.py:234-235 | Once the target count is reached, further queries change nothing. |
| Collector.GatherAppend | server/app/services/spotify_service.py:231-276 | Running the strategies one after the other equals running them as one sequence of queries. |
| Collector.GatherProperties | server/app/services/spotify_service.py:232-247 | The candidates have distinct ids and come from the results. While under the target, every id returned has been taken. |
| Collector.AbsorbAppend | server/app/services/spotify_service.py:241-246 | Merging two result lists in turn is merging their concatenation. |
| Collector.AbsorbIsFirstOccurrences | server/app/services/spotify_service.py:241-246 | A merge appends exactly the first occurrence of each id not yet held, in order. |
| Collector.FirstOccurrencesAreFirst | server/app/services/spotify_service.py:241-246 | Each kept track is the first track of the results with its id, which is non-empty, new and kept once. Every new non-empty id of the results is kept. |
| Collector.GatherIssued | server/app/services/spotify_service.py:232-278 | Gathering is merging the results of a prefix of the queries at once. A query is skipped only once the target is held. |
| Collector.StrategyOneBound | server/app/services/spotify_service.py:232-233 | With at most 6 genres drawn and at most 4 moods drawn per genre, strategy 1 issues at most 24 searches. |
| Collector.CollectedProperties | server/app/services/spotify_service.py:214-278 | For all three strategies together: distinct non-empty ids, all from the results. The queries issued are a prefix of all of them, cut short only once the target is reached. The candidates are exactly the first track of each id across the issued queries' results, in order of first occurrence. While under the target, every id returned has been taken. |
| Collector.MergeResults | server/app/services/spotify_service.py:242-245 | The merge loop computes the merge function, and keeps `seen_ids` equal to the candidates' ids. |
| Collector.IssueQueries | server/app/services/spotify_service.py:253-265 | The query loop with its early `break` equals the merge of all the query results. |
| Collector.CollectDiverseCandidates | server/app/services/spotify_service.py:214-278 | The three strategy loops compute the specified candidate list, whose ids are distinct. |
| Diversifier.StrictPassProperties | server/app/services/spotify_service.py:478-488 | Phase 1 takes at most limit//2 tracks from the pool, none repeated, at most one per artist. |
| Diversifier.RelaxedPassProperties | server/app/services/spotify_service.py:491-504 | Phase 2 extends phase 1's selection. It takes only pool tracks not already selected, stays within the limit, and allows at most two tracks per artist. Each track it adds found fewer than two selected tracks of its artist and fewer than two of its album. |
| Diversifier.FillPassProperties | server/app/services/spotify_service.py:507-511 | Phase 3 extends the selection within the limit and without repeats. If it stops short of the limit, every pool track is selected. |
| Diversifier.SelectedProperties | server/app/services/spotify_service.py:473-511 | The selection has no repeats, is a sub-multiset of the pool and holds at most `limit` tracks. It holds exactly `limit` when the pool is at least that large and has no repeats. |
| Diversifier.DiversifiedProperties | server/app/services/spotify_service.py:451-530 | For a pool larger than `limit`, the result is a repeat-free sub-multiset of the pool, of at most `limit` tracks. It has exactly `limit` tracks when the pool has no repeats. |
| Diversifier.StrictPhase | server/app/services/spotify_service.py:477-488 | The phase-1 loop computes phase 1, and its counters equal the artist and album counts of the selection. |
| Diversifier.RelaxedPhase | server/app/services/spotify_service.py:490-504 | The phase-2 loop, with its `break` and `continue`, computes phase 2. |
| Diversifier.FillPhase | server/app/services/spotify_service.py:506-511 | The phase-3 loop computes phase 3. |
| Diversifier.DiversifyTracks | server/app/services/spotify_service.py:451-530 | A pool of at most `limit` tracks comes back unchanged. Otherwise the result is the diversified selection, with the properties above. |
| Recommendation.TrackIds | server/app/services/spotify_service.py:348 | Every id sent to the feature endpoint is non-empty: tracks without an id are skipped. |
| Recommendation.IdIndexFromTracks | server/app/services/spotify_service.py:349 | The id index maps each id to a track with that id. |
| Recommendation.KeptArePassedCopies | server/app/services/spotify_service.py:361-375 | From one reply, only tracks whose features pass are kept, each a copy of an input track carrying its features. Null entries and unknown ids are skipped. |
| Recommendation.ScannedArePassedCopies | server/app/services/spotify_service.py:355-375 | The same over every batch. |
| Recommendation.ErrorBatchAborts | server/app/services/spotify_service.py:381-392 | The first batch not answered with features ends the scan, whatever follows. A 403 marks it denied; any other error does not. |
| Recommendation.ScanAnswered | server/app/services/spotify_service.py:353-376 | With every batch answered the scan runs to the end. Every answered entry that has an id, whose track is indexed and whose features pass, brings that track, carrying those features. |
| Recommendation.KeptComplete | server/app/services/spotify_service.py:360-376 | Within one reply, every entry that passes brings its indexed track, carrying its features. |
| Recommendation.AbortStable | server/app/services/spotify_service.py:381-392 | After an abort, later batches change nothing. |
| Recommendation.FilterOutcomeProperties | server/app/services/spotify_service.py:339-399 | The filter never switches the flag on. With no tracks, no bounds or the flag off, it returns its input. The first batch not answered with features returns the input: on a 403 the flag goes off, on any other error it stays on. With every batch answered the flag is kept. If fewer than 30% pass, the input comes back. Otherwise every entry whose features pass brings its track into the result, carrying those features. A changed result keeps at least 30% of the input, all of it passing copies. |
| Recommendation.KeepPassing | server/app/services/spotify_service.py:361-375 | The per-reply loop computes the kept tracks. |
| Recommendation.ScanInBatches | server/app/services/spotify_service.py:353-392 | The batch loop (50 ids per batch, leaving on 403 or any other error) computes the scan over the chunks of the ids. |
| Recommendation.GatherInBatches | server/app/services/spotify_service.py:571-590 | The analysis batch loop computes the gathered features. A 403 ends it; other errors skip the batch. |
| Recommendation.MeanBounds | server/app/services/spotify_service.py:595-598 | A mean lies between the bounds of the values averaged. |
| Recommendation.SummarizeProperties | server/app/services/spotify_service.py:595-605 | The mean valence and mean energy stay in [0, 1]. All-major tracks give "Mayor" and all-minor tracks give "Menor". |
| Recommendation.AnalyzeOutcomeProperties | server/app/services/spotify_service.py:557-612 | The analysis never switches the flag on. With no ids, or the flag off, it returns the defaults. A 403 on any batch returns the defaults and turns the flag off. Without a 403, the result is the summary of the features of every batch (`Reported`), or the defaults when there are none, and the flag stays on. The mode label is one of the three labels or "N/A". |
| Recommendation.GatherDenied | server/app/services/spotify_service.py:584-587 | A 403 on any batch, whatever came before it, leaves nothing gathered. |
| Recommendation.GatherAnswered | server/app/services/spotify_service.py:571-590 | Without a 403, the gathered features are the non-null entries of every batch in order. A batch with another error adds none. |
| Recommendation.ProcessedAllProperties | server/app/services/spotify_service.py:188-192 | The processed list is no longer than the input, and each entry is the processing of an input track with an id. |
| Recommendation.PoolProperties | server/app/services/spotify_service.py:168-183 | The pool is the candidates unless the flag is on and there are more than 3×limit candidates. A non-empty candidate list never gives an empty pool, because an empty filter result falls back to the candidates. |
| Recommendation.DiversifiedBound | server/app/services/spotify_service.py:180-183 | The diversified list never exceeds `limit`, and is empty for a limit below 1. |
| Recommendation.FinishProperties | server/app/services/spotify_service.py:165-212 | For any candidates: the tag, at most `limit` tracks with ids, `total` equal to their number, the first five genres. The flag never turns on. With the flag off or at most 3×limit candidates the tracks are the diversified candidates themselves, and with the flag off the summary is the default. |
| Recommendation.SpotifyService.FinishRecommendations | server/app/services/spotify_service.py:165-212 | The steps after collection compute `Finish`: the filter only with the flag on and more than 3×limit candidates, the diversifier on the filter's output or on the candidates when it kept nothing, then formatting and the summary. The new flag is the one `Finish` gives. |
| Recommendation.SpotifyService.ProbeAudioFeatures | server/app/services/spotify_service.py:110-131 | The flag is on exactly when the probe returns a non-empty reply whose first entry is not null. |
| Recommendation.SpotifyService.FilterTracksByFeatures | server/app/services/spotify_service.py:339-399 | The method returns the filter's result and sets the flag to the filter's new flag. It never turns the flag on. |
| Recommendation.SpotifyService.AnalyzeTrackFeatures | server/app/services/spotify_service.py:557-612 | The method returns the analysis and sets the flag to its new flag. It never turns the flag on. |
| Recommendation.SpotifyService.ProcessTracks | server/app/services/spotify_service.py:188-192 | The processing loop computes the processed list. |
| Recommendation.SpotifyService.GetRecommendations | server/app/services/spotify_service.py:133-212 | An unknown tag fails with "Emoción desconocida: <TAG>" and leaves the flag alone. A known tag succeeds, and the result and the new flag are `Recommend` of the tag: the collected candidates, finished. So the answer has that tag, `total` equal to the number of tracks (at most `limit`), the first five genres used, and only tracks with ids. The flag is never turned on. |
| MusicController.ValidEmotionsAreTags | server/app/controllers/music_controller.py:24 | The controller's list names each of the recommender's eight tags exactly once. |
| MusicController.Guard | server/app/controllers/music_controller.py:24-36 | The request passes exactly when the upper-cased emotion is a tag and 1 ≤ limit ≤ 100. The emotion is checked first, then the limit, each with its own 400. |
| MusicController.Respond | server/app/controllers/music_controller.py:41-59 | Success adds the tag's description. A failed answer gives 500 with its error, or the default message. An exception gives 500 with the default message, ": " and the exception text. |
| MusicController.GetRecommendations | server/app/controllers/music_controller.py:11-59 | The guards refuse before the service is called. Past them, the answer and the new flag are the service's `Recommend` for the upper-cased tag with no preferred genres, with that tag's description and at most `limit` tracks. |
| AuthSchemas.Bounded | server/app/schemas/auth_schemas.py:8-11 | No error exactly within the bounds. "too short" exactly below the minimum. |
| AuthSchemas.ValidateUsernameAsWritten | server/app/schemas/auth_schemas.py:8-17 | As written, a username passes when it is 3-50 characters long and matches the pattern, whose `$` also lets one trailing line feed through. |
| AuthSchemas.ValidateUsername | server/app/schemas/auth_schemas.py:8-17 | A username passes exactly when it is 3-50 characters of letters, digits, '_' and '-'. It comes back unchanged, and each failure carries its own message. |
| AuthSchemas.UsernameRulesDiffer | server/app/schemas/auth_schemas.py:15 | The written rule accepts exactly the valid usernames, plus valid ones followed by one line feed. |
| AuthSchemas.TrailingLineFeedAccepted | server/app/schemas/auth_schemas.py:15 | "abc\n" passes as written and is refused by the intended rule. |
| AuthSchemas.ValidatePassword | server/app/schemas/auth_schemas.py:9-29 | A password passes exactly when it is 8-100 characters and has a lower-case letter, an upper-case letter, a digit and a special character. The first missing class names the error, in that order. |
| AuthSchemas.PasswordExtends | server/app/schemas/auth_schemas.py:19-29 | Appending characters to an accepted password keeps it accepted while it stays within 100 characters. |
| AuthSchemas.RegistrationErrors | server/app/schemas/auth_schemas.py:6-29 | With the username rule as written: no errors exactly when username, password and both optional names are valid. A username error comes first and carries its reason, a password error is listed with its reason, and there are at most four errors. |
| AuthSchemas.CorrectedRegistrationErrors | server/app/schemas/auth_schemas.py:6-29 | With the whole-value username rule: no errors exactly when every field is valid. It agrees with the rule as written on every username not ending in a line feed. |
| AuthService.RegisterCheck | server/app/services/auth_service.py:15-29 | Registration may go ahead exactly when neither the email nor the username is taken. A taken email is reported first. |
| AuthService.Register | server/app/services/auth_service.py:12-46 | A refused registration leaves the table alone. Otherwise exactly one row is appended, holding the hashed password. Keys stay unique. |
| AuthService.LoginCheck | server/app/services/auth_service.py:53-76 | Take the first row the identifier names (by username or email). If it is inactive, the login gets 403 whatever the password. If it is active with a wrong password, 401. If it is active and the password verifies, success with that row. No such row gives 401, and no other error occurs. |
| AuthService.InactiveRefusedBeforePassword | server/app/services/auth_service.py:66-76 | An inactive account is refused whatever the password. |
| AuthService.Authenticate | server/app/services/auth_service.py:49-83 | A refused login changes nothing. A successful one changes only that row's `last_login`, and returns that row. |
| AuthService.GetUserById | server/app/services/auth_service.py:96-104 | The lookup succeeds exactly when the id exists, returning that row; otherwise 404. |
| Users.FirstIndex | server/app/services/spotify_auth_service.py:203 | `.first()`: the first row satisfying the filter, or none exactly when no row does. |
| Users.SameKeysKeepUnique | server/app/models/user.py:15-17 | Rewriting a row without touching its keys keeps id, email and username unique. |
| Users.FreshKeysKeepUnique | server/app/models/user.py:15-17 | Appending a row with all-new keys keeps them unique. |
| SpotifyAuth.KeepUsernameChars | server/app/services/spotify_auth_service.py:369 | Every character of the result is allowed, every allowed character of the input occurs in it, and the result is no longer than the input. An all-allowed input is kept whole. |
| SpotifyAuth.KeepUsernameCharsAppend | server/app/services/spotify_auth_service.py:369 | The filter works character by character. A single character survives exactly when it is allowed, and filtering a concatenation is the concatenation of the filtered parts. Together these fix the order and the number of each kept character. |
| SpotifyAuth.SanitizeUsername | server/app/services/spotify_auth_service.py:365-374 | The result has 3-50 allowed characters. It gets the "user_" prefix when fewer than 3 survive, and is cut to 50. |
| SpotifyAuth.SanitizeIdempotent | server/app/services/spotify_auth_service.py:365-374 | Sanitising twice equals sanitising once. |
| SpotifyAuth.CandidateInjective | server/app/services/spotify_auth_service.py:382 | Different counters give different usernames. |
| SpotifyAuth.TakenCandidatesBound | server/app/services/spotify_auth_service.py:376-385 | If the first k candidates are all taken, then k is at most the number of users. So the search ends. |
| SpotifyAuth.GenerateUniqueUsername | server/app/services/spotify_auth_service.py:376-385 | The returned username is free. It is the first free one among base, base1, base2, … |
| SpotifyAuth.FirstFreeCandidateUnique | server/app/services/spotify_auth_service.py:376-385 | There is one first free candidate, so the username chosen is determined by the table and the base. |
| SpotifyAuth.PictureAfter | server/app/services/spotify_auth_service.py:215-219 | The profile picture is replaced only when it is empty and the profile has images, and then by the first image. |
| SpotifyAuth.Unlinked | server/app/services/spotify_auth_service.py:325-363 | An unlinked account is refused; then an account without a password. Otherwise every Spotify field is cleared and the rest kept. |
| SpotifyAuth.UnlinkKeepsSignIn | server/app/services/spotify_auth_service.py:342-347 | After unlinking the account can still sign in with a password. |
| SpotifyAuth.LinkedAccount | server/app/services/spotify_auth_service.py:299-317 | Linking sets the Spotify id, email, display name, tokens, an expiry of now plus `expires_in` (3600 when absent) and the connection time. Identity and last login are kept. |
| SpotifyAuth.RelinkAllowed | server/app/services/spotify_auth_service.py:287-291 | When no other row holds the Spotify id, the link is not refused. |
| SpotifyAuth.RefreshedAccount | server/app/services/spotify_auth_service.py:205-219 | A returning Spotify user gets new tokens, expiry, email, a display name that falls back to the Spotify id, and a last login of now. The Spotify id and connection time are kept. |
| SpotifyAuth.SignupEmail | server/app/services/spotify_auth_service.py:233 | A new account takes the Spotify email, or "<id>@spotify.temp" when there is none. |
| SpotifyAuth.SpotifyAccount | server/app/services/spotify_auth_service.py:227-257 | A new Spotify account has no password, is verified and active, and is linked now. Its picture is the first image. |
| SpotifyAuth.Disconnect | server/app/services/spotify_auth_service.py:325-363 | The table changes only in the unlinked row, and only on success. |
| SpotifyAuth.Link | server/app/services/spotify_auth_service.py:266-323 | Linking an id held by another row fails and changes nothing. Otherwise only that row is rewritten. |
| SpotifyAuth.CreateOrUpdate | server/app/services/spotify_auth_service.py:177-264 | A known Spotify id refreshes its row. A new one with a taken email fails and changes nothing. Otherwise exactly one row is appended. Its username is the first free candidate base, base1, base2, … for the sanitised display name. |
| SpotifyAuth.AuthorizationRequest | server/app/services/spotify_auth_service.py:54-79 | The state is the caller's when non-empty, otherwise a fresh token. The request carries that state, the joined scopes and `response_type=code`. |
| SpotifyUser.TokenCheck | server/app/services/spotify_user_service.py:27-73 | Not connected gives 400. An expired token is refreshed, or fails with 401. Only the token and its expiry change. |
| SpotifyUser.TokenCheckSettles | server/app/services/spotify_user_service.py:44-59 | A token just refreshed is not refreshed again at the same instant. |
| SpotifyUser.EnsureValidToken | server/app/services/spotify_user_service.py:27-73 | The table changes only in that user's token fields, and only on a refresh. |
| SpotifyUser.CreateUri | server/app/services/spotify_user_service.py:157-162 | Every URI starts "spotify:track:". An id is prefixed exactly when it does not already start so. |
| SpotifyUser.AddUri | server/app/services/spotify_user_service.py:235 | Every URI starts "spotify:". An id is prefixed with "spotify:track:" exactly when it does not start "spotify:". |
| SpotifyUser.UriConversionsDiverge | server/app/services/spotify_user_service.py:159-235 | The two conversions agree except on "spotify:" ids of other kinds, where creation double-prefixes them. |
| SpotifyUser.CreatePlaylistUris | server/app/services/spotify_user_service.py:157-162 | The loop converts every track, in order. |
| SpotifyUser.PostAllProperties | server/app/services/spotify_user_service.py:164-176 | Posting batches succeeds exactly when every batch posts, and then counts every URI. Otherwise it fails with the message of the first failing batch, all earlier ones having posted. |
| SpotifyUser.PostInBatches | server/app/services/spotify_user_service.py:164-176 | The result is `PostAll` of the consecutive batches of 1-100 URIs. The URIs go out in order, stopping at the first failure, whose message is returned. The result is a success exactly when every batch posts, and the count is then the number of URIs, each sent once. |
| SpotifyUser.CreatePlaylist | server/app/services/spotify_user_service.py:105-206 | A token error is reported and changes no row. Otherwise the row is the token check's result. A refused creation gives 400 with its message. After a creation, success holds exactly when there are no tracks or every batch of their URIs posts; a failed batch gives 400 with its message or the fixed one. Success reports the playlist id and the number of tracks. |
| SpotifyUser.AddTracksToPlaylist | server/app/services/spotify_user_service.py:208-266 | A token error is reported and changes no row. Otherwise the row is the token check's result, and success holds exactly when every batch of the converted URIs posts. Success counts every track. Any posting failure gives the fixed 400 message. |
| SpotifyUser.CheckPlaylistOwnership | server/app/services/spotify_user_service.py:316-345 | A token error is reported and changes no row. Otherwise the row is the token check's result, and ownership holds exactly when the owner id read back equals the user's Spotify id. A failed read gives false. |
| History.SortDescProperties | server/app/services/history_service.py:76-77 | The newest-first order is sorted by creation time and is a permutation of the rows. |
| History.TotalPages | server/app/services/history_service.py:86 | The page count is the ceiling of total over page size. |
| History.PageOf | server/app/services/history_service.py:82-84 | A page is the slice at offset (page-1)×size, at most `size` long, and empty past the end. |
| History.PageNonEmptyIff | server/app/services/history_service.py:82-86 | A page has rows exactly when its number is at most the page count. |
| History.PagesCover | server/app/services/history_service.py:82-84 | Pages 1..n, concatenated, are the first n×size rows. So paging loses and repeats nothing. |
| History.SelectAnalyses | server/app/services/history_service.py:61-74 | A row is selected exactly when it is the caller's and meets every filter given. Each selected row appears as many times as it is stored. The emotion is compared upper-cased; the dates are inclusive. |
| History.UserAnalysesProperties | server/app/services/history_service.py:52-94 | `total` counts the matches. The items are matches, newest first, at most a page long. `total_pages` is the ceiling. |
| History.SelectPlaylists | server/app/services/history_service.py:165-173 | A row is selected exactly when it is the caller's, with the upper-cased emotion and the favourite flag when given. |
| History.UserPlaylistsProperties | server/app/services/history_service.py:155-193 | The same facts for saved playlists. |
| History.FindPlaylist | server/app/services/history_service.py:209-212 | The found index holds a row with that id owned by the caller. There is none exactly when no row qualifies. |
| History.GetPlaylistById | server/app/services/history_service.py:203-220 | 404 "Playlist no encontrada" exactly when the caller has no such playlist; otherwise that row. |
| History.Updated | server/app/services/history_service.py:233-239 | Each given field replaces the stored one; nothing else changes. |
| History.UpdatedProperties | server/app/services/history_service.py:233-239 | An empty update changes nothing. Applying the same update twice equals applying it once. |
| History.EmotionsOf | server/app/services/history_service.py:305-311 | The caller's emotions are empty exactly when the caller has no analyses, and name exactly the emotions of those analyses. |
| History.EmotionsMatchSelection | server/app/services/history_service.py:289-291 | The number of the caller's emotions is the number of the caller's analyses. |
| History.Breakdown | server/app/services/history_service.py:305-316 | The breakdown's keys are exactly the emotions seen. Each maps to the number of analyses carrying it. |
| History.MostCommonIsMaximal | server/app/services/history_service.py:305-317 | There is a most common emotion exactly when there are analyses. It is in the breakdown, and no count exceeds its own. |
| History.OwnPlaylists | server/app/services/history_service.py:294-296 | Exactly the caller's saved playlists, each as many times as it is stored. |
| History.Favorites | server/app/services/history_service.py:299-302 | The count is the number of positions holding a favourite, so it never exceeds the playlists counted. |
| History.UserStatsProperties | server/app/services/history_service.py:285-333 | The statistics: the analysis total, a breakdown over exactly the caller's emotions, a most common emotion with the largest count that exists exactly when there are analyses, and favourites ≤ saved. |
| History.UserStatsRecent | server/app/services/history_service.py:320-333 | The recent analyses are the five newest of the caller's (all when fewer), newest first. No analysis left out is newer than one kept. |
| History.RecentAnalyses | server/app/services/history_service.py:320-324 | Exactly min(5, n) of the caller's n analyses are kept, newest first. No analysis left out is newer than one kept. |
| History.TopIsNewest | server/app/services/history_service.py:320-324 | The first n rows of a newest-first order are a sub-multiset of the rows, and no row left out is newer than a row kept. |
| History.RemoveRow | server/app/services/history_service.py:267-268 | Deleting a row keeps ids unique, removes exactly that row, and leaves no row with its id. |
| History.HistoryStore.CreateEmotionAnalysis | server/app/services/history_service.py:21-41 | Exactly one analysis row is appended; playlists are untouched. |
| History.HistoryStore.SavePlaylist | server/app/services/history_service.py:106-142 | A named analysis that is not the caller's gives 404 "Análisis no encontrado" and changes nothing. Otherwise one playlist row is appended. |
| History.HistoryStore.UpdatePlaylist | server/app/services/history_service.py:223-245 | A 404 changes nothing. Otherwise only that row is replaced, by its update. |
| History.HistoryStore.DeletePlaylist | server/app/services/history_service.py:258-270 | A 404 changes nothing. Otherwise exactly that row is removed, and no row with its id remains. |
| Rekognition.ValidateImage | server/app/services/rekognition_service.py:112-150 | The signature loop with its `break` computes the verdict. Size is checked first, then the three signatures. |
| Rekognition.ImageVerdictProperties | server/app/services/rekognition_service.py:123-150 | An image is valid exactly when it is within the size limit and starts with the JPEG, PNG or RIFF signature. An empty image is invalid. |
| Rekognition.ImageVerdictExtends | server/app/services/rekognition_service.py:123-150 | Only the leading bytes and the size matter: a valid upload extended within the size limit stays valid. |
| Rekognition.Dominant | server/app/services/rekognition_service.py:53-56 | The dominant emotion has the highest confidence and is the first such one. There is none exactly when none are reported. |
| Rekognition.AllEmotionsProperties | server/app/services/rekognition_service.py:59-62 | The map's keys are exactly the reported types. Each maps to the confidence of its last rating. |
| Rekognition.ErrorMessage | server/app/services/rekognition_service.py:89-96 | An unknown code is named in its message. |
| Rekognition.ErrorMessageInjective | server/app/services/rekognition_service.py:89-96 | Different codes give different messages. |
| Rekognition.Analyze | server/app/services/rekognition_service.py:35-110 | No face gives the no-face answer. A detected face always gives an analysis, and only a detected face does. The first face is read: the face count, its dominant emotion and all its emotions. Client errors and other errors each get their message. |
| Rekognition.DominantInAllEmotions | server/app/services/rekognition_service.py:56-62 | The dominant type is a key of the emotion map. |
| MusicClient.TwoDigitsReadBack | client/src/services/musicService.js:63 | A number below 100, padded, is two digits that read back as that number. |
| MusicClient.RenderReadBack | client/src/services/musicService.js:63 | The display splits at its colon into the minutes and two digits of seconds. |
| MusicClient.AsWrittenShowsSixty | client/src/services/musicService.js:61-63 | As written, the last half second of any minute shows second 60 without carrying. |
| MusicClient.AsWrittenExample | client/src/services/musicService.js:61-63 | As written, 119500 ms shows "1:60". |
| MusicClient.FormatDurationReadBack | client/src/services/musicService.js:60-64 | The corrected display reads back as the duration rounded to the nearest second, with seconds 00-59. |
| MusicClient.FormatDurationAgrees | client/src/services/musicService.js:60-64 | The corrected display equals the written one everywhere except the last half second of each minute. |
| EmotionClient.TablesShareKeys | client/src/services/emotionService.js:50-99 | The three client tables are keyed by the server's eight tags. |
| EmotionClient.TranslateEmotion | client/src/services/emotionService.js:49-62 | A tag gets its Spanish name; anything else comes back unchanged. |
| EmotionClient.TranslationsDistinguishTags | client/src/services/emotionService.js:50-59 | Different tags get different names. |
| EmotionClient.TranslateIdempotent | client/src/services/emotionService.js:49-62 | Translating twice equals translating once. |
| EmotionClient.EmotionEmoji | client/src/services/emotionService.js:69-82 | A tag gets its emoji; anything else gets the neutral face. |
| EmotionClient.EmojisDistinguishTags | client/src/services/emotionService.js:70-81 | Different tags get different emojis, none of them the fallback. |
| EmotionClient.EmotionColor | client/src/services/emotionService.js:89-102 | A tag gets its colour; anything else gets grey. |
| EmotionClient.ColorsDistinguishTags | client/src/services/emotionService.js:90-101 | Different tags get different colours, none of them the fallback. |

## Left out

- Network, AWS, Spotify, the database engine, logging, `time.sleep` and the clock: replaced by parameters or reply values, so timeouts and retries are not modelled.
- Floating point: feature values, means and confidences are `real`, so rounding is exact. The 30% rule is stated as `10·kept < 3·total`, which the float comparison `kept < total·0.3` could round differently near the edge.
- The score sort and the random swaps in `_diversify_tracks`: modelled as any reordering of the selection. The score formula itself is not modelled. Neither is the `_year` that the loop writes into each track (the release year is modelled separately, as `Catalog.ReleaseYear`).
- Catalog.ReleaseYear: a digit is one of ASCII '0'-'9'. Python's `str.isdigit` also accepts other digit characters, such as '²', on which `int()` then raises; the model reads such a year part as not digits and gives 2020.
- Collector.StrategyOne: the drawn genres and moods are an input. `Collector.SampleOf` states what `random.sample` can return (at most 6 of the genres, at most 4 of the moods for each, without replacement), and `Collector.StrategyOneBound` is proved from it; the recommendation pipeline does not require it, because none of its properties depends on the draws.
- Diversifier.PrimaryArtist: a track with an empty artist list raises IndexError in the source, at lines 482 and 498. The model reads such a track as artist "Unknown".
- Python `str.upper` and `str.lower` on non-ASCII letters: the model maps ASCII letters only.
- `music_params` of `get_recommendations`: the model returns the feature summary, not the two-decimal display strings.
- Constructors that read credentials from the environment and probe the connection: the initial state (the flag off) is kept; the credential checks are not modelled.
- Recommendation.SpotifyService.GetRecommendations: the `ValueError` raised for an unknown emotion is returned as a `Failure` carrying its message. `success` is always true in the source, so the response holds no flag. `music_params` and `genres_used` are carried as values.
- MusicController.GetRecommendations: in the source the service's `success` is always true, so the "not success" 500 path is unreachable through this method. `Respond` still models it. Exceptions raised inside the service (network failures) are not modelled on this path.
- Rekognition: confidences are not rounded to two decimals. The face-details passthrough (age range, gender, …) is not modelled.
- Rekognition.ImageVerdict: an over-size image is reported with the limit as a whole number of megabytes.
- `get_user_spotify_profile` and `get_user_playlists` in spotify_user_service.py only wrap one HTTP call: not modelled beyond `TokenCheck`.
- `create_user_token` in both auth services: JWT signing is outside the model.
- Hashing and `verify_password` are parameters. `verify_password` on an account without a password hash is whatever the parameter says.
- History: the 500 paths, taken when the database raises, are not modelled. Neither are the `emotion_details`, `photo_metadata` and `music_params` JSON payloads, the `updated_at` column or server-side defaults.
- History: row ids are natural numbers. An empty-string `analysis_id` counts as absent in the source (`if playlist_data.analysis_id:`); the model has no empty id. The cascade from a deleted analysis (`SET NULL` on playlists) is not modelled, since no core operation deletes analyses.
- History.SortDesc: ties in creation time keep the rows' stored order. The database leaves that order unspecified.
- History.MostCommon: ties go to the emotion seen first. The database's group-by order among equal counts is unspecified.
- History.AnalysisMatches: `start_date` and `end_date` are applied whenever given. The source skips a falsy datetime, which no real datetime is.
- Users: email syntax (`EmailStr`), and pydantic's own length-error message texts, are not modelled. `FieldError` carries the bound instead.
- Users: the database's unique-key `IntegrityError` is modelled only where the source can reach it. `AuthService.Register` checks the email and the username first, and row ids are fresh, so it cannot be raised there. The Spotify sign-up in `SpotifyAuth.CreateOrUpdate` inserts without checking the email. The model turns a taken email into a 500 error, `EmailTaken`, and leaves the table unchanged, as after the rollback. Its detail text "users.email" stands in for the driver's message, which is not modelled. Usernames cannot collide there, because the first free candidate is chosen.
- SpotifyAuth: a Spotify profile without an `id` (None) is not modelled; the id is a string.
- MusicClient: negative, fractional and non-finite durations are not modelled. Durations are whole milliseconds.
- EmotionClient: JavaScript looks keys up in the prototype chain too, so inputs like "constructor" do not fall back. The model treats every non-tag as falling back.

## Findings

| source | as written | input that shows it | evidently intended | confidence | as-written member | corrected member |
|---|---|---|---|---|---|---|
| server/app/schemas/auth_schemas.py:15 | The username pattern ends in `$`. Under `re.match`, `$` also matches just before a final line feed, so a username with a trailing "\n" passes. | "abc\n" | Only letters, digits, '_' and '-' are allowed. | not executed | AuthSchemas.TrailingLineFeedAccepted | AuthSchemas.ValidateUsername |
| client/src/services/musicService.js:61-63 | Seconds are rounded with `toFixed(0)` inside the minute, and the round-up is never carried into the minutes. | 119500 ms renders "1:60" | "2:00": round the whole duration to seconds, then split it. | not executed | MusicClient.AsWrittenExample | MusicClient.FormatDurationReadBack |

=== FILE: auth_schemas.dfy ===
/**
 * The registration request's field rules (server/app/schemas/auth_schemas.py):
 * length bounds first, then the username pattern and the password strength
 * checks in their order, each with its message. The e-mail field's format
 * check is not part of this model.
 */
module AuthSchemas {
  import opened Wrappers
  import opened Text

  /** Why a field was refused: a length bound, or a validator's message. */
  datatype FieldError = TooShort(min: nat) | TooLong(max: nat) | Rejected(message: string)

  const UsernameMin := 3
  const UsernameMax := 50
  const PasswordMin := 8
  const PasswordMax := 100
  const NameMax := 100

  const UsernameMessage := "El username solo puede contener letras, n\U{FA}meros, guiones y guiones bajos"
  const NoLowercase := "La contrase\U{F1}a debe contener al menos una letra min\U{FA}scula"
  const NoUppercase := "La contrase\U{F1}a debe contener al menos una letra may\U{FA}scula"
  const NoDigit := "La contrase\U{F1}a debe contener al menos un n\U{FA}mero"
  const NoSpecial := "La contrase\U{F1}a debe contener al menos un car\U{E1}cter especial"

  /** Length bounds, checked before any validator runs. */
  function Bounded(v: string, min: nat, max: nat): (r: Option<FieldError>)
    ensures r.None? <==> min <= |v| <= max
    ensures r == Some(TooShort(min)) <==> |v| < min
  {
    if |v| < min then Some(TooShort(min)) else if |v| > max then Some(TooLong(max)) else None
  }

  /** `[a-zA-Z0-9_-]` */
  predicate UsernameChar(c: char) {
    IsAsciiLower(c) || IsAsciiUpper(c) || IsDigit(c) || c == '_' || c == '-'
  }

  predicate AllUsernameChars(v: string) {
    forall i :: 0 <= i < |v| ==> UsernameChar(v[i])
  }

  /**
   * `re.match("^[a-zA-Z0-9_-]+$", v)` as Python evaluates it: `$` also
   * matches just before a final line feed, so one trailing "\n" is let through.
   */
  predicate UsernamePatternAsWritten(v: string) {
    || (|v| >= 1 && AllUsernameChars(v))
    || (|v| >= 2 && v[|v| - 1] == '\n' && AllUsernameChars(v[..|v| - 1]))
  }

  /** The pattern matched against the whole value. */
  predicate UsernamePattern(v: string) {
    |v| >= 1 && AllUsernameChars(v)
  }

  /** `username_alphanumeric` after the length bounds, as written. */
  function ValidateUsernameAsWritten(v: string): (r: Result<string, FieldError>)
    ensures r.Success? <==> UsernameMin <= |v| <= UsernameMax && UsernamePatternAsWritten(v)
  {
    var bound := Bounded(v, UsernameMin, UsernameMax);
    if bound.Some? then Failure(bound.value)
    else if !UsernamePatternAsWritten(v) then Failure(Rejected(UsernameMessage))
    else Success(v)
  }

  /** The username rule as its message states it: 3 to 50 letters, digits, '-' or '_'. */
  function ValidateUsername(v: string): (r: Result<string, FieldError>)
    ensures r.Success? <==> UsernameMin <= |v| <= UsernameMax && AllUsernameChars(v)
    ensures r.Success? ==> r.value == v
    ensures r.Failure? && UsernameMin <= |v| <= UsernameMax ==> r.error == Rejected(UsernameMessage)
    ensures r.Failure? && |v| < UsernameMin ==> r.error == TooShort(UsernameMin)
    ensures r.Failure? && |v| > UsernameMax ==> r.error == TooLong(UsernameMax)
  {
    var bound := Bounded(v, UsernameMin, UsernameMax);
    if bound.Some? then Failure(bound.value)
    else if !UsernamePattern(v) then Failure(Rejected(UsernameMessage))
    else Success(v)
  }

  /**
   * The rule as written accepts exactly what the whole-value rule accepts,
   * plus allowed names followed by one line feed.
   */
  lemma UsernameRulesDiffer(v: string)
    ensures ValidateUsernameAsWritten(v).Success? <==>
      || ValidateUsername(v).Success?
      || (UsernameMin <= |v| <= UsernameMax && v[|v| - 1] == '\n' && AllUsernameChars(v[..|v| - 1]))
  {
  }

  /** "abc\n" is a username the rule as written accepts and the whole-value rule refuses. */
  lemma TrailingLineFeedAccepted()
    ensures ValidateUsernameAsWritten("abc\n").Success?
    ensures ValidateUsername("abc\n") == Failure(Rejected(UsernameMessage))
  {
    assert AllUsernameChars("abc\n"[..3]) by {
      assert "abc\n"[..3] == "abc";
    }
    assert !UsernameChar("abc\n"[3]);
  }

  /** `[!@#$%^&*(),.?":{}|<>]` */
  predicate SpecialChar(c: char) {
    c in "!@#$%^&*(),.?\":{}|<>"
  }

  predicate Has(v: string, p: char -> bool) {
    exists i :: 0 <= i < |v| && p(v[i])
  }

  /**
   * `password_strength` after the length bounds: a lowercase letter, an
   * uppercase letter, a digit and a special character, asked for in that
   * order; the first one missing gives the message.
   */
  function ValidatePassword(v: string): (r: Result<string, FieldError>)
    ensures r.Success? <==>
      && PasswordMin <= |v| <= PasswordMax
      && Has(v, IsAsciiLower) && Has(v, IsAsciiUpper) && Has(v, IsDigit) && Has(v, SpecialChar)
    ensures r.Success? ==> r.value == v
    ensures PasswordMin <= |v| <= PasswordMax ==>
      && (!Has(v, IsAsciiLower) ==> r == Failure(Rejected(NoLowercase)))
      && (Has(v, IsAsciiLower) && !Has(v, IsAsciiUpper) ==> r == Failure(Rejected(NoUppercase)))
      && (Has(v, IsAsciiLower) && Has(v, IsAsciiUpper) && !Has(v, IsDigit) ==> r == Failure(Rejected(NoDigit)))
      && (Has(v, IsAsciiLower) && Has(v, IsAsciiUpper) && Has(v, IsDigit) && !Has(v, SpecialChar) ==>
            r == Failure(Rejected(NoSpecial)))
  {
    var bound := Bounded(v, PasswordMin, PasswordMax);
    if bound.Some? then Failure(bound.value)
    else if !Has(v, IsAsciiLower) then Failure(Rejected(NoLowercase))
    else if !Has(v, IsAsciiUpper) then Failure(Rejected(NoUppercase))
    else if !Has(v, IsDigit) then Failure(Rejected(NoDigit))
    else if !Has(v, SpecialChar) then Failure(Rejected(NoSpecial))
    else Success(v)
  }

  /** Appending characters to an accepted password keeps it accepted while it stays within 100 characters. */
  lemma {:induction false} PasswordExtends(v: string, w: string)
    requires ValidatePassword(v).Success?
    requires |v + w| <= PasswordMax
    ensures ValidatePassword(v + w).Success?
  {
    forall p: char -> bool | Has(v, p) ensures Has(v + w, p) {
      var i :| 0 <= i < |v| && p(v[i]);
      assert (v + w)[i] == v[i];
    }
  }

  /** A registration body's fields other than the e-mail. */
  datatype Registration = Registration(username: string, password: string, firstName: Option<string>, lastName: Option<string>)

  function NameError(name: Option<string>): Option<FieldError> {
    if name.Some? && |name.value| > NameMax then Some(TooLong(NameMax)) else None
  }

  /** The errors of the fields after the username, in field order. */
  function OtherFieldErrors(reg: Registration): seq<(string, FieldError)> {
    var p := ValidatePassword(reg.password);
    var f := NameError(reg.firstName);
    var l := NameError(reg.lastName);
    (if p.Failure? then [("password", p.error)] else [])
    + (if f.Some? then [("first_name", f.value)] else [])
    + (if l.Some? then [("last_name", l.value)] else [])
  }

  /**
   * The errors of every field, in field order, as a request body is
   * validated as a whole, with the username rule as written.
   */
  function RegistrationErrors(reg: Registration): (errs: seq<(string, FieldError)>)
    ensures errs == [] <==>
      && ValidateUsernameAsWritten(reg.username).Success?
      && ValidatePassword(reg.password).Success?
      && (reg.firstName.Some? ==> |reg.firstName.value| <= NameMax)
      && (reg.lastName.Some? ==> |reg.lastName.value| <= NameMax)
    ensures ValidateUsernameAsWritten(reg.username).Failure? <==> |errs| > 0 && errs[0].0 == "username"
    ensures ValidateUsernameAsWritten(reg.username).Failure? ==>
      errs[0] == ("username", ValidateUsernameAsWritten(reg.username).error)
    ensures ValidatePassword(reg.password).Failure? ==> ("password", ValidatePassword(reg.password).error) in errs
    ensures |errs| <= 4
  {
    var u := ValidateUsernameAsWritten(reg.username);
    (if u.Failure? then [("username", u.error)] else []) + OtherFieldErrors(reg)
  }

  /**
   * The same with the whole-value username rule: it differs from the rule
   * as written only on a username ending in a line feed.
   */
  function CorrectedRegistrationErrors(reg: Registration): (errs: seq<(string, FieldError)>)
    ensures errs == [] <==>
      && ValidateUsername(reg.username).Success?
      && ValidatePassword(reg.password).Success?
      && (reg.firstName.Some? ==> |reg.firstName.value| <= NameMax)
      && (reg.lastName.Some? ==> |reg.lastName.value| <= NameMax)
    ensures (reg.username == [] || reg.username[|reg.username| - 1] != '\n') ==> errs == RegistrationErrors(reg)
    ensures |errs| <= 4
  {
    var u := ValidateUsername(reg.username);
    (if u.Failure? then [("username", u.error)] else []) + OtherFieldErrors(reg)
  }
}

=== FILE: auth_service.dfy ===
/**
 * Password registration and login (server/app/services/auth_service.py).
 * Password hashing and verification are the functions `hash` and `verify`;
 * the clock is the parameter `now`; the new row's id is the parameter
 * `freshId`, standing for the database's uuid default.
 */
module AuthService {
  import opened Wrappers
  import opened Users

  const EmailInUse := Error(400, "El email ya est\U{E1} registrado")
  const UsernameInUse := Error(400, "El username ya est\U{E1} en uso")
  const BadCredentials := Error(401, "Credenciales incorrectas")
  const InactiveUser := Error(403, "Usuario inactivo")
  const UserNotFound := Error(404, "Usuario no encontrado")

  /**
   * The guard of `register_user`: a taken email is reported whatever the
   * username, and a taken username only when the email is free.
   */
  function RegisterCheck(rows: seq<User>, email: string, username: string): (r: Option<Error>)
    ensures r.None? <==> !HasEmail(rows, email) && !HasUsername(rows, username)
    ensures HasEmail(rows, email) ==> r == Some(EmailInUse)
    ensures !HasEmail(rows, email) && HasUsername(rows, username) ==> r == Some(UsernameInUse)
  {
    if FirstIndex(rows, (u: User) => u.email == email).Some? then Some(EmailInUse)
    else if FirstIndex(rows, (u: User) => u.username == username).Some? then Some(UsernameInUse)
    else None
  }

  /** A freshly registered account: active, unverified, never logged in, no Spotify link. */
  function NewAccount(id: nat, email: string, username: string, passwordHash: string,
                      firstName: Option<string>, lastName: Option<string>): User
  {
    User(id, email, username, Some(passwordHash), firstName, lastName, None, true, false, None,
         None, None, None, None, None, None, false, None)
  }

  /** `register_user`. */
  method Register(table: UserTable, email: string, username: string, password: string,
                  firstName: Option<string>, lastName: Option<string>,
                  hash: string -> string, freshId: nat)
    returns (r: Result<User, Error>)
    requires table.Valid() && !HasId(table.rows, freshId)
    modifies table
    ensures table.Valid()
    ensures RegisterCheck(old(table.rows), email, username).Some? ==>
      r == Failure(RegisterCheck(old(table.rows), email, username).value) && table.rows == old(table.rows)
    ensures RegisterCheck(old(table.rows), email, username).None? ==>
      r == Success(NewAccount(freshId, email, username, hash(password), firstName, lastName))
      && table.rows == old(table.rows) + [r.value]
  {
    var check := RegisterCheck(table.rows, email, username);
    if check.Some? {
      return Failure(check.value);
    }
    var user := NewAccount(freshId, email, username, hash(password), firstName, lastName);
    FreshKeysKeepUnique(table.rows, user);
    table.rows := table.rows + [user];
    return Success(user);
  }

  /** A row the login identifier names: its username or its email equals it. */
  predicate Names(u: User, identifier: string) {
    u.username == identifier || u.email == identifier
  }

  /** Row `i` is the first row the identifier names (the one the query returns). */
  predicate FirstNamed(rows: seq<User>, identifier: string, i: nat) {
    i < |rows| && Names(rows[i], identifier) && forall j :: 0 <= j < i ==> !Names(rows[j], identifier)
  }

  /**
   * The guard chain of `authenticate_user` on the first row the identifier
   * names: no such row is 401, an inactive row is 403 before any password
   * check, a wrong password is 401; otherwise the row's index.
   */
  function LoginCheck(rows: seq<User>, identifier: string, password: string,
                      verify: (string, Option<string>) -> bool): (r: Result<nat, Error>)
    ensures r.Success? ==>
      && FirstNamed(rows, identifier, r.value)
      && rows[r.value].isActive && verify(password, rows[r.value].passwordHash)
    ensures (forall j :: 0 <= j < |rows| ==> !Names(rows[j], identifier)) ==> r == Failure(BadCredentials)
    ensures forall i: nat :: FirstNamed(rows, identifier, i) ==>
      && (!rows[i].isActive ==> r == Failure(InactiveUser))
      && (rows[i].isActive && !verify(password, rows[i].passwordHash) ==> r == Failure(BadCredentials))
      && (rows[i].isActive && verify(password, rows[i].passwordHash) ==> r == Success(i))
    ensures r == Failure(InactiveUser) ==> exists j :: 0 <= j < |rows| && Names(rows[j], identifier) && !rows[j].isActive
    ensures r.Failure? ==> r.error in {BadCredentials, InactiveUser}
  {
    var found := FirstIndex(rows, (u: User) => Names(u, identifier));
    if found.None? then Failure(BadCredentials)
    else if !rows[found.value].isActive then Failure(InactiveUser)
    else if !verify(password, rows[found.value].passwordHash) then Failure(BadCredentials)
    else Success(found.value)
  }

  /** An inactive account is refused whatever the password. */
  lemma InactiveRefusedBeforePassword(rows: seq<User>, identifier: string, p1: string, p2: string,
                                      verify: (string, Option<string>) -> bool)
    requires LoginCheck(rows, identifier, p1, verify) == Failure(InactiveUser)
    ensures LoginCheck(rows, identifier, p2, verify) == Failure(InactiveUser)
  {
  }

  /** `authenticate_user`: a successful login changes the row's `last_login` and nothing else. */
  method Authenticate(table: UserTable, identifier: string, password: string,
                      verify: (string, Option<string>) -> bool, now: int)
    returns (r: Result<User, Error>)
    requires table.Valid()
    modifies table
    ensures table.Valid()
    ensures LoginCheck(old(table.rows), identifier, password, verify).Failure? ==>
      r == Failure(LoginCheck(old(table.rows), identifier, password, verify).error) && table.rows == old(table.rows)
    ensures LoginCheck(old(table.rows), identifier, password, verify).Success? ==>
      var i := LoginCheck(old(table.rows), identifier, password, verify).value;
      && table.rows == old(table.rows)[i := old(table.rows)[i].(lastLogin := Some(now))]
      && r == Success(table.rows[i])
  {
    var check := LoginCheck(table.rows, identifier, password, verify);
    if check.Failure? {
      return Failure(check.error);
    }
    var i := check.value;
    var user := table.rows[i].(lastLogin := Some(now));
    SameKeysKeepUnique(table.rows, i, user);
    table.rows := table.rows[i := user];
    return Success(user);
  }

  /** `get_user_by_id`: the row with that id, or 404. */
  function GetUserById(rows: seq<User>, id: nat): (r: Result<User, Error>)
    ensures r.Success? <==> HasId(rows, id)
    ensures r.Success? ==> r.value in rows && r.value.id == id
    ensures r.Failure? ==> r.error == UserNotFound
  {
    var found := FirstIndex(rows, (u: User) => u.id == id);
    if found.Some? then Success(rows[found.value]) else Failure(UserNotFound)
  }
}

=== FILE: batching.dfy ===
/**
 * Splitting a list into consecutive slices of bounded size, as the loops
 * `for i in range(0, len(xs), n): batch = xs[i:i + n]` of the catalog and
 * playlist services do.
 */
module Batching {

  function Min(a: int, b: int): int { if a <= b then a else b }

  /** The batches `xs[0:n]`, `xs[n:2n]`, ... in order. */
  function Chunks<T>(xs: seq<T>, n: nat): seq<seq<T>>
    requires n > 0
    decreases |xs|
  {
    if |xs| == 0 then [] else if |xs| <= n then [xs] else [xs[..n]] + Chunks(xs[n..], n)
  }

  function Flatten<T>(xss: seq<seq<T>>): seq<T> {
    if xss == [] then [] else xss[0] + Flatten(xss[1..])
  }

  lemma FlattenAppend<T>(a: seq<seq<T>>, b: seq<seq<T>>)
    ensures Flatten(a + b) == Flatten(a) + Flatten(b)
  {
    if a != [] {
      assert (a + b)[1..] == a[1..] + b;
      FlattenAppend(a[1..], b);
    } else {
      assert a + b == b;
    }
  }

  /** The batches cover the list exactly, in order. */
  lemma {:induction false} ChunksCover<T>(xs: seq<T>, n: nat)
    requires n > 0
    ensures Flatten(Chunks(xs, n)) == xs
    decreases |xs|
  {
    if |xs| > n {
      ChunksCover(xs[n..], n);
      assert xs == xs[..n] + xs[n..];
    }
  }

  /** Every batch is non-empty and holds at most `n` elements; all but the last hold exactly `n`. */
  lemma {:induction false} ChunksBounded<T>(xs: seq<T>, n: nat)
    requires n > 0
    ensures forall k :: 0 <= k < |Chunks(xs, n)| ==> 1 <= |Chunks(xs, n)[k]| <= n
    ensures forall k :: 0 <= k < |Chunks(xs, n)| - 1 ==> |Chunks(xs, n)[k]| == n
    decreases |xs|
  {
    if |xs| > n {
      ChunksBounded(xs[n..], n);
    }
  }

  /** One step of the batch loop: the batch taken at offset `i` is the head of the remaining batches. */
  lemma ChunksStep<T>(xs: seq<T>, n: nat, i: nat)
    requires n > 0 && i < |xs|
    ensures Chunks(xs[i..], n) == [xs[i..Min(i + n, |xs|)]] + Chunks(xs[Min(i + n, |xs|)..], n)
  {
    if |xs[i..]| > n {
      assert xs[i..][n..] == xs[i + n..];
      assert xs[i..][..n] == xs[i..i + n];
    } else {
      assert Min(i + n, |xs|) == |xs|;
      assert xs[i..|xs|] == xs[i..];
      assert xs[|xs|..] == [];
    }
  }

  /**
   * The batch loop's invariant `done + Chunks(xs[i..], n) == Chunks(xs, n)`
   * carries over to the next offset once the batch at `i` is done.
   */
  lemma ChunksAdvance<T>(xs: seq<T>, n: nat, i: nat, done: seq<seq<T>>)
    requires n > 0 && i < |xs|
    requires done + Chunks(xs[i..], n) == Chunks(xs, n)
    ensures var next := Min(i + n, |xs|);
      && (done + [xs[i..next]]) + Chunks(xs[next..], n) == Chunks(xs, n)
      && (done + [xs[i..next]])[..|done|] == done
  {
    var next := Min(i + n, |xs|);
    ChunksStep(xs, n, i);
    assert (done + [xs[i..next]]) + Chunks(xs[next..], n) == done + ([xs[i..next]] + Chunks(xs[next..], n));
    assert (done + [xs[i..next]])[..|done|] == done;
  }
}

=== FILE: catalog.dfy ===
/**
 * The value layer of the recommendation service (server/app/services/spotify_service.py):
 * catalog tracks as the service reads them, the per-emotion descriptor and
 * audio-feature tables, the per-track bound check, release-year parsing,
 * track formatting, the major/minor label and the playlist description.
 */
module Catalog {
  import opened Wrappers
  import opened Text

  /** The eight emotion tags the service knows. */
  const EmotionTags: set<string> :=
    {"HAPPY", "SAD", "ANGRY", "CALM", "SURPRISED", "FEAR", "DISGUSTED", "CONFUSED"}

  datatype Descriptor = Descriptor(moods: seq<string>, genres: seq<string>, artists: seq<string>)

  /**
   * A catalog album. A field the catalog left out is `None`; `releaseDate`
   * is "" when absent, as `album.get('release_date', '')` reads it.
   */
  datatype Album = Album(name: Option<string>, releaseDate: string, imageUrls: seq<Option<string>>)

  /** Audio features of one track; a field the catalog left out is `None`. */
  datatype AudioFeatures = AudioFeatures(
    id: string,
    valence: Option<real>,
    energy: Option<real>,
    danceability: Option<real>,
    acousticness: Option<real>,
    tempo: Option<real>,
    mode: Option<real>)

  /**
   * A catalog track. `id` is "" when the catalog gave no (or an empty) id,
   * which is what the service's truthiness tests on `track.get('id')` see.
   * `artists` holds the `name` of each artist object (`None` when missing),
   * `features` is the `_features` entry the feature filter attaches.
   */
  datatype Track = Track(
    id: string,
    name: Option<string>,
    artists: seq<Option<string>>,
    album: Option<Album>,
    previewUrl: Option<string>,
    spotifyUrl: Option<string>,
    durationMs: Option<int>,
    popularity: Option<int>,
    features: Option<AudioFeatures>)

  /** A per-emotion bound spec; an absent bound leaves that dimension free. */
  datatype FilterSpec = FilterSpec(
    minValence: Option<real>,
    maxValence: Option<real>,
    minEnergy: Option<real>,
    maxEnergy: Option<real>,
    minDanceability: Option<real>,
    maxAcousticness: Option<real>,
    minAcousticness: Option<real>,
    tempoRange: Option<(real, real)>,
    maxTempo: Option<real>)

  const NoBounds: FilterSpec := FilterSpec(None, None, None, None, None, None, None, None, None)

  /** The per-emotion mood, genre and seed-artist keywords (spotify_service.py:23-64). */
  const EmotionDescriptors: map<string, Descriptor> := map[
    "HAPPY" := Descriptor(
      moods := ["happy", "upbeat", "cheerful", "joyful", "energetic", "fun", "party", "celebration", "summer", "feel good"],
      genres := ["pop", "dance", "disco", "funk", "indie pop", "electropop", "reggaeton", "latin", "house", "tropical"],
      artists := ["Dua Lipa", "The Weeknd", "Bruno Mars", "Daft Punk", "Lizzo", "Mark Ronson"]),
    "SAD" := Descriptor(
      moods := ["sad", "melancholic", "emotional", "heartbreak", "lonely", "nostalgic", "somber", "blue", "rainy"],
      genres := ["indie", "acoustic", "singer-songwriter", "alternative", "folk", "soul", "blues"],
      artists := ["Billie Eilish", "Lana Del Rey", "Bon Iver", "Adele", "Sam Smith"]),
    "ANGRY" := Descriptor(
      moods := ["angry", "aggressive", "intense", "powerful", "fierce", "raw", "rebellious"],
      genres := ["rock", "metal", "punk", "hard rock", "rap", "electronic", "nu metal"],
      artists := ["Rage Against The Machine", "Linkin Park", "Metallica", "Eminem"]),
    "CALM" := Descriptor(
      moods := ["calm", "peaceful", "relaxing", "chill", "tranquil", "ambient", "lofi", "meditation"],
      genres := ["ambient", "acoustic", "chillout", "lo-fi", "instrumental", "jazz", "classical"],
      artists := ["Nils Frahm", "\U{D3}lafur Arnalds", "Bonobo", "Tycho"]),
    "SURPRISED" := Descriptor(
      moods := ["surprising", "exciting", "dynamic", "electric", "vibrant", "unexpected"],
      genres := ["electronic", "edm", "pop", "dance", "synthpop", "electro"],
      artists := ["Daft Punk", "Justice", "Calvin Harris", "Disclosure"]),
    "FEAR" := Descriptor(
      moods := ["dark", "mysterious", "haunting", "eerie", "dramatic", "suspense"],
      genres := ["alternative", "indie", "electronic", "ambient", "experimental", "darkwave"],
      artists := ["Radiohead", "Nine Inch Nails", "Massive Attack"]),
    "DISGUSTED" := Descriptor(
      moods := ["gritty", "raw", "intense", "harsh", "aggressive", "edgy"],
      genres := ["grunge", "alternative", "punk", "industrial", "noise rock"],
      artists := ["Nirvana", "Nine Inch Nails", "Soundgarden"]),
    "CONFUSED" := Descriptor(
      moods := ["experimental", "unusual", "eclectic", "psychedelic", "abstract", "weird"],
      genres := ["alternative", "indie", "experimental", "psychedelic", "art rock", "progressive"],
      artists := ["Radiohead", "Tame Impala", "Pink Floyd", "Bj\U{F6}rk"])
  ]

  /** Fixed playlist descriptions per emotion (spotify_service.py:617-626). */
  const Descriptions: map<string, string> := map[
    "HAPPY" := "\U{A1}M\U{FA}sica alegre y energ\U{E9}tica para celebrar tu felicidad! \U{1F389}",
    "SAD" := "Canciones emotivas que acompa\U{F1}an tus momentos de reflexi\U{F3}n \U{1F499}",
    "ANGRY" := "M\U{FA}sica poderosa para canalizar tu energ\U{ED}a \U{1F525}",
    "CALM" := "Melod\U{ED}as relajantes para tu paz interior \U{1F9D8}",
    "SURPRISED" := "Canciones que capturan ese momento de asombro \U{2728}",
    "FEAR" := "M\U{FA}sica que te acompa\U{F1}a en momentos de incertidumbre \U{1F319}",
    "DISGUSTED" := "Canciones alternativas que expresan tu disgusto \U{1F3B8}",
    "CONFUSED" := "M\U{FA}sica experimental para tu estado de confusi\U{F3}n \U{1F300}"
  ]

  const DefaultDescription: string := "M\U{FA}sica personalizada seg\U{FA}n tu emoci\U{F3}n \U{1F3B5}"

  /** The per-emotion feature bounds (spotify_service.py:67-76). */
  const EmotionFeatureFilters: map<string, FilterSpec> := map[
    "HAPPY" := NoBounds.(minValence := Some(0.45), minEnergy := Some(0.40), tempoRange := Some((80.0, 160.0))),
    "SAD" := NoBounds.(maxValence := Some(0.60), maxEnergy := Some(0.65), tempoRange := Some((40.0, 110.0))),
    "ANGRY" := NoBounds.(minEnergy := Some(0.60), tempoRange := Some((90.0, 190.0))),
    "CALM" := NoBounds.(maxEnergy := Some(0.55), maxTempo := Some(120.0)),
    "SURPRISED" := NoBounds.(minValence := Some(0.45), minEnergy := Some(0.50), tempoRange := Some((90.0, 170.0))),
    "FEAR" := NoBounds.(minEnergy := Some(0.35), maxValence := Some(0.55), tempoRange := Some((50.0, 130.0))),
    "DISGUSTED" := NoBounds.(minEnergy := Some(0.50), tempoRange := Some((70.0, 150.0))),
    "CONFUSED" := NoBounds.(tempoRange := Some((60.0, 150.0)))
  ]

  /** Every table is keyed by exactly the eight emotion tags. */
  lemma TablesCoverEmotionTags()
    ensures EmotionDescriptors.Keys == EmotionTags
    ensures EmotionFeatureFilters.Keys == EmotionTags
    ensures Descriptions.Keys == EmotionTags
  {
  }

  // ---------------------------------------------------------------------
  // Per-track bound check (`_passes_filters`)
  // ---------------------------------------------------------------------

  const Tolerance: real := 0.05
  const TempoTolerance: real := 10.0

  predicate AtLeast(x: real, bound: Option<real>, tol: real) {
    bound.None? || x >= bound.value - tol
  }

  predicate AtMost(x: real, bound: Option<real>, tol: real) {
    bound.None? || x <= bound.value + tol
  }

  predicate InRange(x: real, range: Option<(real, real)>, tol: real) {
    range.None? || (range.value.0 - tol <= x <= range.value.1 + tol)
  }

  /**
   * Every bound present in `spec` holds of `f`, widened by the tolerance
   * (0.05 on 0-1 features, 10 BPM on tempo), with a missing valence or
   * energy read as 0.5 and a missing tempo as 120.
   */
  predicate WithinSpec(f: AudioFeatures, spec: FilterSpec) {
    var val, eng, dnc, ac, tempo :=
      f.valence.GetOr(0.5), f.energy.GetOr(0.5), f.danceability.GetOr(0.5),
      f.acousticness.GetOr(0.5), f.tempo.GetOr(120.0);
    && AtLeast(val, spec.minValence, Tolerance) && AtMost(val, spec.maxValence, Tolerance)
    && AtLeast(eng, spec.minEnergy, Tolerance) && AtMost(eng, spec.maxEnergy, Tolerance)
    && AtLeast(dnc, spec.minDanceability, Tolerance)
    && AtMost(ac, spec.maxAcousticness, Tolerance) && AtLeast(ac, spec.minAcousticness, Tolerance)
    && InRange(tempo, spec.tempoRange, TempoTolerance)
    && AtMost(tempo, spec.maxTempo, TempoTolerance)
  }

  /** The service's sequence of early rejections, one bound at a time. */
  function PassesFilters(f: AudioFeatures, spec: FilterSpec): (ok: bool)
    ensures ok <==> WithinSpec(f, spec)
  {
    var val := f.valence.GetOr(0.5);
    var eng := f.energy.GetOr(0.5);
    var dnc := f.danceability.GetOr(0.5);
    var ac := f.acousticness.GetOr(0.5);
    var tempo := f.tempo.GetOr(120.0);
    if spec.minValence.Some? && val < spec.minValence.value - Tolerance then false
    else if spec.maxValence.Some? && val > spec.maxValence.value + Tolerance then false
    else if spec.minEnergy.Some? && eng < spec.minEnergy.value - Tolerance then false
    else if spec.maxEnergy.Some? && eng > spec.maxEnergy.value + Tolerance then false
    else if spec.minDanceability.Some? && dnc < spec.minDanceability.value - Tolerance then false
    else if spec.maxAcousticness.Some? && ac > spec.maxAcousticness.value + Tolerance then false
    else if spec.minAcousticness.Some? && ac < spec.minAcousticness.value - Tolerance then false
    else if spec.tempoRange.Some? && !(spec.tempoRange.value.0 - TempoTolerance <= tempo <= spec.tempoRange.value.1 + TempoTolerance) then false
    else if spec.maxTempo.Some? && tempo > spec.maxTempo.value + TempoTolerance then false
    else true
  }

  /** A spec without bounds lets every track through. */
  lemma EmptySpecPassesAll(f: AudioFeatures)
    ensures PassesFilters(f, NoBounds)
  {
  }

  /**
   * A track whose features carry no values is read as valence 0.5, energy
   * 0.5, tempo 120: it passes every emotion's bounds except ANGRY's
   * (minimum energy 0.60 - 0.05 > 0.5).
   */
  lemma DefaultsPassAllButAngry(id: string)
    ensures forall e :: e in EmotionFeatureFilters ==>
      (PassesFilters(AudioFeatures(id, None, None, None, None, None, None), EmotionFeatureFilters[e]) <==> e != "ANGRY")
  {
  }

  // ---------------------------------------------------------------------
  // Release year (`_diversify_tracks`, spotify_service.py:465-471)
  // ---------------------------------------------------------------------

  /** The text before the first '-' (`s.split('-')[0]`), or all of `s`. */
  function BeforeDash(s: string): (r: string)
    ensures |r| <= |s| && r == s[..|r|]
    ensures '-' !in r
    ensures |r| < |s| ==> s[|r|] == '-'
  {
    if s == [] || s[0] == '-' then [] else [s[0]] + BeforeDash(s[1..])
  }

  const DefaultYear: int := 2020

  /**
   * The release year read from `album.release_date`: the number before the
   * first '-' when that part is a non-empty run of digits, and 2020 otherwise
   * (no album, no date, or a part that is not all digits).
   */
  function ReleaseYear(album: Option<Album>): (year: int)
    ensures year >= 0
  {
    var date := if album.Some? then album.value.releaseDate else "";
    if date == "" then DefaultYear
    else
      var part := BeforeDash(date);
      if part != "" && AllDigits(part) then DigitsValue(part) else DefaultYear
  }

  /** Text without a '-' is its own year part. */
  lemma {:induction false} BeforeDashOfDashless(s: string)
    requires '-' !in s
    ensures BeforeDash(s) == s
  {
    if s != [] {
      assert '-' !in s[1..] by {
        forall i | 0 <= i < |s[1..]| ensures s[1..][i] != '-' {
          assert s[1..][i] == s[i + 1];
        }
      }
      BeforeDashOfDashless(s[1..]);
    }
  }

  /** Only the text before the first '-' of the date matters: cutting the date there keeps its year. */
  lemma ReleaseYearDependsOnYearPart(album: Album)
    ensures ReleaseYear(Some(album)) == ReleaseYear(Some(album.(releaseDate := BeforeDash(album.releaseDate))))
  {
    BeforeDashOfDashless(BeforeDash(album.releaseDate));
  }

  /** An ISO date "YYYY-MM-DD" (or a bare year) gives back the year written in it. */
  lemma {:induction false} ReleaseYearOfIsoDate(year: nat, rest: string, album: Album)
    requires album.releaseDate == NatToString(year) + "-" + rest
            || album.releaseDate == NatToString(year)
    ensures ReleaseYear(Some(album)) == year
  {
    var y := NatToString(year);
    BeforeDashOfDigits(y, rest);
    DigitsValueOfNatToString(year);
  }

  lemma {:induction false} BeforeDashOfDigits(y: string, rest: string)
    requires AllDigits(y)
    ensures BeforeDash(y + "-" + rest) == y
    ensures BeforeDash(y) == y
  {
    if y != [] {
      assert (y + "-" + rest)[1..] == y[1..] + "-" + rest;
      BeforeDashOfDigits(y[1..], rest);
    }
  }

  // ---------------------------------------------------------------------
  // Track formatting (`_process_track`)
  // ---------------------------------------------------------------------

  datatype ProcessedTrack = ProcessedTrack(
    id: string,
    name: string,
    artists: seq<string>,
    album: string,
    albumImage: Option<string>,
    previewUrl: Option<string>,
    externalUrl: string,
    durationMs: int,
    popularity: int)

  function AlbumOf(t: Track): Album {
    t.album.GetOr(Album(None, "", []))
  }

  /**
   * The response shape of one track. A track without an id is dropped, and
   * so is a track whose first album image has no url (the lookup
   * `album_images[0]['url']` raises and the service returns None).
   */
  function ProcessTrack(t: Track): (r: Option<ProcessedTrack>)
    ensures r.None? <==> t.id == "" || (|AlbumOf(t).imageUrls| > 0 && AlbumOf(t).imageUrls[0].None?)
    ensures r.Some? ==> r.value.id == t.id && |r.value.artists| == |t.artists|
    ensures r.Some? ==> forall i :: 0 <= i < |t.artists| ==>
      r.value.artists[i] == (if t.artists[i].Some? then t.artists[i].value else "Unknown")
    ensures r.Some? ==> r.value.albumImage == (if |AlbumOf(t).imageUrls| == 0 then None else AlbumOf(t).imageUrls[0])
  {
    var album := AlbumOf(t);
    if t.id == "" then None
    else if |album.imageUrls| > 0 && album.imageUrls[0].None? then None
    else
      Some(ProcessedTrack(
        id := t.id,
        name := t.name.GetOr("Unknown"),
        artists := seq(|t.artists|, i requires 0 <= i < |t.artists| => t.artists[i].GetOr("Unknown")),
        album := album.name.GetOr("Unknown Album"),
        albumImage := if |album.imageUrls| == 0 then None else album.imageUrls[0],
        previewUrl := t.previewUrl,
        externalUrl := t.spotifyUrl.GetOr(""),
        durationMs := t.durationMs.GetOr(0),
        popularity := t.popularity.GetOr(0)))
  }

  // ---------------------------------------------------------------------
  // Mode label (`_analyze_track_features`, spotify_service.py:600-605)
  // ---------------------------------------------------------------------

  const Major: string := "Mayor (alegre)"
  const Minor: string := "Menor (triste)"
  const Mixed: string := "Mixto"

  /** Label of the mean `mode` (1 = major, 0 = minor) of the analysed tracks. */
  function ModeLabel(modeAvg: real): (text: string)
    ensures text in {Major, Minor, Mixed}
  {
    if modeAvg > 0.6 then Major else if modeAvg < 0.4 then Minor else Mixed
  }

  function LabelRank(text: string): int {
    if text == Minor then 0 else if text == Mixed then 1 else 2
  }

  /** The label is monotone in the mean: more major tracks never give a "more minor" label. */
  lemma ModeLabelMonotone(a: real, b: real)
    requires a <= b
    ensures LabelRank(ModeLabel(a)) <= LabelRank(ModeLabel(b))
  {
  }

  /** The three labels split the line at 0.4 and 0.6; both thresholds themselves read "Mixto". */
  lemma ModeLabelThresholds(m: real)
    ensures ModeLabel(m) == Major <==> m > 0.6
    ensures ModeLabel(m) == Minor <==> m < 0.4
    ensures ModeLabel(m) == Mixed <==> 0.4 <= m <= 0.6
  {
  }

  // ---------------------------------------------------------------------
  // Playlist description (`create_playlist_description`)
  // ---------------------------------------------------------------------

  /** The fixed description of a known tag, the generic one for anything else. */
  function PlaylistDescription(emotion: string): (d: string)
    ensures emotion in EmotionTags ==> d == Descriptions[emotion]
    ensures emotion !in EmotionTags ==> d == DefaultDescription
  {
    TablesCoverEmotionTags();
    if emotion in Descriptions then Descriptions[emotion] else DefaultDescription
  }
}

=== FILE: collector.dfy ===
/**
 * The candidate collector of the recommendation service
 * (`_collect_diverse_candidates`, server/app/services/spotify_service.py:214-278).
 *
 * The catalog calls are oracles: `search` gives the tracks a track search
 * returns for a query, `playlistTracks` the tracks of the playlists a
 * playlist search finds, `topTracks` an artist's top tracks. The random
 * draws (which genres, and for each genre which moods) are the input
 * `sample`; the market drawn for each call is folded into the oracles.
 */
module Collector {
  import opened Wrappers
  import opened Catalog
  import opened Text
  import opened Batching

  /** The ids already collected (`seen_ids`). */
  function IdSet(c: seq<Track>): set<string> {
    set i | 0 <= i < |c| :: c[i].id
  }

  /** Non-empty ids, pairwise distinct. */
  predicate WellFormed(c: seq<Track>) {
    && (forall i :: 0 <= i < |c| ==> c[i].id != "")
    && (forall i, j :: 0 <= i < j < |c| ==> c[i].id != c[j].id)
  }

  /** Looking at one catalog track: keep it when it has an id not seen before. */
  function Step(c: seq<Track>, t: Track): seq<Track> {
    if t.id != "" && t.id !in IdSet(c) then c + [t] else c
  }

  /** The results of one query merged into the candidates, in order. */
  function Absorb(c: seq<Track>, batch: seq<Track>): seq<Track>
    decreases |batch|
  {
    if batch == [] then c else Step(Absorb(c, batch[..|batch| - 1]), batch[|batch| - 1])
  }

  /**
   * Query after query: a query is issued only while fewer than `target`
   * candidates are held, and its results are merged whole.
   */
  function Gather(c: seq<Track>, batches: seq<seq<Track>>, target: int): seq<Track>
    decreases |batches|
  {
    if batches == [] then c
    else
      var before := Gather(c, batches[..|batches| - 1], target);
      if |before| >= target then before else Absorb(before, batches[|batches| - 1])
  }

  // ---------------------------------------------------------------------
  // The queries the three strategies issue
  // ---------------------------------------------------------------------

  function SearchQuery(genre: string, mood: string): string { genre + " " + mood }

  /** The genre+mood queries of one sampled genre. */
  function GenreQueries(genre: string, moods: seq<string>): seq<string> {
    seq(|moods|, j requires 0 <= j < |moods| => SearchQuery(genre, moods[j]))
  }

  /**
   * What the random draws can be: `min(len(genres), 6)` of the genres and,
   * for each, `min(len(moods), 4)` of the moods, each drawn without
   * replacement.
   */
  predicate SampleOf(sample: seq<(string, seq<string>)>, genres: seq<string>, moods: seq<string>) {
    && |sample| == Min(|genres|, 6)
    && multiset(seq(|sample|, i requires 0 <= i < |sample| => sample[i].0)) <= multiset(genres)
    && forall i :: 0 <= i < |sample| ==> |sample[i].1| == Min(|moods|, 4) && multiset(sample[i].1) <= multiset(moods)
  }

  /** Strategy 1: every sampled genre with each of its sampled moods, genre by genre. */
  function StrategyOne(sample: seq<(string, seq<string>)>, search: string -> seq<Track>): seq<seq<Track>>
    decreases |sample|
  {
    if sample == [] then []
    else StrategyOne(sample[..|sample| - 1], search) + Results(GenreQueries(sample[|sample| - 1].0, sample[|sample| - 1].1), search)
  }

  /** Strategy 1 issues one search per sampled mood of each sampled genre. */
  lemma {:induction false} StrategyOneSize(sample: seq<(string, seq<string>)>, search: string -> seq<Track>, perGenre: nat)
    requires forall i :: 0 <= i < |sample| ==> |sample[i].1| <= perGenre
    ensures |StrategyOne(sample, search)| <= perGenre * |sample|
    decreases |sample|
  {
    if sample != [] {
      StrategyOneSize(sample[..|sample| - 1], search, perGenre);
    }
  }

  /** With the draws the collector makes, strategy 1 issues at most 24 searches. */
  lemma StrategyOneBound(sample: seq<(string, seq<string>)>, genres: seq<string>, moods: seq<string>, search: string -> seq<Track>)
    requires SampleOf(sample, genres, moods)
    ensures |StrategyOne(sample, search)| <= 24
  {
    StrategyOneSize(sample, search, 4);
  }

  /** Strategy 2 queries: "<emotion> vibes", then "best <genre>" for the first three genres. */
  function PlaylistQueries(emotion: string, genres: seq<string>): (qs: seq<string>)
    ensures |qs| == 1 + Min(|genres|, 3) && |qs| <= 4
    ensures qs[0] == Lower(emotion) + " vibes"
    ensures forall i :: 1 <= i < |qs| ==> qs[i] == "best " + genres[i - 1]
  {
    [Lower(emotion) + " vibes"] + seq(Min(|genres|, 3), i requires 0 <= i < Min(|genres|, 3) => "best " + genres[i])
  }

  function Results(queries: seq<string>, oracle: string -> seq<Track>): seq<seq<Track>> {
    seq(|queries|, i requires 0 <= i < |queries| => oracle(queries[i]))
  }

  /** Strategy 2: at most five playlist queries (there are never more than four). */
  function StrategyTwo(emotion: string, genres: seq<string>, playlistTracks: string -> seq<Track>): seq<seq<Track>> {
    var qs := PlaylistQueries(emotion, genres);
    Results(qs[..Min(|qs|, 5)], playlistTracks)
  }

  /** Strategy 3: top tracks of the first four seed artists. */
  function StrategyThree(artists: seq<string>, topTracks: string -> seq<Track>): seq<seq<Track>> {
    Results(artists[..Min(|artists|, 4)], topTracks)
  }

  // ---------------------------------------------------------------------
  // Properties of the merge
  // ---------------------------------------------------------------------

  lemma StepProperties(c: seq<Track>, t: Track)
    requires WellFormed(c)
    ensures WellFormed(Step(c, t))
    ensures Step(c, t) == c || Step(c, t) == c + [t]
    ensures IdSet(Step(c, t)) == IdSet(c) + (if t.id != "" then {t.id} else {})
  {
    var d := Step(c, t);
    if t.id != "" && t.id !in IdSet(c) {
      assert forall i :: 0 <= i < |c| ==> c[i].id != t.id by {
        forall i | 0 <= i < |c| ensures c[i].id != t.id {
          assert c[i].id in IdSet(c);
        }
      }
      assert IdSet(d) == IdSet(c) + {t.id} by {
        forall x | x in IdSet(d) ensures x in IdSet(c) + {t.id} {
          var i :| 0 <= i < |d| && d[i].id == x;
          if i < |c| { assert c[i].id in IdSet(c); }
        }
        forall x | x in IdSet(c) + {t.id} ensures x in IdSet(d) {
          if x != t.id {
            var i :| 0 <= i < |c| && c[i].id == x;
            assert d[i].id == x;
          } else {
            assert d[|c|].id == x;
          }
        }
      }
    } else if t.id != "" {
      assert IdSet(c) + {t.id} == IdSet(c);
    }
  }

  /**
   * Merging a query's results keeps ids non-empty and distinct, only ever
   * appends (earlier candidates keep their places), takes every new track
   * from the query's results, and afterwards knows every id the results hold.
   */
  lemma {:induction false} AbsorbProperties(c: seq<Track>, batch: seq<Track>)
    requires WellFormed(c)
    ensures var r := Absorb(c, batch);
      && WellFormed(r)
      && |c| <= |r| <= |c| + |batch|
      && r[..|c|] == c
      && (forall i :: |c| <= i < |r| ==> r[i] in batch)
      && (forall t :: t in batch && t.id != "" ==> t.id in IdSet(r))
      && IdSet(c) <= IdSet(r)
    decreases |batch|
  {
    if batch != [] {
      var front := batch[..|batch| - 1];
      var last := batch[|batch| - 1];
      AbsorbProperties(c, front);
      var mid := Absorb(c, front);
      StepProperties(mid, last);
      assert batch == front + [last];
      var r := Absorb(c, batch);
      forall t | t in batch && t.id != "" ensures t.id in IdSet(r) {
        if t != last { assert t in front; }
      }
    }
  }

  /** Once `target` candidates are held, no further query changes anything. */
  lemma {:induction false} GatherSaturated(c: seq<Track>, batches: seq<seq<Track>>, target: int)
    requires |c| >= target
    ensures Gather(c, batches, target) == c
    decreases |batches|
  {
    if batches != [] {
      GatherSaturated(c, batches[..|batches| - 1], target);
    }
  }

  /** Queries run in sequence: gathering `a + b` is gathering `a`, then `b`. */
  lemma {:induction false} GatherAppend(c: seq<Track>, a: seq<seq<Track>>, b: seq<seq<Track>>, target: int)
    ensures Gather(c, a + b, target) == Gather(Gather(c, a, target), b, target)
    decreases |b|
  {
    if b == [] {
      assert a + b == a;
    } else {
      assert (a + b)[..|a + b| - 1] == a + b[..|b| - 1];
      GatherAppend(c, a, b[..|b| - 1], target);
    }
  }

  /**
   * The collected candidates have non-empty, pairwise distinct ids; the
   * starting candidates stay a prefix; every new candidate is a track some
   * query returned; and when the target was not reached, every id any query
   * returned is among the candidates.
   */
  lemma {:induction false} GatherProperties(c: seq<Track>, batches: seq<seq<Track>>, target: int)
    requires WellFormed(c)
    ensures var r := Gather(c, batches, target);
      && WellFormed(r)
      && |c| <= |r| && r[..|c|] == c
      && (forall i :: |c| <= i < |r| ==> r[i] in Flatten(batches))
      && (|r| < target ==> forall t :: t in Flatten(batches) && t.id != "" ==> t.id in IdSet(r))
    decreases |batches|
  {
    if batches != [] {
      var front := batches[..|batches| - 1];
      var last := batches[|batches| - 1];
      assert batches == front + [last];
      FlattenAppend(front, [last]);
      assert Flatten([last]) == last;
      GatherProperties(c, front, target);
      var before := Gather(c, front, target);
      var r := Gather(c, batches, target);
      if |before| < target {
        AbsorbProperties(before, last);
        assert r[..|before|] == before;
        assert r[..|c|] == before[..|c|];
        forall t | t in Flatten(batches) && t.id != "" && |r| < target ensures t.id in IdSet(r) {
          if t in Flatten(front) {
            assert t.id in IdSet(before);
          }
        }
      }
    }
  }

  // ---------------------------------------------------------------------
  // The merge as "first occurrence of each id"
  // ---------------------------------------------------------------------

  /**
   * The reference reading of the merge: walking the tracks front to back,
   * keep each track whose id is non-empty and not seen so far.
   */
  function FirstOccurrences(xs: seq<Track>, seen: set<string>): seq<Track>
    decreases |xs|
  {
    if xs == [] then []
    else if xs[0].id != "" && xs[0].id !in seen then [xs[0]] + FirstOccurrences(xs[1..], seen + {xs[0].id})
    else FirstOccurrences(xs[1..], seen)
  }

  /** The first track of `xs` with that id, if any. */
  function FirstWithId(xs: seq<Track>, id: string): Option<Track>
    decreases |xs|
  {
    if xs == [] then None else if xs[0].id == id then Some(xs[0]) else FirstWithId(xs[1..], id)
  }

  /**
   * Each track the reference keeps is the first track of `xs` with its id,
   * which is non-empty, not seen before and kept once; and every non-empty
   * id of `xs` not seen before is kept.
   */
  lemma {:induction false} FirstOccurrencesAreFirst(xs: seq<Track>, seen: set<string>)
    ensures var r := FirstOccurrences(xs, seen);
      && (forall k :: 0 <= k < |r| ==> r[k].id != "" && r[k].id !in seen && FirstWithId(xs, r[k].id) == Some(r[k]))
      && (forall k, l :: 0 <= k < l < |r| ==> r[k].id != r[l].id)
      && (forall i :: 0 <= i < |xs| && xs[i].id != "" && xs[i].id !in seen ==> xs[i].id in IdSet(r))
    decreases |xs|
  {
    if xs != [] {
      var x := xs[0];
      var r := FirstOccurrences(xs, seen);
      var seen' := if x.id != "" && x.id !in seen then seen + {x.id} else seen;
      var rest := FirstOccurrences(xs[1..], seen');
      FirstOccurrencesAreFirst(xs[1..], seen');
      if x.id != "" && x.id !in seen {
        assert r == [x] + rest;
        forall k | 1 <= k < |r| ensures r[k] == rest[k - 1] && x.id != r[k].id {}
        forall i | 0 <= i < |xs| && xs[i].id != "" && xs[i].id !in seen ensures xs[i].id in IdSet(r) {
          if i == 0 {
            assert r[0].id == x.id;
          } else {
            assert xs[i] == xs[1..][i - 1];
            if xs[i].id != x.id {
              var k :| 0 <= k < |rest| && rest[k].id == xs[i].id;
              assert r[k + 1].id == xs[i].id;
            } else {
              assert r[0].id == x.id;
            }
          }
        }
      } else {
        forall i | 0 <= i < |xs| && xs[i].id != "" && xs[i].id !in seen ensures xs[i].id in IdSet(r) {
          assert i > 0 && xs[i] == xs[1..][i - 1];
        }
      }
    }
  }

  lemma IdSetSnoc(c: seq<Track>, t: Track)
    ensures IdSet(c + [t]) == IdSet(c) + {t.id}
  {
    var d := c + [t];
    forall x | x in IdSet(d) ensures x in IdSet(c) + {t.id} {
      var i :| 0 <= i < |d| && d[i].id == x;
      if i < |c| { assert c[i].id in IdSet(c); }
    }
    forall x | x in IdSet(c) + {t.id} ensures x in IdSet(d) {
      if x != t.id {
        var i :| 0 <= i < |c| && c[i].id == x;
        assert d[i].id == x;
      } else {
        assert d[|c|].id == x;
      }
    }
  }

  /** Merging `a + b` is merging `a`, then `b`. */
  lemma {:induction false} AbsorbAppend(c: seq<Track>, a: seq<Track>, b: seq<Track>)
    ensures Absorb(c, a + b) == Absorb(Absorb(c, a), b)
    decreases |b|
  {
    if b == [] {
      assert a + b == a;
    } else {
      assert (a + b)[..|a + b| - 1] == a + b[..|b| - 1];
      AbsorbAppend(c, a, b[..|b| - 1]);
    }
  }

  /** The merge appends to the candidates exactly the first occurrences of the ids they do not hold yet. */
  lemma {:induction false} AbsorbIsFirstOccurrences(c: seq<Track>, xs: seq<Track>)
    ensures Absorb(c, xs) == c + FirstOccurrences(xs, IdSet(c))
    decreases |xs|
  {
    if xs == [] {
      assert c + [] == c;
    } else {
      var x := xs[0];
      assert [x] + xs[1..] == xs;
      AbsorbAppend(c, [x], xs[1..]);
      assert [x][..0] == [];
      var c' := Step(c, x);
      assert Absorb(c, [x]) == c';
      AbsorbIsFirstOccurrences(c', xs[1..]);
      if x.id != "" && x.id !in IdSet(c) {
        IdSetSnoc(c, x);
        assert c' + FirstOccurrences(xs[1..], IdSet(c')) == c + ([x] + FirstOccurrences(xs[1..], IdSet(c) + {x.id}));
      }
    }
  }

  /**
   * How many of the queries were issued: a query is skipped once `target`
   * candidates are held, and from then on every later one is too.
   */
  function Issued(c: seq<Track>, batches: seq<seq<Track>>, target: int): nat
    decreases |batches|
  {
    if batches == [] then 0
    else if |Gather(c, batches[..|batches| - 1], target)| >= target then Issued(c, batches[..|batches| - 1], target)
    else |batches|
  }

  /**
   * Gathering is merging the results of the issued queries, a prefix of
   * them, all at once; a query is left out only once `target` candidates
   * are held.
   */
  lemma {:induction false} GatherIssued(c: seq<Track>, batches: seq<seq<Track>>, target: int)
    ensures Issued(c, batches, target) <= |batches|
    ensures Gather(c, batches, target) == Absorb(c, Flatten(batches[..Issued(c, batches, target)]))
    ensures Issued(c, batches, target) < |batches| ==> |Gather(c, batches, target)| >= target
    decreases |batches|
  {
    if batches == [] {
      assert batches[..0] == [];
    } else {
      var front := batches[..|batches| - 1];
      var last := batches[|batches| - 1];
      GatherIssued(c, front, target);
      var n := Issued(c, front, target);
      var before := Gather(c, front, target);
      if |before| >= target {
        assert batches[..n] == front[..n];
      } else {
        assert front[..|front|] == front;
        assert batches == front + [last];
        assert batches[..|batches|] == batches;
        FlattenAppend(front, [last]);
        assert Flatten([last]) == last;
        AbsorbAppend(c, Flatten(front), last);
      }
    }
  }

  /** The candidate list the collector returns, as a function of the query results. */
  function Collected(
    emotion: string, genres: seq<string>, artists: seq<string>, sample: seq<(string, seq<string>)>,
    search: string -> seq<Track>, playlistTracks: string -> seq<Track>, topTracks: string -> seq<Track>,
    target: int): seq<Track>
  {
    Gather([], StrategyOne(sample, search) + StrategyTwo(emotion, genres, playlistTracks)
      + StrategyThree(artists, topTracks), target)
  }

  /**
   * The guarantees of the collector as a whole: distinct non-empty ids,
   * all from the query results; the candidates are the first track of each
   * id across the results of the queries issued, in order of first
   * occurrence; the queries issued are a prefix of all of them, cut short
   * only once `target` candidates are held.
   */
  lemma CollectedProperties(
    emotion: string, genres: seq<string>, artists: seq<string>, sample: seq<(string, seq<string>)>,
    search: string -> seq<Track>, playlistTracks: string -> seq<Track>, topTracks: string -> seq<Track>,
    target: int)
    ensures var all := StrategyOne(sample, search) + StrategyTwo(emotion, genres, playlistTracks)
                       + StrategyThree(artists, topTracks);
      var r := Collected(emotion, genres, artists, sample, search, playlistTracks, topTracks, target);
      var n := Issued([], all, target);
      && WellFormed(r)
      && (forall t :: t in r ==> t in Flatten(all))
      && (|r| < target ==> forall t :: t in Flatten(all) && t.id != "" ==> t.id in IdSet(r))
      && n <= |all|
      && r == FirstOccurrences(Flatten(all[..n]), {})
      && (n < |all| ==> |r| >= target)
  {
    var all := StrategyOne(sample, search) + StrategyTwo(emotion, genres, playlistTracks)
               + StrategyThree(artists, topTracks);
    GatherProperties([], all, target);
    GatherIssued([], all, target);
    var n := Issued([], all, target);
    AbsorbIsFirstOccurrences([], Flatten(all[..n]));
    assert IdSet([]) == {};
  }

  // ---------------------------------------------------------------------
  // The collector itself
  // ---------------------------------------------------------------------

  /** Merges one query's results into `candidates`, keeping `seen` in step. */
  method MergeResults(candidates: seq<Track>, seen: set<string>, tracks: seq<Track>)
    returns (candidates': seq<Track>, seen': set<string>)
    requires seen == IdSet(candidates) && WellFormed(candidates)
    ensures candidates' == Absorb(candidates, tracks)
    ensures seen' == IdSet(candidates') && WellFormed(candidates')
  {
    candidates', seen' := candidates, seen;
    for k := 0 to |tracks|
      invariant candidates' == Absorb(candidates, tracks[..k])
      invariant seen' == IdSet(candidates')
      invariant WellFormed(candidates')
    {
      assert tracks[..k + 1][..k] == tracks[..k];
      var track := tracks[k];
      StepProperties(candidates', track);
      if track.id != "" && track.id !in seen' {
        candidates' := candidates' + [track];
        seen' := seen' + {track.id};
      }
    }
    assert tracks[..|tracks|] == tracks;
  }

  lemma ResultsSplit(queries: seq<string>, q: nat, oracle: string -> seq<Track>)
    requires q <= |queries|
    ensures Results(queries[..q], oracle) + Results(queries[q..], oracle) == Results(queries, oracle)
  {
  }

  lemma ResultsSnoc(queries: seq<string>, q: nat, oracle: string -> seq<Track>)
    requires q < |queries|
    ensures Results(queries[..q + 1], oracle) == Results(queries[..q], oracle) + [oracle(queries[q])]
  {
  }

  /** When the target is reached before query `q`, the remaining queries change nothing. */
  lemma SkipRest(done: seq<seq<Track>>, queries: seq<string>, q: nat, oracle: string -> seq<Track>, target: int)
    requires q <= |queries|
    requires |Gather([], done + Results(queries[..q], oracle), target)| >= target
    ensures Gather([], done + Results(queries[..q], oracle), target) == Gather([], done + Results(queries, oracle), target)
  {
    var head := done + Results(queries[..q], oracle);
    var rest := Results(queries[q..], oracle);
    GatherAppend([], head, rest, target);
    GatherSaturated(Gather([], head, target), rest, target);
    ResultsSplit(queries, q, oracle);
    assert head + rest == done + Results(queries, oracle);
  }

  /** Issuing query `q` merges its results into what the earlier queries gathered. */
  lemma IssueOne(done: seq<seq<Track>>, queries: seq<string>, q: nat, oracle: string -> seq<Track>, target: int)
    requires q < |queries|
    requires |Gather([], done + Results(queries[..q], oracle), target)| < target
    ensures Gather([], done + Results(queries[..q + 1], oracle), target)
         == Absorb(Gather([], done + Results(queries[..q], oracle), target), oracle(queries[q]))
  {
    var prev := done + Results(queries[..q], oracle);
    ResultsSnoc(queries, q, oracle);
    assert done + Results(queries[..q + 1], oracle) == prev + [oracle(queries[q])];
    assert (prev + [oracle(queries[q])])[..|prev|] == prev;
  }

  /**
   * Issues `queries` one by one, each only while fewer than `target`
   * candidates are held (the `if len(candidates) >= target_count: break`
   * before every query), merging each query's results.
   */
  method IssueQueries(
    candidates: seq<Track>, seen: set<string>, ghost done: seq<seq<Track>>,
    queries: seq<string>, oracle: string -> seq<Track>, target: int)
    returns (candidates': seq<Track>, seen': set<string>)
    requires candidates == Gather([], done, target)
    requires seen == IdSet(candidates) && WellFormed(candidates)
    ensures candidates' == Gather([], done + Results(queries, oracle), target)
    ensures seen' == IdSet(candidates') && WellFormed(candidates')
  {
    candidates', seen' := candidates, seen;
    assert done + Results(queries[..0], oracle) == done;
    for q := 0 to |queries|
      invariant candidates' == Gather([], done + Results(queries[..q], oracle), target)
      invariant seen' == IdSet(candidates') && WellFormed(candidates')
    {
      if |candidates'| >= target {
        SkipRest(done, queries, q, oracle, target);
        return;
      }
      IssueOne(done, queries, q, oracle, target);
      var tracks := oracle(queries[q]);
      candidates', seen' := MergeResults(candidates', seen', tracks);
    }
    assert queries[..|queries|] == queries;
  }

  /**
   * `_collect_diverse_candidates`: the three strategies in order, each query
   * skipped once `targetCount` candidates are held.
   */
  method CollectDiverseCandidates(
    emotion: string, genres: seq<string>, descriptor: Descriptor, sample: seq<(string, seq<string>)>,
    search: string -> seq<Track>, playlistTracks: string -> seq<Track>, topTracks: string -> seq<Track>,
    targetCount: int)
    returns (candidates: seq<Track>)
    ensures candidates == Collected(emotion, genres, descriptor.artists, sample, search, playlistTracks, topTracks, targetCount)
    ensures WellFormed(candidates)
  {
    candidates := [];
    var seen: set<string> := {};

    // Strategy 1: genre + mood searches, genre by genre.
    for g := 0 to |sample|
      invariant candidates == Gather([], StrategyOne(sample[..g], search), targetCount)
      invariant seen == IdSet(candidates) && WellFormed(candidates)
    {
      assert sample[..g + 1][..g] == sample[..g];
      candidates, seen := IssueQueries(candidates, seen, StrategyOne(sample[..g], search),
        GenreQueries(sample[g].0, sample[g].1), search, targetCount);
    }
    assert sample[..|sample|] == sample;

    // Strategy 2: curated playlists.
    var s1 := StrategyOne(sample, search);
    var queries := PlaylistQueries(emotion, genres);
    candidates, seen := IssueQueries(candidates, seen, s1, queries[..Min(|queries|, 5)], playlistTracks, targetCount);

    // Strategy 3: seed artists.
    var s12 := s1 + StrategyTwo(emotion, genres, playlistTracks);
    candidates, seen := IssueQueries(candidates, seen, s12,
      descriptor.artists[..Min(|descriptor.artists|, 4)], topTracks, targetCount);
  }
}

=== FILE: diversifier.dfy ===
/**
 * The diversifier of the recommendation service
 * (`_diversify_tracks`, server/app/services/spotify_service.py:451-530).
 *
 * The random shuffle of the pool is the input `shuffled` (any reordering of
 * the pool) and the final sort by blended score followed by random swaps is
 * the input `arrange` (any function that reorders what it is given).
 */
module Diversifier {
  import opened Wrappers
  import opened Catalog
  import opened Batching

  /** `track.get('artists', [{}])[0].get('name', 'Unknown')` */
  function PrimaryArtist(t: Track): string {
    if |t.artists| == 0 then "Unknown" else t.artists[0].GetOr("Unknown")
  }

  /** `track.get('album', {}).get('name', 'Unknown')` */
  function AlbumName(t: Track): string {
    if t.album.None? then "Unknown" else t.album.value.name.GetOr("Unknown")
  }

  function ArtistCount(s: seq<Track>, a: string): nat {
    if s == [] then 0
    else ArtistCount(s[..|s| - 1], a) + (if PrimaryArtist(s[|s| - 1]) == a then 1 else 0)
  }

  function AlbumCount(s: seq<Track>, b: string): nat {
    if s == [] then 0
    else AlbumCount(s[..|s| - 1], b) + (if AlbumName(s[|s| - 1]) == b then 1 else 0)
  }

  /** A `defaultdict(int)` read. */
  function Get(m: map<string, nat>, k: string): nat {
    if k in m then m[k] else 0
  }

  /** No track occurs twice. */
  ghost predicate NoRepeats(s: seq<Track>) {
    forall x :: multiset(s)[x] <= 1
  }

  function Max(a: int, b: int): int { if a >= b then a else b }

  // ---------------------------------------------------------------------
  // The three greedy passes, as functions of the shuffled pool
  // ---------------------------------------------------------------------

  /** Phase 1: up to `limit // 2` tracks, at most one per primary artist. */
  function StrictPass(rem: seq<Track>, limit: int): seq<Track>
    decreases |rem|
  {
    if rem == [] then []
    else
      var s := StrictPass(rem[..|rem| - 1], limit);
      var t := rem[|rem| - 1];
      if |s| >= limit / 2 then s
      else if ArtistCount(s, PrimaryArtist(t)) == 0 then s + [t]
      else s
  }

  /** Phase 2: up to `limit` tracks, adding a track only while its artist and its album each have fewer than two. */
  function RelaxedPass(sel: seq<Track>, rem: seq<Track>, limit: int): seq<Track>
    decreases |rem|
  {
    if rem == [] then sel
    else
      var s := RelaxedPass(sel, rem[..|rem| - 1], limit);
      var t := rem[|rem| - 1];
      if |s| >= limit then s
      else if t in s then s
      else if ArtistCount(s, PrimaryArtist(t)) < 2 && AlbumCount(s, AlbumName(t)) < 2 then s + [t]
      else s
  }

  /** Phase 3: up to `limit` tracks, adding anything not yet selected. */
  function FillPass(sel: seq<Track>, rem: seq<Track>, limit: int): seq<Track>
    decreases |rem|
  {
    if rem == [] then sel
    else
      var s := FillPass(sel, rem[..|rem| - 1], limit);
      var t := rem[|rem| - 1];
      if |s| >= limit then s
      else if t !in s then s + [t]
      else s
  }

  function Selected(shuffled: seq<Track>, limit: int): seq<Track> {
    FillPass(RelaxedPass(StrictPass(shuffled, limit), shuffled, limit), shuffled, limit)
  }

  /** Python's `s[:n]`, negative `n` counting from the end. */
  function PyPrefix<T>(s: seq<T>, n: int): seq<T> {
    if n >= 0 then s[..Min(n, |s|)] else s[..Max(0, |s| + n)]
  }

  /** What `_diversify_tracks` returns. */
  function Diversified(tracks: seq<Track>, limit: int, shuffled: seq<Track>, arrange: seq<Track> -> seq<Track>): seq<Track> {
    if |tracks| <= limit then tracks else PyPrefix(arrange(Selected(shuffled, limit)), limit)
  }

  // ---------------------------------------------------------------------
  // Properties of the passes
  // ---------------------------------------------------------------------

  lemma CountsSnoc(s: seq<Track>, t: Track)
    ensures (s + [t])[..|s|] == s
    ensures forall a :: ArtistCount(s + [t], a) == ArtistCount(s, a) + (if PrimaryArtist(t) == a then 1 else 0)
    ensures forall b :: AlbumCount(s + [t], b) == AlbumCount(s, b) + (if AlbumName(t) == b then 1 else 0)
  {
    assert (s + [t])[..|s|] == s;
  }

  /** A track whose artist has no selection yet is not selected yet. */
  lemma {:induction false} ArtistCountZero(s: seq<Track>, t: Track)
    requires ArtistCount(s, PrimaryArtist(t)) == 0
    ensures t !in s
    decreases |s|
  {
    if s != [] {
      ArtistCountZero(s[..|s| - 1], t);
      assert s == s[..|s| - 1] + [s[|s| - 1]];
    }
  }

  /**
   * Phase 1 takes at most `limit // 2` tracks, never repeats a track,
   * takes only tracks of the pool, and gives each primary artist at most one.
   */
  lemma {:induction false} StrictPassProperties(rem: seq<Track>, limit: int)
    ensures var s := StrictPass(rem, limit);
      && |s| <= Max(0, limit / 2)
      && NoRepeats(s)
      && (forall x :: x in s ==> x in rem)
      && (forall a :: ArtistCount(s, a) <= 1)
    decreases |rem|
  {
    if rem != [] {
      var front := rem[..|rem| - 1];
      var t := rem[|rem| - 1];
      StrictPassProperties(front, limit);
      var s := StrictPass(front, limit);
      assert rem == front + [t];
      if |s| < limit / 2 && ArtistCount(s, PrimaryArtist(t)) == 0 {
        ArtistCountZero(s, t);
        CountsSnoc(s, t);
      }
    }
  }

  /**
   * Phase 2 only appends, never repeats a track, takes only tracks of the
   * pool, stops at `limit`, and leaves every primary artist at most two
   * selections when it started that way; each track it adds found fewer
   * than two selections of its artist and fewer than two of its album.
   */
  lemma {:induction false} RelaxedPassProperties(sel: seq<Track>, rem: seq<Track>, limit: int)
    requires NoRepeats(sel)
    requires forall a :: ArtistCount(sel, a) <= 2
    ensures var s := RelaxedPass(sel, rem, limit);
      && |sel| <= |s| && s[..|sel|] == sel
      && |s| <= Max(|sel|, limit)
      && NoRepeats(s)
      && (forall x :: x in s ==> x in sel || x in rem)
      && (forall a :: ArtistCount(s, a) <= 2)
      && (forall i :: |sel| <= i < |s| ==>
            ArtistCount(s[..i], PrimaryArtist(s[i])) < 2 && AlbumCount(s[..i], AlbumName(s[i])) < 2)
    decreases |rem|
  {
    if rem != [] {
      var front := rem[..|rem| - 1];
      var t := rem[|rem| - 1];
      RelaxedPassProperties(sel, front, limit);
      var s := RelaxedPass(sel, front, limit);
      assert rem == front + [t];
      if |s| < limit && t !in s && ArtistCount(s, PrimaryArtist(t)) < 2 && AlbumCount(s, AlbumName(t)) < 2 {
        AppendKeeps(s, t, |sel|);
        assert RelaxedPass(sel, rem, limit) == s + [t];
        forall i | |sel| <= i < |s| + 1
          ensures ArtistCount((s + [t])[..i], PrimaryArtist((s + [t])[i])) < 2
          ensures AlbumCount((s + [t])[..i], AlbumName((s + [t])[i])) < 2
        {
          if i < |s| {
            assert (s + [t])[..i] == s[..i];
          } else {
            assert (s + [t])[..i] == s;
          }
        }
      } else {
        assert RelaxedPass(sel, rem, limit) == s;
      }
    }
  }

  /** Appending an unselected track whose artist has fewer than two selections keeps phase 2's promises. */
  lemma AppendKeeps(s: seq<Track>, t: Track, n: nat)
    requires n <= |s| && NoRepeats(s) && t !in s
    requires forall a :: ArtistCount(s, a) <= 2
    requires ArtistCount(s, PrimaryArtist(t)) < 2
    ensures (s + [t])[..n] == s[..n]
    ensures NoRepeats(s + [t])
    ensures forall a :: ArtistCount(s + [t], a) <= 2
  {
    CountsSnoc(s, t);
    assert (s + [t])[..n] == s[..n];
    assert multiset(s + [t]) == multiset(s) + multiset{t};
  }

  /**
   * Phase 3 only appends, never repeats a track, takes only tracks of the
   * pool, and stops at `limit`; if it ends below `limit`, every pool track
   * has been selected.
   */
  lemma {:induction false} FillPassProperties(sel: seq<Track>, rem: seq<Track>, limit: int)
    requires NoRepeats(sel)
    ensures var s := FillPass(sel, rem, limit);
      && |sel| <= |s| && s[..|sel|] == sel
      && |s| <= Max(|sel|, limit)
      && NoRepeats(s)
      && (forall x :: x in s ==> x in sel || x in rem)
      && (|s| < limit ==> forall x :: x in rem ==> x in s)
    decreases |rem|
  {
    if rem != [] {
      var front := rem[..|rem| - 1];
      var t := rem[|rem| - 1];
      FillPassProperties(sel, front, limit);
      var s := FillPass(sel, front, limit);
      assert rem == front + [t];
      if |s| < limit && t !in s {
        assert (s + [t])[..|sel|] == s[..|sel|];
      }
    }
  }

  lemma NoRepeatsSubMultiset(s: seq<Track>, pool: seq<Track>)
    requires NoRepeats(s)
    requires forall x :: x in s ==> x in pool
    ensures multiset(s) <= multiset(pool)
  {
    forall x ensures multiset(s)[x] <= multiset(pool)[x] {
      if x in s { assert x in pool; }
    }
  }

  /** Reordering keeps a sequence free of repeats. */
  lemma ReorderKeepsNoRepeats(s: seq<Track>, r: seq<Track>)
    requires multiset(r) == multiset(s) && NoRepeats(s)
    ensures NoRepeats(r)
  {
  }

  /** A repeat-free sequence contained in another repeat-free one is no longer. */
  lemma CoveredIsShorter(pool: seq<Track>, s: seq<Track>)
    requires NoRepeats(pool) && NoRepeats(s)
    requires forall x :: x in pool ==> x in s
    ensures |pool| <= |s|
  {
    NoRepeatsSubMultiset(pool, s);
    var extra := multiset(s) - multiset(pool);
    assert multiset(s) == multiset(pool) + extra;
    assert |multiset(s)| == |multiset(pool)| + |extra|;
  }

  /** The three passes together: no repeats, only pool tracks, at most `limit`; exactly `limit` from a repeat-free pool of at least `limit`. */
  lemma {:induction false} SelectedProperties(shuffled: seq<Track>, limit: int)
    ensures NoRepeats(Selected(shuffled, limit))
    ensures multiset(Selected(shuffled, limit)) <= multiset(shuffled)
    ensures |Selected(shuffled, limit)| <= Max(0, limit)
    ensures NoRepeats(shuffled) && |shuffled| >= limit ==> |Selected(shuffled, limit)| == Max(0, limit)
  {
    var s1 := StrictPass(shuffled, limit);
    StrictPassProperties(shuffled, limit);
    assert forall x :: x in s1 ==> x in shuffled;
    RelaxedPassProperties(s1, shuffled, limit);
    var s2 := RelaxedPass(s1, shuffled, limit);
    assert |s2| <= Max(0, limit);
    assert forall x :: x in s2 ==> x in shuffled;
    FillPassProperties(s2, shuffled, limit);
    var s := FillPass(s2, shuffled, limit);
    assert s == Selected(shuffled, limit);
    assert forall x :: x in s ==> x in shuffled;
    NoRepeatsSubMultiset(s, shuffled);
    if NoRepeats(shuffled) && |shuffled| >= limit && |s| < limit {
      CoveredIsShorter(shuffled, s);
    }
  }

  // ---------------------------------------------------------------------
  // The diversifier itself
  // ---------------------------------------------------------------------

  /** One more track for phase 1, below its target. */
  lemma StrictStep(rem: seq<Track>, k: nat, limit: int)
    requires k < |rem| && |StrictPass(rem[..k], limit)| < limit / 2
    ensures var s := StrictPass(rem[..k], limit);
      StrictPass(rem[..k + 1], limit) == if ArtistCount(s, PrimaryArtist(rem[k])) == 0 then s + [rem[k]] else s
  {
    assert rem[..k + 1][..k] == rem[..k];
  }

  lemma StrictStable(rem: seq<Track>, k: nat, limit: int)
    requires k <= |rem| && |StrictPass(rem[..k], limit)| >= limit / 2
    ensures StrictPass(rem, limit) == StrictPass(rem[..k], limit)
    decreases |rem| - k
  {
    if k < |rem| {
      assert rem[..|rem| - 1][..k] == rem[..k];
      StrictStable(rem[..|rem| - 1], k, limit);
    } else {
      assert rem[..k] == rem;
    }
  }

  lemma RelaxedStable(sel: seq<Track>, rem: seq<Track>, k: nat, limit: int)
    requires k <= |rem| && |RelaxedPass(sel, rem[..k], limit)| >= limit
    ensures RelaxedPass(sel, rem, limit) == RelaxedPass(sel, rem[..k], limit)
    decreases |rem| - k
  {
    if k < |rem| {
      assert rem[..|rem| - 1][..k] == rem[..k];
      RelaxedStable(sel, rem[..|rem| - 1], k, limit);
    } else {
      assert rem[..k] == rem;
    }
  }

  lemma FillStable(sel: seq<Track>, rem: seq<Track>, k: nat, limit: int)
    requires k <= |rem| && |FillPass(sel, rem[..k], limit)| >= limit
    ensures FillPass(sel, rem, limit) == FillPass(sel, rem[..k], limit)
    decreases |rem| - k
  {
    if k < |rem| {
      assert rem[..|rem| - 1][..k] == rem[..k];
      FillStable(sel, rem[..|rem| - 1], k, limit);
    } else {
      assert rem[..k] == rem;
    }
  }

  /** The contract of the diversifier, stated on its specification. */
  lemma DiversifiedProperties(tracks: seq<Track>, limit: int, shuffled: seq<Track>, arrange: seq<Track> -> seq<Track>)
    requires multiset(shuffled) == multiset(tracks)
    requires forall s :: multiset(arrange(s)) == multiset(s)
    ensures var r := Diversified(tracks, limit, shuffled, arrange);
      && (|tracks| > limit ==> NoRepeats(r) && multiset(r) <= multiset(tracks) && |r| <= Max(0, limit))
      && (|tracks| > limit && NoRepeats(tracks) ==> |r| == Max(0, limit))
  {
    if |tracks| > limit {
      var selected := Selected(shuffled, limit);
      var arranged := arrange(selected);
      SelectedProperties(shuffled, limit);
      ReorderKeepsNoRepeats(selected, arranged);
      assert |arranged| == |selected| by {
        assert |multiset(arranged)| == |multiset(selected)|;
      }
      assert PyPrefix(arranged, limit) == arranged;
      if NoRepeats(tracks) {
        assert NoRepeats(shuffled);
        assert |shuffled| == |tracks| by {
          assert |multiset(shuffled)| == |multiset(tracks)|;
        }
      }
    }
  }

  /** The counters `artist_count` and `album_count` agree with `selected`. */
  ghost predicate CountersAgree(selected: seq<Track>, artistCount: map<string, nat>, albumCount: map<string, nat>) {
    && (forall a :: Get(artistCount, a) == ArtistCount(selected, a))
    && (forall b :: Get(albumCount, b) == AlbumCount(selected, b))
  }

  /** Counting a newly selected track in both counters keeps them in agreement. */
  lemma CountersStep(selected: seq<Track>, track: Track, artistCount: map<string, nat>, albumCount: map<string, nat>)
    requires CountersAgree(selected, artistCount, albumCount)
    ensures CountersAgree(selected + [track],
      artistCount[PrimaryArtist(track) := Get(artistCount, PrimaryArtist(track)) + 1],
      albumCount[AlbumName(track) := Get(albumCount, AlbumName(track)) + 1])
  {
    CountsSnoc(selected, track);
  }

  /** Phase 1 of `_diversify_tracks`, with its counters. */
  method StrictPhase(remaining: seq<Track>, limit: int)
    returns (selected: seq<Track>, artistCount: map<string, nat>, albumCount: map<string, nat>)
    ensures selected == StrictPass(remaining, limit)
    ensures CountersAgree(selected, artistCount, albumCount)
  {
    artistCount, albumCount := map[], map[];
    selected := [];
    var k := 0;
    while k < |remaining|
      invariant 0 <= k <= |remaining|
      invariant selected == StrictPass(remaining[..k], limit)
      invariant CountersAgree(selected, artistCount, albumCount)
    {
      if |selected| >= limit / 2 {
        StrictStable(remaining, k, limit);
        return;
      }
      var track := remaining[k];
      var artist, album := PrimaryArtist(track), AlbumName(track);
      StrictStep(remaining, k, limit);
      if Get(artistCount, artist) == 0 {
        CountersStep(selected, track, artistCount, albumCount);
        selected := selected + [track];
        artistCount := artistCount[artist := Get(artistCount, artist) + 1];
        albumCount := albumCount[album := Get(albumCount, album) + 1];
      }
      k := k + 1;
    }
    assert remaining[..k] == remaining;
  }

  /** Phase 2 of `_diversify_tracks`, continuing from phase 1 and its counters. */
  method RelaxedPhase(remaining: seq<Track>, limit: int, phase1: seq<Track>, artistCount0: map<string, nat>, albumCount0: map<string, nat>)
    returns (selected: seq<Track>)
    requires CountersAgree(phase1, artistCount0, albumCount0)
    ensures selected == RelaxedPass(phase1, remaining, limit)
  {
    var artistCount: map<string, nat>, albumCount: map<string, nat> := artistCount0, albumCount0;
    selected := phase1;
    var k := 0;
    while k < |remaining|
      invariant 0 <= k <= |remaining|
      invariant selected == RelaxedPass(phase1, remaining[..k], limit)
      invariant CountersAgree(selected, artistCount, albumCount)
    {
      assert remaining[..k + 1][..k] == remaining[..k];
      if |selected| >= limit {
        RelaxedStable(phase1, remaining, k, limit);
        return;
      }
      var track := remaining[k];
      if track !in selected {
        var artist, album := PrimaryArtist(track), AlbumName(track);
        if Get(artistCount, artist) < 2 && Get(albumCount, album) < 2 {
          CountersStep(selected, track, artistCount, albumCount);
          selected := selected + [track];
          artistCount := artistCount[artist := Get(artistCount, artist) + 1];
          albumCount := albumCount[album := Get(albumCount, album) + 1];
        }
      }
      k := k + 1;
    }
    assert remaining[..k] == remaining;
  }

  /** Phase 3 of `_diversify_tracks`. */
  method FillPhase(remaining: seq<Track>, limit: int, phase2: seq<Track>) returns (selected: seq<Track>)
    ensures selected == FillPass(phase2, remaining, limit)
  {
    selected := phase2;
    var k := 0;
    while k < |remaining|
      invariant 0 <= k <= |remaining|
      invariant selected == FillPass(phase2, remaining[..k], limit)
    {
      assert remaining[..k + 1][..k] == remaining[..k];
      if |selected| >= limit {
        FillStable(phase2, remaining, k, limit);
        return;
      }
      var track := remaining[k];
      if track !in selected {
        selected := selected + [track];
      }
      k := k + 1;
    }
    assert remaining[..k] == remaining;
  }

  /**
   * `_diversify_tracks`. A pool of at most `limit` tracks comes back as it
   * is. Otherwise the result has no repeated track, holds only tracks of
   * the pool, at most `limit` of them, and exactly `limit` when the pool
   * has no repeated track.
   */
  method DiversifyTracks(tracks: seq<Track>, limit: int, shuffled: seq<Track>, arrange: seq<Track> -> seq<Track>)
    returns (result: seq<Track>)
    requires multiset(shuffled) == multiset(tracks)
    requires forall s :: multiset(arrange(s)) == multiset(s)
    ensures result == Diversified(tracks, limit, shuffled, arrange)
    ensures |tracks| <= limit ==> result == tracks
    ensures |tracks| > limit ==> NoRepeats(result) && multiset(result) <= multiset(tracks) && |result| <= Max(0, limit)
    ensures |tracks| > limit && NoRepeats(tracks) ==> |result| == Max(0, limit)
  {
    if |tracks| <= limit {
      return tracks;
    }
    var remaining := shuffled;
    var selected, artistCount, albumCount := StrictPhase(remaining, limit);
    selected := RelaxedPhase(remaining, limit, selected, artistCount, albumCount);
    selected := FillPhase(remaining, limit, selected);
    // Final ordering (score sort and random swaps), then `selected[:limit]`.
    var arranged := arrange(selected);
    result := PyPrefix(arranged, limit);
    DiversifiedProperties(tracks, limit, shuffled, arrange);
  }
}

=== FILE: emotion_client.dfy ===
/**
 * The client's emotion display tables (client/src/services/emotionService.js):
 * a Spanish name, an emoji and a colour per emotion tag, each lookup with
 * its fallback for any other input.
 */
module EmotionClient {
  import opened Catalog

  const Translations: map<string, string> := map[
    "HAPPY" := "Feliz",
    "SAD" := "Triste",
    "ANGRY" := "Enojado",
    "CONFUSED" := "Confundido",
    "DISGUSTED" := "Disgustado",
    "SURPRISED" := "Sorprendido",
    "CALM" := "Tranquilo",
    "FEAR" := "Miedo"
  ]

  const Emojis: map<string, string> := map[
    "HAPPY" := "\U{1F60A}",
    "SAD" := "\U{1F622}",
    "ANGRY" := "\U{1F620}",
    "CONFUSED" := "\U{1F615}",
    "DISGUSTED" := "\U{1F922}",
    "SURPRISED" := "\U{1F62E}",
    "CALM" := "\U{1F60C}",
    "FEAR" := "\U{1F628}"
  ]

  const Colors: map<string, string> := map[
    "HAPPY" := "#10b981",
    "SAD" := "#3b82f6",
    "ANGRY" := "#ef4444",
    "CONFUSED" := "#f59e0b",
    "DISGUSTED" := "#8b5cf6",
    "SURPRISED" := "#ec4899",
    "CALM" := "#14b8a6",
    "FEAR" := "#6366f1"
  ]

  const FallbackEmoji := "\U{1F610}"
  const FallbackColor := "#6b7280"

  /** The three tables have exactly the eight tags the recommender knows as keys. */
  lemma TablesShareKeys()
    ensures Translations.Keys == Emojis.Keys == Colors.Keys == EmotionTags
  {
  }

  /** `translateEmotion`: the Spanish name of a tag; any other input comes back unchanged. */
  function TranslateEmotion(emotion: string): (name: string)
    ensures emotion in EmotionTags ==> name == Translations[emotion]
    ensures emotion !in EmotionTags ==> name == emotion
  {
    TablesShareKeys();
    if emotion in Translations then Translations[emotion] else emotion
  }

  /** `getEmotionEmoji`: a tag's emoji, or the neutral face for any other input. */
  function EmotionEmoji(emotion: string): (emoji: string)
    ensures emotion in EmotionTags ==> emoji == Emojis[emotion]
    ensures emotion !in EmotionTags ==> emoji == FallbackEmoji
  {
    TablesShareKeys();
    if emotion in Emojis then Emojis[emotion] else FallbackEmoji
  }

  /** `getEmotionColor`: a tag's colour, or grey for any other input. */
  function EmotionColor(emotion: string): (color: string)
    ensures emotion in EmotionTags ==> color == Colors[emotion]
    ensures emotion !in EmotionTags ==> color == FallbackColor
  {
    TablesShareKeys();
    if emotion in Colors then Colors[emotion] else FallbackColor
  }

  /** Different tags get different names. */
  lemma TranslationsDistinguishTags(e1: string, e2: string)
    requires e1 in EmotionTags && e2 in EmotionTags && e1 != e2
    ensures TranslateEmotion(e1) != TranslateEmotion(e2)
  {
  }

  /** No name is itself a tag, so translating twice is translating once, whatever the input. */
  lemma TranslateIdempotent(e: string)
    ensures TranslateEmotion(TranslateEmotion(e)) == TranslateEmotion(e)
  {
    if e in EmotionTags {
      assert Translations[e] in Translations.Values;
      assert forall n :: n in Translations.Values ==> n !in EmotionTags;
    }
  }

  /** Different tags get different emojis, none of them the fallback face. */
  lemma EmojisDistinguishTags(e1: string, e2: string)
    requires e1 in EmotionTags && e2 in EmotionTags && e1 != e2
    ensures EmotionEmoji(e1) != EmotionEmoji(e2) && EmotionEmoji(e1) != FallbackEmoji
  {
  }

  /** Different tags get different colours, none of them the fallback grey. */
  lemma ColorsDistinguishTags(e1: string, e2: string)
    requires e1 in EmotionTags && e2 in EmotionTags && e1 != e2
    ensures EmotionColor(e1) != EmotionColor(e2) && EmotionColor(e1) != FallbackColor
  {
  }
}

=== FILE: history.dfy ===
/**
 * The per-user history (server/app/services/history_service.py): emotion
 * analyses and saved playlists as two row tables, the filtered, newest-first,
 * paginated listings, playlist save/read/update/delete with their 404 rules,
 * and the statistics. Timestamps are whole seconds; new rows get the id
 * `freshId` and the creation time `now`, standing for the database defaults.
 */
module History {
  import opened Wrappers
  import opened Text
  import opened Batching

  datatype Analysis = Analysis(id: nat, userId: nat, dominantEmotion: string, confidence: real, createdAt: int)

  datatype Playlist = Playlist(
    id: nat,
    userId: nat,
    analysisId: Option<nat>,
    name: string,
    emotion: string,
    description: Option<string>,
    tracks: seq<string>,
    isFavorite: bool,
    createdAt: int)

  const AnalysisNotFound := Error(404, "An\U{E1}lisis no encontrado")
  const PlaylistNotFound := Error(404, "Playlist no encontrada")

  // ---------------------------------------------------------------------
  // Newest first
  // ---------------------------------------------------------------------

  predicate SortedDesc<T>(xs: seq<T>, key: T -> int) {
    forall i, j :: 0 <= i < j < |xs| ==> key(xs[i]) >= key(xs[j])
  }

  /** Places `x` before the first element with a key not above its own. */
  function Insert<T>(x: T, s: seq<T>, key: T -> int): seq<T> {
    if s == [] || key(s[0]) <= key(x) then [x] + s else [s[0]] + Insert(x, s[1..], key)
  }

  /** `ORDER BY key DESC`, earlier rows first among equal keys. */
  function SortDesc<T>(xs: seq<T>, key: T -> int): seq<T> {
    if xs == [] then [] else Insert(xs[0], SortDesc(xs[1..], key), key)
  }

  lemma {:induction false} InsertMultiset<T>(x: T, s: seq<T>, key: T -> int)
    ensures multiset(Insert(x, s, key)) == multiset(s) + multiset{x}
    ensures |Insert(x, s, key)| == |s| + 1
    ensures Insert(x, s, key)[0] == x || (s != [] && Insert(x, s, key)[0] == s[0])
    decreases |s|
  {
    if s != [] && key(s[0]) > key(x) {
      InsertMultiset(x, s[1..], key);
      assert s == [s[0]] + s[1..];
    }
  }

  lemma {:induction false} InsertProperties<T>(x: T, s: seq<T>, key: T -> int)
    requires SortedDesc(s, key)
    ensures SortedDesc(Insert(x, s, key), key)
    ensures multiset(Insert(x, s, key)) == multiset(s) + multiset{x}
    decreases |s|
  {
    InsertMultiset(x, s, key);
    if s != [] && key(s[0]) > key(x) {
      var rest := Insert(x, s[1..], key);
      InsertProperties(x, s[1..], key);
      InsertMultiset(x, s[1..], key);
      var r := [s[0]] + rest;
      assert key(rest[0]) <= key(s[0]);
      forall i, j | 0 <= i < j < |r| ensures key(r[i]) >= key(r[j]) {
        if i == 0 {
          assert r[j] == rest[j - 1];
          assert key(rest[0]) >= key(rest[j - 1]);
        } else {
          assert r[i] == rest[i - 1] && r[j] == rest[j - 1];
        }
      }
    }
  }

  /** The order is newest first and holds exactly the rows given. */
  lemma {:induction false} SortDescProperties<T>(xs: seq<T>, key: T -> int)
    ensures SortedDesc(SortDesc(xs, key), key)
    ensures multiset(SortDesc(xs, key)) == multiset(xs)
    decreases |xs|
  {
    if xs != [] {
      SortDescProperties(xs[1..], key);
      InsertProperties(xs[0], SortDesc(xs[1..], key), key);
      assert xs == [xs[0]] + xs[1..];
    }
  }

  // ---------------------------------------------------------------------
  // Pagination
  // ---------------------------------------------------------------------

  /** A page of a listing. */
  datatype Page<T> = Page(total: nat, page: int, pageSize: int, totalPages: int, items: seq<T>)

  /** `(total + page_size - 1) // page_size` */
  function TotalPages(total: nat, pageSize: int): (n: nat)
    requires pageSize >= 1
    ensures (n - 1) * pageSize < total <= n * pageSize || (total == 0 && n == 0)
  {
    (total + pageSize - 1) / pageSize
  }

  /** `OFFSET (page - 1) * page_size LIMIT page_size` over `xs`. */
  function PageOf<T>(xs: seq<T>, page: int, pageSize: int): (items: seq<T>)
    requires page >= 1 && pageSize >= 1
    ensures |items| <= pageSize
    ensures (page - 1) * pageSize < |xs| ==> items == xs[(page - 1) * pageSize..Min(page * pageSize, |xs|)]
    ensures (page - 1) * pageSize >= |xs| ==> items == []
  {
    var offset := (page - 1) * pageSize;
    if offset >= |xs| then [] else xs[offset..Min(offset + pageSize, |xs|)]
  }

  lemma MulMonotone(a: int, b: int, c: int)
    requires a <= b && c >= 0
    ensures a * c <= b * c
  {
    assert b * c - a * c == (b - a) * c;
  }

  /** A page has items exactly when its number is at most the number of pages. */
  lemma PageNonEmptyIff<T>(xs: seq<T>, page: int, pageSize: int)
    requires page >= 1 && pageSize >= 1
    ensures PageOf(xs, page, pageSize) != [] <==> page <= TotalPages(|xs|, pageSize)
  {
    var n := TotalPages(|xs|, pageSize);
    if page <= n {
      MulMonotone(page - 1, n - 1, pageSize);
    } else {
      MulMonotone(n, page - 1, pageSize);
    }
  }

  lemma SliceJoin<T>(xs: seq<T>, a: nat, b: nat)
    requires a <= b <= |xs|
    ensures xs[..a] + xs[a..b] == xs[..b]
  {
  }

  /** Pages 1 to n, in order, are the first n * page_size rows of the listing (all of it once n is large enough). */
  lemma {:induction false} PagesCover<T>(xs: seq<T>, pageSize: int, n: nat)
    requires pageSize >= 1
    ensures PagesUpTo(xs, pageSize, n) == xs[..Min(n * pageSize, |xs|)]
  {
    if n == 0 {
      assert xs[..0] == [];
    } else {
      var lo := (n - 1) * pageSize;
      var hi := lo + pageSize;
      assert n * pageSize == hi;
      PagesCover(xs, pageSize, n - 1);
      SliceJoin(xs, Min(lo, |xs|), Min(hi, |xs|));
    }
  }

  /** Pages 1 to n, concatenated. */
  function PagesUpTo<T>(xs: seq<T>, pageSize: int, n: nat): seq<T>
    requires pageSize >= 1
  {
    if n == 0 then [] else PagesUpTo(xs, pageSize, n - 1) + PageOf(xs, n, pageSize)
  }

  /** A page is a run of the listing, so it keeps the listing's rows and order. */
  lemma PageOfProperties<T>(xs: seq<T>, page: int, pageSize: int, key: T -> int)
    requires page >= 1 && pageSize >= 1
    ensures forall x :: x in PageOf(xs, page, pageSize) ==> x in xs
    ensures SortedDesc(xs, key) ==> SortedDesc(PageOf(xs, page, pageSize), key)
  {
    var offset := (page - 1) * pageSize;
    if offset < |xs| {
      var items := xs[offset..Min(offset + pageSize, |xs|)];
      assert PageOf(xs, page, pageSize) == items;
      forall x | x in items ensures x in xs {
        var k :| 0 <= k < |items| && items[k] == x;
        assert xs[offset + k] == x;
      }
      if SortedDesc(xs, key) {
        forall i, j | 0 <= i < j < |items| ensures key(items[i]) >= key(items[j]) {
          assert items[i] == xs[offset + i] && items[j] == xs[offset + j];
        }
      }
    }
  }

  /** Sorting keeps the number of rows and brings in no new row. */
  lemma SortDescKeeps<T>(xs: seq<T>, key: T -> int)
    ensures |SortDesc(xs, key)| == |xs|
    ensures forall x :: x in SortDesc(xs, key) ==> x in xs
    ensures SortedDesc(SortDesc(xs, key), key)
  {
    SortDescProperties(xs, key);
    var ys := SortDesc(xs, key);
    assert |ys| == |multiset(ys)| == |multiset(xs)| == |xs|;
    forall x | x in ys ensures x in xs {
      assert x in multiset(ys);
    }
  }

  // ---------------------------------------------------------------------
  // Listings (`get_user_analyses`, `get_user_playlists`)
  // ---------------------------------------------------------------------

  /** The optional filters of the analyses listing; an empty emotion is no filter. */
  datatype AnalysisFilter = AnalysisFilter(emotion: Option<string>, startDate: Option<int>, endDate: Option<int>)

  predicate AnalysisMatches(a: Analysis, userId: nat, f: AnalysisFilter) {
    && a.userId == userId
    && (f.emotion.Some? && f.emotion.value != "" ==> a.dominantEmotion == Upper(f.emotion.value))
    && (f.startDate.Some? ==> a.createdAt >= f.startDate.value)
    && (f.endDate.Some? ==> a.createdAt <= f.endDate.value)
  }

  function CreatedAt(a: Analysis): int { a.createdAt }
  function PlaylistCreatedAt(p: Playlist): int { p.createdAt }

  function SelectAnalyses(rows: seq<Analysis>, userId: nat, f: AnalysisFilter): (r: seq<Analysis>)
    ensures forall a :: a in r <==> a in rows && AnalysisMatches(a, userId, f)
    ensures forall a :: multiset(r)[a] == if AnalysisMatches(a, userId, f) then multiset(rows)[a] else 0
  {
    if rows == [] then []
    else
      var last := rows[|rows| - 1];
      assert rows == rows[..|rows| - 1] + [last];
      SelectAnalyses(rows[..|rows| - 1], userId, f) + (if AnalysisMatches(last, userId, f) then [last] else [])
  }

  /** `get_user_analyses`. */
  function UserAnalyses(rows: seq<Analysis>, userId: nat, f: AnalysisFilter, page: int, pageSize: int): Page<Analysis>
    requires page >= 1 && pageSize >= 1
  {
    var ordered := SortDesc(SelectAnalyses(rows, userId, f), CreatedAt);
    Page(|ordered|, page, pageSize, TotalPages(|ordered|, pageSize), PageOf(ordered, page, pageSize))
  }

  /**
   * A page of analyses: `total` counts exactly the caller's rows that pass
   * the filters, the items are such rows, newest first, at most
   * `page_size` of them, and `total_pages` is the ceiling of total over page size.
   */
  lemma UserAnalysesProperties(rows: seq<Analysis>, userId: nat, f: AnalysisFilter, page: int, pageSize: int)
    requires page >= 1 && pageSize >= 1
    ensures var r := UserAnalyses(rows, userId, f, page, pageSize);
      && r.total == |SelectAnalyses(rows, userId, f)|
      && |r.items| <= pageSize
      && (forall a :: a in r.items ==> a in rows && AnalysisMatches(a, userId, f))
      && SortedDesc(r.items, CreatedAt)
      && r.totalPages == TotalPages(r.total, pageSize)
  {
    var selected := SelectAnalyses(rows, userId, f);
    SortDescKeeps(selected, CreatedAt);
    PageOfProperties(SortDesc(selected, CreatedAt), page, pageSize, CreatedAt);
  }

  /** The optional filters of the playlists listing. */
  datatype PlaylistFilter = PlaylistFilter(emotion: Option<string>, isFavorite: Option<bool>)

  predicate PlaylistMatches(p: Playlist, userId: nat, f: PlaylistFilter) {
    && p.userId == userId
    && (f.emotion.Some? && f.emotion.value != "" ==> p.emotion == Upper(f.emotion.value))
    && (f.isFavorite.Some? ==> p.isFavorite == f.isFavorite.value)
  }

  function SelectPlaylists(rows: seq<Playlist>, userId: nat, f: PlaylistFilter): (r: seq<Playlist>)
    ensures forall p :: p in r <==> p in rows && PlaylistMatches(p, userId, f)
  {
    if rows == [] then []
    else
      var last := rows[|rows| - 1];
      assert rows == rows[..|rows| - 1] + [last];
      SelectPlaylists(rows[..|rows| - 1], userId, f) + (if PlaylistMatches(last, userId, f) then [last] else [])
  }

  /** `get_user_playlists`. */
  function UserPlaylists(rows: seq<Playlist>, userId: nat, f: PlaylistFilter, page: int, pageSize: int): Page<Playlist>
    requires page >= 1 && pageSize >= 1
  {
    var ordered := SortDesc(SelectPlaylists(rows, userId, f), PlaylistCreatedAt);
    Page(|ordered|, page, pageSize, TotalPages(|ordered|, pageSize), PageOf(ordered, page, pageSize))
  }

  /** A page of playlists: the same promises as for analyses. */
  lemma UserPlaylistsProperties(rows: seq<Playlist>, userId: nat, f: PlaylistFilter, page: int, pageSize: int)
    requires page >= 1 && pageSize >= 1
    ensures var r := UserPlaylists(rows, userId, f, page, pageSize);
      && r.total == |SelectPlaylists(rows, userId, f)|
      && |r.items| <= pageSize
      && (forall p :: p in r.items ==> p in rows && PlaylistMatches(p, userId, f))
      && SortedDesc(r.items, PlaylistCreatedAt)
      && r.totalPages == TotalPages(r.total, pageSize)
  {
    var selected := SelectPlaylists(rows, userId, f);
    SortDescKeeps(selected, PlaylistCreatedAt);
    PageOfProperties(SortDesc(selected, PlaylistCreatedAt), page, pageSize, PlaylistCreatedAt);
  }

  // ---------------------------------------------------------------------
  // Single playlists
  // ---------------------------------------------------------------------

  predicate Owns(p: Playlist, playlistId: nat, userId: nat) {
    p.id == playlistId && p.userId == userId
  }

  /** The index of the caller's playlist with that id. */
  function FindPlaylist(rows: seq<Playlist>, playlistId: nat, userId: nat): (r: Option<nat>)
    ensures r.Some? ==> r.value < |rows| && Owns(rows[r.value], playlistId, userId)
    ensures r.None? <==> forall j :: 0 <= j < |rows| ==> !Owns(rows[j], playlistId, userId)
  {
    if rows == [] then None
    else if Owns(rows[0], playlistId, userId) then Some(0)
    else
      var rest := FindPlaylist(rows[1..], playlistId, userId);
      if rest.Some? then Some(rest.value + 1) else None
  }

  /** `get_playlist_by_id`: 404 unless a row has both the id and the caller as owner. */
  function GetPlaylistById(rows: seq<Playlist>, playlistId: nat, userId: nat): (r: Result<Playlist, Error>)
    ensures r.Failure? <==> forall j :: 0 <= j < |rows| ==> !Owns(rows[j], playlistId, userId)
    ensures r.Failure? ==> r.error == PlaylistNotFound
    ensures r.Success? ==> r.value in rows && Owns(r.value, playlistId, userId)
  {
    var i := FindPlaylist(rows, playlistId, userId);
    if i.Some? then Success(rows[i.value]) else Failure(PlaylistNotFound)
  }

  /** The fields a playlist update may carry; a missing field keeps its value. */
  datatype PlaylistUpdate = PlaylistUpdate(name: Option<string>, description: Option<string>, isFavorite: Option<bool>)

  /** `update_playlist`'s field assignments. */
  function Updated(p: Playlist, u: PlaylistUpdate): (q: Playlist)
    ensures q.name == u.name.GetOr(p.name)
    ensures q.description == (if u.description.Some? then u.description else p.description)
    ensures q.isFavorite == u.isFavorite.GetOr(p.isFavorite)
    ensures q.(name := p.name, description := p.description, isFavorite := p.isFavorite) == p
  {
    var p1 := if u.name.Some? then p.(name := u.name.value) else p;
    var p2 := if u.description.Some? then p1.(description := u.description) else p1;
    if u.isFavorite.Some? then p2.(isFavorite := u.isFavorite.value) else p2
  }

  /** An update with no fields changes nothing, and applying the same update twice is applying it once. */
  lemma UpdatedProperties(p: Playlist, u: PlaylistUpdate)
    ensures Updated(p, PlaylistUpdate(None, None, None)) == p
    ensures Updated(Updated(p, u), u) == Updated(p, u)
  {
  }

  // ---------------------------------------------------------------------
  // Statistics (`get_user_stats`)
  // ---------------------------------------------------------------------

  /** The dominant emotions of the caller's analyses. */
  function EmotionsOf(rows: seq<Analysis>, userId: nat): (es: seq<string>)
    ensures |es| == 0 <==> forall j :: 0 <= j < |rows| ==> rows[j].userId != userId
    ensures forall e :: e in es <==> exists a :: a in rows && a.userId == userId && a.dominantEmotion == e
  {
    if rows == [] then []
    else
      var last := rows[|rows| - 1];
      assert rows == rows[..|rows| - 1] + [last];
      EmotionsOf(rows[..|rows| - 1], userId) + (if last.userId == userId then [last.dominantEmotion] else [])
  }

  lemma {:induction false} EmotionsMatchSelection(rows: seq<Analysis>, userId: nat)
    ensures |EmotionsOf(rows, userId)| == |SelectAnalyses(rows, userId, NoAnalysisFilter)|
  {
    if rows != [] {
      EmotionsMatchSelection(rows[..|rows| - 1], userId);
    }
  }

  /** How many times `e` occurs in `es` is the number of positions holding it. */
  lemma {:induction false} CountIsPositions(es: seq<string>, e: string)
    ensures multiset(es)[e] == |set i | 0 <= i < |es| && es[i] == e|
    decreases |es|
  {
    if es != [] {
      var front := es[..|es| - 1];
      CountIsPositions(front, e);
      assert es == front + [es[|es| - 1]];
      var before := set i | 0 <= i < |front| && front[i] == e;
      var after := set i | 0 <= i < |es| && es[i] == e;
      if es[|es| - 1] == e {
        assert after == before + {|es| - 1};
      } else {
        assert after == before;
      }
    }
  }

  /** Emotion → number of analyses with it. */
  function Breakdown(es: seq<string>): (m: map<string, nat>)
    ensures forall e :: e in m <==> e in es
    ensures forall e :: e in m ==> m[e] == |set i | 0 <= i < |es| && es[i] == e|
  {
    var m := map e | e in multiset(es) :: multiset(es)[e];
    assert forall e :: e in m ==> m[e] == |set i | 0 <= i < |es| && es[i] == e| by {
      forall e | e in m ensures m[e] == |set i | 0 <= i < |es| && es[i] == e| {
        CountIsPositions(es, e);
      }
    }
    m
  }

  /** The emotion with the highest count among `es[..k]`, the earliest among ties. */
  function Leader(es: seq<string>, k: nat): string
    requires 1 <= k <= |es|
  {
    if k == 1 then es[0]
    else
      var l := Leader(es, k - 1);
      if multiset(es)[es[k - 1]] > multiset(es)[l] then es[k - 1] else l
  }

  lemma {:induction false} LeaderIsMaximal(es: seq<string>, k: nat)
    requires 1 <= k <= |es|
    ensures Leader(es, k) in es[..k]
    ensures forall j :: 0 <= j < k ==> multiset(es)[es[j]] <= multiset(es)[Leader(es, k)]
  {
    if k > 1 {
      LeaderIsMaximal(es, k - 1);
      assert es[..k] == es[..k - 1] + [es[k - 1]];
    }
  }

  /** `most_common_emotion`: None without analyses. */
  function MostCommon(es: seq<string>): Option<string> {
    if es == [] then None else Some(Leader(es, |es|))
  }

  /** The most common emotion is an emotion of the breakdown with a count no other emotion exceeds; there is one exactly when there are analyses. */
  lemma MostCommonIsMaximal(es: seq<string>)
    ensures MostCommon(es).None? <==> es == []
    ensures MostCommon(es).Some? ==>
      var m := Breakdown(es);
      MostCommon(es).value in m && forall e :: e in m ==> m[e] <= m[MostCommon(es).value]
  {
    if es != [] {
      LeaderIsMaximal(es, |es|);
      assert es[..|es|] == es;
      var m := Breakdown(es);
      forall e | e in m ensures m[e] <= m[Leader(es, |es|)] {
        var j :| 0 <= j < |es| && es[j] == e;
      }
    }
  }

  datatype Stats = Stats(
    totalAnalyses: nat,
    totalSavedPlaylists: nat,
    favoritePlaylists: nat,
    mostCommonEmotion: Option<string>,
    breakdown: map<string, nat>,
    recent: seq<Analysis>)

  /** The caller's saved playlists, each as many times as it is stored. */
  function OwnPlaylists(rows: seq<Playlist>, userId: nat): (r: seq<Playlist>)
    ensures |r| <= |rows|
    ensures forall p :: p in r <==> p in rows && p.userId == userId
    ensures forall p :: multiset(r)[p] == if p.userId == userId then multiset(rows)[p] else 0
  {
    if rows == [] then []
    else
      var last := rows[|rows| - 1];
      assert rows == rows[..|rows| - 1] + [last];
      OwnPlaylists(rows[..|rows| - 1], userId) + (if last.userId == userId then [last] else [])
  }

  /** One more playlist at the end adds its position when it is a favourite. */
  lemma FavoritePositionsSnoc(ps: seq<Playlist>)
    requires ps != []
    ensures var front := ps[..|ps| - 1];
      |set i | 0 <= i < |ps| && ps[i].isFavorite|
        == |set i | 0 <= i < |front| && front[i].isFavorite| + (if ps[|ps| - 1].isFavorite then 1 else 0)
  {
    var front := ps[..|ps| - 1];
    var before := set i | 0 <= i < |front| && front[i].isFavorite;
    var after := set i | 0 <= i < |ps| && ps[i].isFavorite;
    if ps[|ps| - 1].isFavorite {
      assert after == before + {|ps| - 1};
    } else {
      assert after == before;
    }
  }

  /** How many of the playlists are favourites: the number of positions holding one. */
  function Favorites(ps: seq<Playlist>): (n: nat)
    ensures n <= |ps|
    ensures n == |set i | 0 <= i < |ps| && ps[i].isFavorite|
  {
    if ps == [] then 0
    else
      FavoritePositionsSnoc(ps);
      Favorites(ps[..|ps| - 1]) + (if ps[|ps| - 1].isFavorite then 1 else 0)
  }

  const NoAnalysisFilter := AnalysisFilter(None, None, None)

  /** `get_user_stats`. */
  function UserStats(analyses: seq<Analysis>, playlists: seq<Playlist>, userId: nat): Stats {
    var es := EmotionsOf(analyses, userId);
    var recent := SortDesc(SelectAnalyses(analyses, userId, NoAnalysisFilter), CreatedAt);
    Stats(
      |es|,
      |OwnPlaylists(playlists, userId)|,
      Favorites(OwnPlaylists(playlists, userId)),
      MostCommon(es),
      Breakdown(es),
      recent[..Min(5, |recent|)])
  }

  /**
   * The statistics: the total counts the caller's analyses, the breakdown
   * holds exactly the emotions they carry, the most common emotion has the
   * largest count and exists exactly when there are analyses, and
   * favourites never outnumber saved playlists.
   */
  lemma UserStatsProperties(analyses: seq<Analysis>, playlists: seq<Playlist>, userId: nat)
    ensures var s := UserStats(analyses, playlists, userId);
      && s.totalAnalyses == |SelectAnalyses(analyses, userId, NoAnalysisFilter)|
      && (forall e :: e in s.breakdown <==> exists a :: a in analyses && a.userId == userId && a.dominantEmotion == e)
      && (s.mostCommonEmotion.None? <==> s.totalAnalyses == 0)
      && (s.mostCommonEmotion.Some? ==>
            (s.mostCommonEmotion.value in s.breakdown
             && forall e :: e in s.breakdown ==> s.breakdown[e] <= s.breakdown[s.mostCommonEmotion.value]))
      && s.favoritePlaylists <= s.totalSavedPlaylists
  {
    var es := EmotionsOf(analyses, userId);
    var s := UserStats(analyses, playlists, userId);
    assert s.breakdown == Breakdown(es) && s.mostCommonEmotion == MostCommon(es);
    EmotionsMatchSelection(analyses, userId);
    MostCommonIsMaximal(es);
  }

  /**
   * The statistics' recent analyses are the five newest of the caller's
   * (all of them when fewer), the caller's own and newest first.
   */
  lemma UserStatsRecent(analyses: seq<Analysis>, playlists: seq<Playlist>, userId: nat)
    ensures var s := UserStats(analyses, playlists, userId);
      var selected := SelectAnalyses(analyses, userId, NoAnalysisFilter);
      && |s.recent| == Min(5, |selected|)
      && (forall a :: a in s.recent ==> a in analyses && a.userId == userId)
      && SortedDesc(s.recent, CreatedAt)
      && (forall a, b :: a in multiset(selected) - multiset(s.recent) && b in s.recent ==> CreatedAt(a) <= CreatedAt(b))
  {
    var selected := SelectAnalyses(analyses, userId, NoAnalysisFilter);
    var recent := SortDesc(selected, CreatedAt);
    assert UserStats(analyses, playlists, userId).recent == recent[..Min(5, |recent|)];
    RecentAnalyses(analyses, userId);
  }

  /** A prefix of a newest-first rearrangement of `xs` holds the newest of `xs`. */
  lemma SortedPrefixIsNewest<T>(xs: seq<T>, ys: seq<T>, key: T -> int, m: nat)
    requires SortedDesc(ys, key) && multiset(ys) == multiset(xs) && m <= |ys|
    ensures multiset(ys[..m]) <= multiset(xs)
    ensures forall a, b :: a in multiset(xs) - multiset(ys[..m]) && b in ys[..m] ==> key(a) <= key(b)
  {
    var top, rest := ys[..m], ys[m..];
    assert ys == top + rest;
    assert multiset(xs) == multiset(top) + multiset(rest);
    forall a, b | a in multiset(xs) - multiset(top) && b in top ensures key(a) <= key(b) {
      assert a in rest;
      var k :| 0 <= k < |rest| && rest[k] == a;
      var j :| 0 <= j < m && top[j] == b;
      assert ys[m + k] == a && ys[j] == b;
    }
  }

  /**
   * The first `n` of a newest-first order are the newest: each row left
   * out is no newer than any row kept.
   */
  lemma {:induction false} TopIsNewest<T>(xs: seq<T>, key: T -> int, n: nat)
    ensures var ys := SortDesc(xs, key);
      var top := ys[..Min(n, |ys|)];
      && multiset(top) <= multiset(xs)
      && forall a, b :: a in multiset(xs) - multiset(top) && b in top ==> key(a) <= key(b)
  {
    var ys := SortDesc(xs, key);
    SortDescProperties(xs, key);
    SortedPrefixIsNewest(xs, ys, key, Min(n, |ys|));
  }

  /**
   * The recent analyses are the five newest of the caller's (all of them
   * when there are fewer), the caller's own and newest first: no analysis
   * of the caller left out is newer than one kept.
   */
  lemma RecentAnalyses(analyses: seq<Analysis>, userId: nat)
    ensures var selected := SelectAnalyses(analyses, userId, NoAnalysisFilter);
      var recent := SortDesc(selected, CreatedAt);
      var top := recent[..Min(5, |recent|)];
      && |top| == Min(5, |selected|)
      && (forall a :: a in top ==> a in analyses && a.userId == userId)
      && SortedDesc(top, CreatedAt)
      && multiset(top) <= multiset(selected)
      && (forall a, b :: a in multiset(selected) - multiset(top) && b in top ==> CreatedAt(a) <= CreatedAt(b))
  {
    var selected := SelectAnalyses(analyses, userId, NoAnalysisFilter);
    var recent := SortDesc(selected, CreatedAt);
    SortDescKeeps(selected, CreatedAt);
    PageOfProperties(recent, 1, 5, CreatedAt);
    assert recent[..Min(5, |recent|)] == PageOf(recent, 1, 5);
    TopIsNewest(selected, CreatedAt, 5);
  }

  // ---------------------------------------------------------------------
  // The store
  // ---------------------------------------------------------------------

  /** A request to save a playlist. */
  datatype SaveRequest = SaveRequest(
    analysisId: Option<nat>, name: string, emotion: string, description: Option<string>,
    tracks: seq<string>, isFavorite: bool)

  predicate HasAnalysisOf(rows: seq<Analysis>, analysisId: nat, userId: nat) {
    exists j :: 0 <= j < |rows| && rows[j].id == analysisId && rows[j].userId == userId
  }

  ghost predicate UniquePlaylistIds(ps: seq<Playlist>) {
    forall i, j :: 0 <= i < j < |ps| ==> ps[i].id != ps[j].id
  }

  /** Removing one row keeps ids unique, drops exactly that row, and leaves no row with its id. */
  lemma RemoveRow(ps: seq<Playlist>, i: nat)
    requires UniquePlaylistIds(ps) && i < |ps|
    ensures UniquePlaylistIds(ps[..i] + ps[i + 1..])
    ensures multiset(ps[..i] + ps[i + 1..]) + multiset{ps[i]} == multiset(ps)
    ensures forall p :: p in ps[..i] + ps[i + 1..] ==> p.id != ps[i].id
  {
    var rest := ps[..i] + ps[i + 1..];
    RemovedOnce(ps, i);
    RestIndex(ps, i);
    forall a, b | 0 <= a < b < |rest| ensures rest[a].id != rest[b].id {
      var a', b' := if a < i then a else a + 1, if b < i then b else b + 1;
      assert rest[a] == ps[a'] && rest[b] == ps[b'];
    }
    forall p | p in rest ensures p.id != ps[i].id {
      var k :| 0 <= k < |rest| && rest[k] == p;
      assert p == ps[if k < i then k else k + 1];
    }
  }

  /** Dropping row `i` takes exactly that row out of the multiset. */
  lemma RemovedOnce<T>(xs: seq<T>, i: nat)
    requires i < |xs|
    ensures multiset(xs[..i] + xs[i + 1..]) + multiset{xs[i]} == multiset(xs)
  {
    assert xs == xs[..i] + [xs[i]] + xs[i + 1..];
  }

  /** Where each row of `ps` without row `i` came from. */
  lemma RestIndex(ps: seq<Playlist>, i: nat)
    requires i < |ps|
    ensures forall k :: 0 <= k < |ps| - 1 ==> (ps[..i] + ps[i + 1..])[k] == (if k < i then ps[k] else ps[k + 1])
  {
  }

  class HistoryStore {
    var analyses: seq<Analysis>
    var playlists: seq<Playlist>

    /** Row ids are unique in each table. */
    ghost predicate Valid()
      reads this
    {
      && (forall i, j :: 0 <= i < j < |analyses| ==> analyses[i].id != analyses[j].id)
      && UniquePlaylistIds(playlists)
    }

    constructor ()
      ensures analyses == [] && playlists == [] && Valid()
    {
      analyses := [];
      playlists := [];
    }

    /** `create_emotion_analysis`: one row added. */
    method CreateEmotionAnalysis(userId: nat, dominantEmotion: string, confidence: real, now: int, freshId: nat)
      returns (a: Analysis)
      requires Valid() && forall j :: 0 <= j < |analyses| ==> analyses[j].id != freshId
      modifies this
      ensures Valid()
      ensures a == Analysis(freshId, userId, dominantEmotion, confidence, now)
      ensures analyses == old(analyses) + [a] && playlists == old(playlists)
    {
      a := Analysis(freshId, userId, dominantEmotion, confidence, now);
      analyses := analyses + [a];
    }

    /** `save_playlist`: 404 when the named analysis is not the caller's, otherwise one row added. */
    method SavePlaylist(userId: nat, req: SaveRequest, now: int, freshId: nat)
      returns (r: Result<Playlist, Error>)
      requires Valid() && forall j :: 0 <= j < |playlists| ==> playlists[j].id != freshId
      modifies this
      ensures Valid() && analyses == old(analyses)
      ensures req.analysisId.Some? && !HasAnalysisOf(analyses, req.analysisId.value, userId) ==>
        r == Failure(AnalysisNotFound) && playlists == old(playlists)
      ensures req.analysisId.None? || HasAnalysisOf(analyses, req.analysisId.value, userId) ==>
        && r == Success(Playlist(freshId, userId, req.analysisId, req.name, req.emotion, req.description,
                                 req.tracks, req.isFavorite, now))
        && playlists == old(playlists) + [r.value]
    {
      if req.analysisId.Some? {
        var found := false;
        for j := 0 to |analyses|
          invariant found <==> exists k :: 0 <= k < j && analyses[k].id == req.analysisId.value && analyses[k].userId == userId
        {
          if analyses[j].id == req.analysisId.value && analyses[j].userId == userId {
            found := true;
          }
        }
        if !found {
          return Failure(AnalysisNotFound);
        }
      }
      var p := Playlist(freshId, userId, req.analysisId, req.name, req.emotion, req.description,
                        req.tracks, req.isFavorite, now);
      playlists := playlists + [p];
      return Success(p);
    }

    /** `update_playlist`: 404 as for reading it; otherwise only the given fields of that row change. */
    method UpdatePlaylist(playlistId: nat, userId: nat, u: PlaylistUpdate) returns (r: Result<Playlist, Error>)
      requires Valid()
      modifies this
      ensures Valid() && analyses == old(analyses)
      ensures FindPlaylist(old(playlists), playlistId, userId).None? ==>
        r == Failure(PlaylistNotFound) && playlists == old(playlists)
      ensures FindPlaylist(old(playlists), playlistId, userId).Some? ==>
        var i := FindPlaylist(old(playlists), playlistId, userId).value;
        && r == Success(Updated(old(playlists)[i], u))
        && playlists == old(playlists)[i := r.value]
    {
      var found := FindPlaylist(playlists, playlistId, userId);
      if found.None? {
        return Failure(PlaylistNotFound);
      }
      var i := found.value;
      var p := Updated(playlists[i], u);
      playlists := playlists[i := p];
      return Success(p);
    }

    /** `delete_playlist`: 404 leaves the table as it was; otherwise exactly that row goes. */
    method DeletePlaylist(playlistId: nat, userId: nat) returns (r: Result<(), Error>)
      requires Valid()
      modifies this
      ensures Valid() && analyses == old(analyses)
      ensures FindPlaylist(old(playlists), playlistId, userId).None? ==>
        r == Failure(PlaylistNotFound) && playlists == old(playlists)
      ensures FindPlaylist(old(playlists), playlistId, userId).Some? ==>
        var i := FindPlaylist(old(playlists), playlistId, userId).value;
        && r.Success?
        && playlists == old(playlists)[..i] + old(playlists)[i + 1..]
        && multiset(playlists) + multiset{old(playlists)[i]} == multiset(old(playlists))
        && forall p :: p in playlists ==> p.id != playlistId
    {
      var found := FindPlaylist(playlists, playlistId, userId);
      if found.None? {
        return Failure(PlaylistNotFound);
      }
      var i := found.value;
      RemoveRow(playlists, i);
      playlists := playlists[..i] + playlists[i + 1..];
      return Success(());
    }
  }
}

=== FILE: music_client.dfy ===
/**
 * The client's duration display (`formatDuration` in
 * client/src/services/musicService.js): milliseconds rendered as
 * minutes, a colon and two-digit seconds. Durations are whole,
 * non-negative milliseconds, where `toFixed(0)` on the seconds rounds
 * halves up exactly.
 */
module MusicClient {
  import opened Text

  const MsPerMinute := 60000
  const MsPerSecond := 1000

  /** A number below 100 as two digits, left-padded with '0'. */
  function TwoDigits(x: nat): string {
    PadStart(NatToString(x), 2, '0')
  }

  lemma TwoDigitsReadBack(x: nat)
    requires x < 100
    ensures |TwoDigits(x)| == 2 && AllDigits(TwoDigits(x)) && DigitsValue(TwoDigits(x)) == x
  {
    DigitsValueOfNatToString(x);
    var d := NatToString(x);
    if x < 10 {
      assert TwoDigits(x) == ['0'] + d;
      assert TwoDigits(x)[..1] == ['0'];
    } else {
      assert d == NatToString(x / 10) + [DigitChar(x % 10)];
    }
  }

  /** `${minutes}:${seconds}` */
  function Render(minutes: nat, seconds: nat): string {
    NatToString(minutes) + ":" + TwoDigits(seconds)
  }

  /** Reading a rendering back: the part before the colon is the minutes, the two digits after it the seconds. */
  lemma RenderReadBack(minutes: nat, seconds: nat)
    requires seconds < 100
    ensures var s := Render(minutes, seconds);
      && |s| >= 4 && s[|s| - 3] == ':'
      && AllDigits(s[..|s| - 3]) && DigitsValue(s[..|s| - 3]) == minutes
      && AllDigits(s[|s| - 2..]) && DigitsValue(s[|s| - 2..]) == seconds
  {
    TwoDigitsReadBack(seconds);
    DigitsValueOfNatToString(minutes);
    var s := Render(minutes, seconds);
    assert s[..|s| - 3] == NatToString(minutes);
    assert s[|s| - 2..] == TwoDigits(seconds);
  }

  /** `formatDuration` as written: the seconds are rounded within the minute. */
  function FormatDurationAsWritten(ms: nat): string {
    Render(ms / MsPerMinute, (ms % MsPerMinute + 500) / MsPerSecond)
  }

  /**
   * As written, the last half second of every minute shows as second 60
   * without carrying into the minutes: 119500 ms renders "1:60".
   */
  lemma AsWrittenShowsSixty(ms: nat)
    requires ms % MsPerMinute >= 59500
    ensures FormatDurationAsWritten(ms) == NatToString(ms / MsPerMinute) + ":60"
  {
    RoundsToSixty(ms % MsPerMinute);
    assert TwoDigits(60) == "60";
  }

  /** 119500 ms, one minute and 59.5 seconds, renders "1:60". */
  lemma AsWrittenExample()
    ensures FormatDurationAsWritten(119500) == "1:60"
  {
    assert 119500 / MsPerMinute == 1 && 119500 % MsPerMinute == 59500;
    AsWrittenShowsSixty(119500);
    assert NatToString(1) == "1";
  }

  lemma RoundsToSixty(r: int)
    requires 59500 <= r < MsPerMinute
    ensures (r + 500) / MsPerSecond == 60
  {
  }

  /** `formatDuration` with the rounding done on the whole duration, so the seconds stay below 60. */
  function FormatDuration(ms: nat): string {
    var total := (ms + 500) / MsPerSecond;
    Render(total / 60, total % 60)
  }

  /**
   * The display reads back as the duration rounded to the nearest second,
   * with seconds from 00 to 59.
   */
  lemma FormatDurationReadBack(ms: nat)
    ensures var s := FormatDuration(ms);
      && |s| >= 4 && s[|s| - 3] == ':'
      && AllDigits(s[..|s| - 3]) && AllDigits(s[|s| - 2..])
      && DigitsValue(s[|s| - 2..]) < 60
      && DigitsValue(s[..|s| - 3]) * 60 + DigitsValue(s[|s| - 2..]) == (ms + 500) / MsPerSecond
  {
    var total := (ms + 500) / MsPerSecond;
    RenderReadBack(total / 60, total % 60);
  }

  lemma DivModUnique(a: int, d: int, q: int, t: int)
    requires d > 0 && a == d * q + t && 0 <= t < d
    ensures a / d == q && a % d == t
  {
    var q0, t0 := a / d, a % d;
    var k := q0 - q;
    assert d * k == t - t0 by {
      assert d * q0 + t0 == d * q + t;
      assert d * q0 == d * q + d * k;
    }
  }

  /** The two renderings agree everywhere except the last half second of each minute. */
  lemma FormatDurationAgrees(ms: nat)
    requires ms % MsPerMinute < 59500
    ensures FormatDuration(ms) == FormatDurationAsWritten(ms)
  {
    var q, r := ms / MsPerMinute, ms % MsPerMinute;
    var sec, t := (r + 500) / 1000, (r + 500) % 1000;
    var total := 60 * q + sec;
    assert ms + 500 == 1000 * total + t;
    DivModUnique(ms + 500, 1000, total, t);
    DivModUnique(total, 60, q, sec);
  }
}

=== FILE: music_controller.dfy ===
/**
 * The recommendations endpoint's controller
 * (server/app/controllers/music_controller.py): the emotion guard, then the
 * limit guard, then the service call with the upper-cased emotion, and the
 * playlist description attached to a successful answer.
 */
module MusicController {
  import opened Wrappers
  import opened Text
  import opened Batching
  import opened Catalog
  import opened Recommendation

  /** The accepted emotions in the order the error message lists them. */
  const ValidEmotions: seq<string> := ["HAPPY", "SAD", "ANGRY", "CALM", "SURPRISED", "FEAR", "DISGUSTED", "CONFUSED"]

  const MinLimit := 1
  const MaxLimit := 100

  const InvalidEmotion := Error(400, "Emoci\U{F3}n inv\U{E1}lida. Debe ser una de: " + Join(ValidEmotions, ", "))
  const InvalidLimit := Error(400, "El l\U{ED}mite debe estar entre 1 y 100")
  const DefaultFailure := "Error al obtener recomendaciones"

  /** The listed emotions are exactly the tags the recommender knows, each listed once. */
  lemma ValidEmotionsAreTags()
    ensures forall e :: e in ValidEmotions <==> e in EmotionTags
    ensures forall i, j :: 0 <= i < j < |ValidEmotions| ==> ValidEmotions[i] != ValidEmotions[j]
  {
  }

  /** The two guards in order: emotion first, then the limit. */
  function Guard(emotion: string, limit: int): (r: Option<Error>)
    ensures r.None? <==> Upper(emotion) in EmotionTags && MinLimit <= limit <= MaxLimit
    ensures Upper(emotion) !in EmotionTags ==> r == Some(InvalidEmotion)
    ensures Upper(emotion) in EmotionTags && !(MinLimit <= limit <= MaxLimit) ==> r == Some(InvalidLimit)
  {
    ValidEmotionsAreTags();
    if Upper(emotion) !in ValidEmotions then Some(InvalidEmotion)
    else if limit < MinLimit || limit > MaxLimit then Some(InvalidLimit)
    else None
  }

  /**
   * What the service call can end in: an answer carrying `success` (and
   * `error` when it failed), or a raised exception with its message.
   */
  datatype ServiceReply =
    | Answer(success: bool, error: Option<string>, recommendations: Recommendations)
    | Raised(message: string)

  /** The response body: the recommendation plus its playlist description. */
  datatype Response = Response(recommendations: Recommendations, playlistDescription: string)

  /** The controller's handling of the service's reply for the upper-cased tag. */
  function Respond(tag: string, reply: ServiceReply): (r: Result<Response, Error>)
    ensures reply.Answer? && reply.success ==>
      r == Success(Response(reply.recommendations, PlaylistDescription(tag)))
    ensures reply.Answer? && !reply.success ==>
      r == Failure(Error(500, reply.error.GetOr(DefaultFailure)))
    ensures reply.Raised? ==> r == Failure(Error(500, DefaultFailure + ": " + reply.message))
  {
    match reply
    case Answer(success, error, recs) =>
      if !success then Failure(Error(500, error.GetOr(DefaultFailure)))
      else Success(Response(recs, PlaylistDescription(tag)))
    case Raised(message) => Failure(Error(500, DefaultFailure + ": " + message))
  }

  /** The service's outcome as the controller sees it: an unknown emotion is raised as an error. */
  function AsReply(r: Result<Recommendations, string>): ServiceReply {
    match r
    case Success(recs) => Answer(true, None, recs)
    case Failure(message) => Raised(message)
  }

  /**
   * `MusicController.get_recommendations`: the guards refuse the request
   * before the service is reached; past them the service is asked for the
   * upper-cased emotion, with no preferred genres, and its answer carries
   * that tag's description.
   */
  method GetRecommendations(
    service: SpotifyService,
    emotion: string, limit: int,
    sample: seq<(string, seq<string>)>,
    search: string -> seq<Track>, playlistTracks: string -> seq<Track>, topTracks: string -> seq<Track>,
    fetch: seq<string> -> FeatureReply,
    shuffle: seq<Track> -> seq<Track>, arrange: seq<Track> -> seq<Track>)
    returns (r: Result<Response, Error>)
    requires forall s :: multiset(shuffle(s)) == multiset(s)
    requires forall s :: multiset(arrange(s)) == multiset(s)
    modifies service
    ensures Guard(emotion, limit).Some? ==>
      r == Failure(Guard(emotion, limit).value) && service.audioFeaturesAvailable == old(service.audioFeaturesAvailable)
    ensures Guard(emotion, limit).None? ==>
      && r.Success?
      && r.value.playlistDescription == PlaylistDescription(Upper(emotion))
      && (r.value.recommendations, service.audioFeaturesAvailable) ==
           Recommend(Upper(emotion), limit, [], old(service.audioFeaturesAvailable),
                     sample, search, playlistTracks, topTracks, fetch, shuffle, arrange)
    ensures r.Success? ==>
      && r.value.recommendations.emotion == Upper(emotion)
      && |r.value.recommendations.tracks| <= limit
  {
    var guard := Guard(emotion, limit);
    if guard.Some? {
      return Failure(guard.value);
    }
    var tag := Upper(emotion);
    UpperIdempotent(emotion);
    var result := service.GetRecommendations(tag, limit, [], sample, search, playlistTracks, topTracks,
                                             fetch, shuffle, arrange);
    r := Respond(tag, AsReply(result));
  }
}

=== FILE: recommendation.dfy ===
/**
 * The recommendation service as an object (server/app/services/spotify_service.py):
 * its one piece of state is the "audio features available" flag, which the
 * feature filter and the feature analysis switch off for good on a 403
 * from the catalog, and which only the probe can switch on.
 *
 * The catalog's audio-features endpoint is the function `fetch` from a
 * batch of track ids to its reply.
 */
module Recommendation {
  import opened Wrappers
  import opened Text
  import opened Batching
  import opened Catalog
  import opened Collector
  import opened Diversifier

  /** The audio-features endpoint's reply to one batch of ids. */
  datatype FeatureReply =
    | Features(items: seq<Option<AudioFeatures>>)  // one entry per id, `None` for a null entry
    | Denied                                       // HTTP 403
    | Failed                                       // any other error

  /** Batch size of both audio-features loops. */
  const FeatureBatch: nat := 50

  // ---------------------------------------------------------------------
  // Feature filter (`_filter_tracks_by_features`)
  // ---------------------------------------------------------------------

  /** `[t['id'] for t in tracks if t.get('id')]` */
  function TrackIds(tracks: seq<Track>): (ids: seq<string>)
    ensures forall id :: id in ids ==> id != ""
  {
    if tracks == [] then []
    else
      var t := tracks[|tracks| - 1];
      TrackIds(tracks[..|tracks| - 1]) + (if t.id != "" then [t.id] else [])
  }

  /** `{t['id']: t for t in tracks if t.get('id')}`: a later track with the same id wins. */
  function IdIndex(tracks: seq<Track>): map<string, Track> {
    if tracks == [] then map[]
    else
      var t := tracks[|tracks| - 1];
      var m := IdIndex(tracks[..|tracks| - 1]);
      if t.id != "" then m[t.id := t] else m
  }

  /** What one entry of a reply contributes: the indexed track with the features attached, when they pass. */
  function KeptOne(f: Option<AudioFeatures>, index: map<string, Track>, spec: FilterSpec): seq<Track> {
    if f.Some? && f.value.id != "" && f.value.id in index && PassesFilters(f.value, spec)
    then [index[f.value.id].(features := f)]
    else []
  }

  function Kept(items: seq<Option<AudioFeatures>>, index: map<string, Track>, spec: FilterSpec): seq<Track> {
    if items == [] then []
    else Kept(items[..|items| - 1], index, spec) + KeptOne(items[|items| - 1], index, spec)
  }

  /** The batch loop: the tracks kept so far, or the error that stopped it. */
  datatype Scan = Scanned(kept: seq<Track>) | Aborted(denied: bool)

  function ScanBatches(batches: seq<seq<string>>, index: map<string, Track>, spec: FilterSpec, fetch: seq<string> -> FeatureReply): Scan {
    if batches == [] then Scanned([])
    else
      var prev := ScanBatches(batches[..|batches| - 1], index, spec, fetch);
      if prev.Aborted? then prev
      else match fetch(batches[|batches| - 1])
        case Denied => Aborted(true)
        case Failed => Aborted(false)
        case Features(items) => Scanned(prev.kept + Kept(items, index, spec))
  }

  /** The filter's result and the flag afterwards, from the flag before. */
  function FilterOutcome(tracks: seq<Track>, spec: FilterSpec, flag: bool, fetch: seq<string> -> FeatureReply): (seq<Track>, bool) {
    if tracks == [] || spec == NoBounds || !flag then (tracks, flag)
    else
      var scan := ScanBatches(Chunks(TrackIds(tracks), FeatureBatch), IdIndex(tracks), spec, fetch);
      if scan.Aborted? then (tracks, !scan.denied)
      else if 10 * |scan.kept| < 3 * |tracks| then (tracks, true)
      else (scan.kept, true)
  }

  /** `o` is a copy of a track of `tracks` with passing features of its own id attached. */
  ghost predicate PassedCopy(o: Track, tracks: seq<Track>, spec: FilterSpec) {
    && o.features.Some? && o.features.value.id == o.id && PassesFilters(o.features.value, spec)
    && exists t :: t in tracks && o == t.(features := o.features)
  }

  lemma {:induction false} IdIndexFromTracks(tracks: seq<Track>)
    ensures forall id :: id in IdIndex(tracks) ==> IdIndex(tracks)[id] in tracks && IdIndex(tracks)[id].id == id
    decreases |tracks|
  {
    if tracks != [] {
      IdIndexFromTracks(tracks[..|tracks| - 1]);
      assert tracks == tracks[..|tracks| - 1] + [tracks[|tracks| - 1]];
    }
  }

  lemma {:induction false} KeptArePassedCopies(items: seq<Option<AudioFeatures>>, tracks: seq<Track>, spec: FilterSpec)
    ensures forall o :: o in Kept(items, IdIndex(tracks), spec) ==> PassedCopy(o, tracks, spec)
    decreases |items|
  {
    if items != [] {
      KeptArePassedCopies(items[..|items| - 1], tracks, spec);
      var f := items[|items| - 1];
      var index := IdIndex(tracks);
      if f.Some? && f.value.id != "" && f.value.id in index && PassesFilters(f.value, spec) {
        IdIndexFromTracks(tracks);
        var t := index[f.value.id];
        assert t in tracks && t.(features := f) == t.(features := f).(features := f);
      }
    }
  }

  lemma {:induction false} ScannedArePassedCopies(batches: seq<seq<string>>, tracks: seq<Track>, spec: FilterSpec, fetch: seq<string> -> FeatureReply)
    ensures var scan := ScanBatches(batches, IdIndex(tracks), spec, fetch);
      scan.Scanned? ==> forall o :: o in scan.kept ==> PassedCopy(o, tracks, spec)
    decreases |batches|
  {
    if batches != [] {
      ScannedArePassedCopies(batches[..|batches| - 1], tracks, spec, fetch);
      match fetch(batches[|batches| - 1])
      case Features(items) => KeptArePassedCopies(items, tracks, spec);
      case Denied =>
      case Failed =>
    }
  }

  /**
   * The filter's promises. It hands its input back unchanged when the input
   * or the spec is empty, when the flag is off, when a batch fails, and when
   * fewer than 30% survive; only a 403 turns the flag off, and nothing turns
   * it on. Otherwise it returns at least 30% as many tracks as it was given,
   * each a copy of an input track carrying passing features of its own id.
   *
   * In terms of the catalog's replies: the first batch not answered with
   * features hands the input back, turning the flag off on a 403 and
   * leaving it on for any other error. When every batch is answered the
   * flag stays as it was, and unless fewer than 30% pass, every answered
   * entry whose features pass brings its track into the result, carrying
   * those features.
   */
  lemma FilterOutcomeProperties(tracks: seq<Track>, spec: FilterSpec, flag: bool, fetch: seq<string> -> FeatureReply)
    ensures var (out, flag') := FilterOutcome(tracks, spec, flag, fetch);
      && (flag' ==> flag)
      && (tracks == [] || spec == NoBounds || !flag ==> out == tracks && flag' == flag)
      && (flag && !flag' ==> out == tracks)
      && (out != tracks ==> 10 * |out| >= 3 * |tracks| && forall o :: o in out ==> PassedCopy(o, tracks, spec))
    ensures var batches := Chunks(TrackIds(tracks), FeatureBatch);
      forall k :: 0 <= k < |batches| && AnsweredBefore(batches, k, fetch) && !fetch(batches[k]).Features? && spec != NoBounds ==>
        FilterOutcome(tracks, spec, flag, fetch) == (tracks, flag && !fetch(batches[k]).Denied?)
    ensures var batches := Chunks(TrackIds(tracks), FeatureBatch);
      var index := IdIndex(tracks);
      var scan := ScanBatches(batches, index, spec, fetch);
      var (out, flag') := FilterOutcome(tracks, spec, flag, fetch);
      AnsweredBefore(batches, |batches|, fetch) ==>
        && flag' == flag
        && scan.Scanned?
        && (tracks != [] && spec != NoBounds && flag && 10 * |scan.kept| < 3 * |tracks| ==> out == tracks)
        && (tracks != [] && spec != NoBounds && flag && 10 * |scan.kept| >= 3 * |tracks| ==>
              forall b, f :: b in batches && fetch(b).Features? && f in fetch(b).items && f.Some? && f.value.id != "" && f.value.id in index && PassesFilters(f.value, spec) ==>
                index[f.value.id].(features := f) in out)
  {
    var batches := Chunks(TrackIds(tracks), FeatureBatch);
    var index := IdIndex(tracks);
    ScannedArePassedCopies(batches, tracks, spec, fetch);
    forall k | 0 <= k < |batches| && AnsweredBefore(batches, k, fetch) && !fetch(batches[k]).Features?
      ensures ScanBatches(batches, index, spec, fetch) == Aborted(fetch(batches[k]).Denied?)
    {
      ErrorBatchAborts(batches, k, index, spec, fetch);
    }
    if AnsweredBefore(batches, |batches|, fetch) {
      ScanAnswered(batches, index, spec, fetch);
    }
  }

  /** The catalog answered every batch before the `k`-th with features. */
  predicate AnsweredBefore(batches: seq<seq<string>>, k: nat, fetch: seq<string> -> FeatureReply) {
    k <= |batches| && forall j :: 0 <= j < k ==> fetch(batches[j]).Features?
  }

  /** An answered entry whose features pass brings its indexed track, carrying those features. */
  lemma {:induction false} KeptComplete(items: seq<Option<AudioFeatures>>, index: map<string, Track>, spec: FilterSpec)
    ensures forall f :: f in items && f.Some? && f.value.id != "" && f.value.id in index && PassesFilters(f.value, spec) ==>
      index[f.value.id].(features := f) in Kept(items, index, spec)
    decreases |items|
  {
    if items != [] {
      KeptComplete(items[..|items| - 1], index, spec);
      assert items == items[..|items| - 1] + [items[|items| - 1]];
    }
  }

  /** With every batch answered the scan runs to the end and keeps every passing entry's track. */
  lemma {:induction false} ScanAnswered(batches: seq<seq<string>>, index: map<string, Track>, spec: FilterSpec, fetch: seq<string> -> FeatureReply)
    requires AnsweredBefore(batches, |batches|, fetch)
    ensures var scan := ScanBatches(batches, index, spec, fetch);
      && scan.Scanned?
      && forall b, f :: b in batches && fetch(b).Features? && f in fetch(b).items && f.Some? && f.value.id != "" && f.value.id in index && PassesFilters(f.value, spec) ==>
           index[f.value.id].(features := f) in scan.kept
    decreases |batches|
  {
    if batches != [] {
      var front := batches[..|batches| - 1];
      var last := batches[|batches| - 1];
      assert forall j :: 0 <= j < |front| ==> front[j] == batches[j];
      ScanAnswered(front, index, spec, fetch);
      assert fetch(batches[|batches| - 1]).Features?;
      KeptComplete(fetch(last).items, index, spec);
      assert batches == front + [last];
    }
  }

  /**
   * The first batch the catalog does not answer with features ends the
   * scan: a 403 marks it denied, any other error not.
   */
  lemma {:induction false} ErrorBatchAborts(batches: seq<seq<string>>, k: nat, index: map<string, Track>, spec: FilterSpec, fetch: seq<string> -> FeatureReply)
    requires k < |batches| && AnsweredBefore(batches, k, fetch) && !fetch(batches[k]).Features?
    ensures ScanBatches(batches, index, spec, fetch) == Aborted(fetch(batches[k]).Denied?)
    decreases |batches|
  {
    var front := batches[..|batches| - 1];
    assert forall j :: 0 <= j < |front| ==> front[j] == batches[j];
    if k < |batches| - 1 {
      ErrorBatchAborts(front, k, index, spec, fetch);
    } else {
      ScanAnswered(front, index, spec, fetch);
    }
  }

  /** One more batch for the filter: a 403 or another error aborts, features add the tracks they keep. */
  lemma ScanSnoc(done: seq<seq<string>>, batch: seq<string>, index: map<string, Track>, spec: FilterSpec, fetch: seq<string> -> FeatureReply)
    requires ScanBatches(done, index, spec, fetch).Scanned?
    ensures fetch(batch).Denied? ==> ScanBatches(done + [batch], index, spec, fetch) == Aborted(true)
    ensures fetch(batch).Failed? ==> ScanBatches(done + [batch], index, spec, fetch) == Aborted(false)
    ensures fetch(batch).Features? ==>
      ScanBatches(done + [batch], index, spec, fetch)
        == Scanned(ScanBatches(done, index, spec, fetch).kept + Kept(fetch(batch).items, index, spec))
  {
    assert (done + [batch])[..|done|] == done;
  }

  lemma {:induction false} AbortStable(a: seq<seq<string>>, b: seq<seq<string>>, index: map<string, Track>, spec: FilterSpec, fetch: seq<string> -> FeatureReply)
    requires ScanBatches(a, index, spec, fetch).Aborted?
    ensures ScanBatches(a + b, index, spec, fetch) == ScanBatches(a, index, spec, fetch)
    decreases |b|
  {
    if b == [] {
      assert a + b == a;
    } else {
      assert (a + b)[..|a + b| - 1] == a + b[..|b| - 1];
      AbortStable(a, b[..|b| - 1], index, spec, fetch);
    }
  }

  // ---------------------------------------------------------------------
  // Feature analysis (`_analyze_track_features`)
  // ---------------------------------------------------------------------

  /** The averages reported with a recommendation. */
  datatype FeatureSummary = FeatureSummary(valence: real, energy: real, tempo: real, modeText: string)

  const DefaultSummary: FeatureSummary := FeatureSummary(0.5, 0.5, 120.0, "N/A")

  /** The non-null features of every batch, or `None` after a 403; other errors skip their batch. */
  function GatherFeatures(batches: seq<seq<string>>, fetch: seq<string> -> FeatureReply): Option<seq<AudioFeatures>> {
    if batches == [] then Some([])
    else
      var prev := GatherFeatures(batches[..|batches| - 1], fetch);
      if prev.None? then None
      else match fetch(batches[|batches| - 1])
        case Denied => None
        case Failed => prev
        case Features(items) => Some(prev.value + Present(items))
  }

  /** `[f for f in features if f]` */
  function Present(items: seq<Option<AudioFeatures>>): seq<AudioFeatures> {
    if items == [] then []
    else
      var f := items[|items| - 1];
      Present(items[..|items| - 1]) + (if f.Some? then [f.value] else [])
  }

  function Total(fs: seq<AudioFeatures>, field: AudioFeatures -> real): real {
    if fs == [] then 0.0 else Total(fs[..|fs| - 1], field) + field(fs[|fs| - 1])
  }

  function Mean(fs: seq<AudioFeatures>, field: AudioFeatures -> real): real
    requires fs != []
  {
    Total(fs, field) / (|fs| as real)
  }

  function ValenceOf(f: AudioFeatures): real { f.valence.GetOr(0.5) }
  function EnergyOf(f: AudioFeatures): real { f.energy.GetOr(0.5) }
  function TempoOf(f: AudioFeatures): real { f.tempo.GetOr(120.0) }
  function ModeOf(f: AudioFeatures): real { f.mode.GetOr(0.0) }

  function Summarize(fs: seq<AudioFeatures>): FeatureSummary
    requires fs != []
  {
    FeatureSummary(Mean(fs, ValenceOf), Mean(fs, EnergyOf), Mean(fs, TempoOf), ModeLabel(Mean(fs, ModeOf)))
  }

  /** The summary and the flag afterwards, from the flag before. */
  function AnalyzeOutcome(ids: seq<string>, flag: bool, fetch: seq<string> -> FeatureReply): (FeatureSummary, bool) {
    if ids == [] || !flag then (DefaultSummary, flag)
    else match GatherFeatures(Chunks(ids, FeatureBatch), fetch)
      case None => (DefaultSummary, false)
      case Some(fs) => if fs == [] then (DefaultSummary, true) else (Summarize(fs), true)
  }

  lemma {:induction false} TotalBounds(fs: seq<AudioFeatures>, field: AudioFeatures -> real, lo: real, hi: real)
    requires forall f :: f in fs ==> lo <= field(f) <= hi
    ensures lo * (|fs| as real) <= Total(fs, field) <= hi * (|fs| as real)
    decreases |fs|
  {
    if fs != [] {
      TotalBounds(fs[..|fs| - 1], field, lo, hi);
      assert fs[|fs| - 1] in fs;
    }
  }

  /** An average lies within any bounds every value respects. */
  lemma MeanBounds(fs: seq<AudioFeatures>, field: AudioFeatures -> real, lo: real, hi: real)
    requires fs != []
    requires forall f :: f in fs ==> lo <= field(f) <= hi
    ensures lo <= Mean(fs, field) <= hi
  {
    TotalBounds(fs, field, lo, hi);
    var n := |fs| as real;
    assert Mean(fs, field) * n == Total(fs, field);
  }

  /**
   * The averages stay within the ranges of the features they average, and
   * tracks all in a major key (mode 1) get the major label, all in a minor
   * key (mode 0 or missing) the minor one.
   */
  lemma SummarizeProperties(fs: seq<AudioFeatures>)
    requires fs != []
    requires forall f :: f in fs ==> 0.0 <= ValenceOf(f) <= 1.0 && 0.0 <= EnergyOf(f) <= 1.0
    ensures 0.0 <= Summarize(fs).valence <= 1.0 && 0.0 <= Summarize(fs).energy <= 1.0
    ensures (forall f :: f in fs ==> f.mode == Some(1.0)) ==> Summarize(fs).modeText == Major
    ensures (forall f :: f in fs ==> ModeOf(f) == 0.0) ==> Summarize(fs).modeText == Minor
  {
    MeanBounds(fs, ValenceOf, 0.0, 1.0);
    MeanBounds(fs, EnergyOf, 0.0, 1.0);
    if forall f :: f in fs ==> f.mode == Some(1.0) {
      MeanBounds(fs, ModeOf, 1.0, 1.0);
    }
    if forall f :: f in fs ==> ModeOf(f) == 0.0 {
      MeanBounds(fs, ModeOf, 0.0, 0.0);
    }
  }

  /** The non-null features a reply carries; an error carries none. */
  function FeaturesOf(reply: FeatureReply): seq<AudioFeatures> {
    if reply.Features? then Present(reply.items) else []
  }

  /** The features of every batch, batch by batch. */
  function Reported(batches: seq<seq<string>>, fetch: seq<string> -> FeatureReply): seq<AudioFeatures> {
    Flatten(seq(|batches|, j requires 0 <= j < |batches| => FeaturesOf(fetch(batches[j]))))
  }

  /** A 403 on any batch, whatever came before it, leaves nothing gathered. */
  lemma {:induction false} GatherDenied(batches: seq<seq<string>>, k: nat, fetch: seq<string> -> FeatureReply)
    requires k < |batches| && fetch(batches[k]).Denied?
    ensures GatherFeatures(batches, fetch).None?
    decreases |batches|
  {
    if k < |batches| - 1 {
      var front := batches[..|batches| - 1];
      assert front[k] == batches[k];
      GatherDenied(front, k, fetch);
    }
  }

  /** Without a 403 the gathered features are those of every batch, an erring batch adding none. */
  lemma {:induction false} GatherAnswered(batches: seq<seq<string>>, fetch: seq<string> -> FeatureReply)
    requires forall j :: 0 <= j < |batches| ==> !fetch(batches[j]).Denied?
    ensures GatherFeatures(batches, fetch) == Some(Reported(batches, fetch))
    decreases |batches|
  {
    if batches != [] {
      var front := batches[..|batches| - 1];
      var last := batches[|batches| - 1];
      assert forall j :: 0 <= j < |front| ==> front[j] == batches[j];
      GatherAnswered(front, fetch);
      var parts := seq(|batches|, j requires 0 <= j < |batches| => FeaturesOf(fetch(batches[j])));
      var frontParts := seq(|front|, j requires 0 <= j < |front| => FeaturesOf(fetch(front[j])));
      assert parts == frontParts + [FeaturesOf(fetch(last))];
      assert Reported(front, fetch) == Flatten(frontParts);
      FlattenAppend(frontParts, [FeaturesOf(fetch(last))]);
      assert Flatten([FeaturesOf(fetch(last))]) == FeaturesOf(fetch(last));
      assert Reported(batches, fetch) == Flatten(parts);
      assert !fetch(last).Denied?;
      if fetch(last).Failed? {
        assert FeaturesOf(fetch(last)) == [];
        assert Flatten(parts) == Flatten(frontParts) + [] == Flatten(frontParts);
        assert GatherFeatures(batches, fetch) == GatherFeatures(front, fetch);
      }
    } else {
      assert seq(|batches|, j requires 0 <= j < |batches| => FeaturesOf(fetch(batches[j]))) == [];
    }
  }

  /**
   * The analysis falls back to the defaults with the flag off or no ids, and,
   * like the filter, never turns the flag on. A 403 on any batch gives the
   * defaults and turns the flag off; without one, the summary averages the
   * features of every batch answered, or is the default when there are none.
   */
  lemma AnalyzeOutcomeProperties(ids: seq<string>, flag: bool, fetch: seq<string> -> FeatureReply)
    ensures var (summary, flag') := AnalyzeOutcome(ids, flag, fetch);
      && (flag' ==> flag)
      && (ids == [] || !flag ==> summary == DefaultSummary && flag' == flag)
      && (flag && !flag' ==> summary == DefaultSummary)
      && (summary.modeText in {Major, Minor, Mixed, "N/A"})
    ensures var batches := Chunks(ids, FeatureBatch);
      && (flag && (exists k :: 0 <= k < |batches| && fetch(batches[k]).Denied?) ==>
            AnalyzeOutcome(ids, flag, fetch) == (DefaultSummary, false))
      && (flag && ids != [] && (forall k :: 0 <= k < |batches| ==> !fetch(batches[k]).Denied?) ==>
            var fs := Reported(batches, fetch);
            AnalyzeOutcome(ids, flag, fetch) == (if fs == [] then DefaultSummary else Summarize(fs), true))
  {
    var batches := Chunks(ids, FeatureBatch);
    if exists k :: 0 <= k < |batches| && fetch(batches[k]).Denied? {
      var k :| 0 <= k < |batches| && fetch(batches[k]).Denied?;
      GatherDenied(batches, k, fetch);
    } else {
      GatherAnswered(batches, fetch);
    }
  }

  /** One more batch for the analysis: a 403 ends in `None`, another error changes nothing, features are appended. */
  lemma GatherSnoc(done: seq<seq<string>>, batch: seq<string>, fetch: seq<string> -> FeatureReply)
    requires GatherFeatures(done, fetch).Some?
    ensures fetch(batch).Denied? ==> GatherFeatures(done + [batch], fetch).None?
    ensures fetch(batch).Failed? ==> GatherFeatures(done + [batch], fetch) == GatherFeatures(done, fetch)
    ensures fetch(batch).Features? ==>
      GatherFeatures(done + [batch], fetch) == Some(GatherFeatures(done, fetch).value + Present(fetch(batch).items))
  {
    assert (done + [batch])[..|done|] == done;
  }

  lemma {:induction false} GatherDeniedStable(a: seq<seq<string>>, b: seq<seq<string>>, fetch: seq<string> -> FeatureReply)
    requires GatherFeatures(a, fetch).None?
    ensures GatherFeatures(a + b, fetch).None?
    decreases |b|
  {
    if b == [] {
      assert a + b == a;
    } else {
      assert (a + b)[..|a + b| - 1] == a + b[..|b| - 1];
      GatherDeniedStable(a, b[..|b| - 1], fetch);
    }
  }

  // ---------------------------------------------------------------------
  // The pipeline (`get_recommendations`)
  // ---------------------------------------------------------------------

  /** `[p for p in map(_process_track, tracks) if p]` */
  function ProcessedAll(tracks: seq<Track>): seq<ProcessedTrack> {
    if tracks == [] then []
    else
      var p := ProcessTrack(tracks[|tracks| - 1]);
      ProcessedAll(tracks[..|tracks| - 1]) + (if p.Some? then [p.value] else [])
  }

  lemma {:induction false} ProcessedAllProperties(tracks: seq<Track>)
    ensures |ProcessedAll(tracks)| <= |tracks|
    ensures forall p :: p in ProcessedAll(tracks) ==> p.id != "" && exists t :: t in tracks && ProcessTrack(t) == Some(p)
    decreases |tracks|
  {
    if tracks != [] {
      ProcessedAllProperties(tracks[..|tracks| - 1]);
      assert tracks == tracks[..|tracks| - 1] + [tracks[|tracks| - 1]];
    }
  }

  /** The pool handed to the diversifier: the filter's output when it was applied and kept something, else the candidates. */
  function Pool(candidates: seq<Track>, limit: int, flag: bool, filtered: seq<Track>): seq<Track> {
    if flag && |candidates| > limit * 3 && filtered != [] then filtered else candidates
  }

  /** The filter only feeds the diversifier with the flag on and more than 3×limit candidates; an empty filter result falls back to the candidates. */
  lemma PoolProperties(candidates: seq<Track>, limit: int, flag: bool, spec: FilterSpec, fetch: seq<string> -> FeatureReply)
    ensures var pool := Pool(candidates, limit, flag, FilterOutcome(candidates, spec, flag, fetch).0);
      && (!flag || |candidates| <= limit * 3 ==> pool == candidates)
      && (candidates != [] ==> pool != [])
  {
  }

  /** A recommendation as the service returns it (`success` is always true). */
  datatype Recommendations = Recommendations(
    emotion: string,
    tracks: seq<ProcessedTrack>,
    total: int,
    genresUsed: seq<string>,
    summary: FeatureSummary)

  /** A tag's descriptor, or the empty one (`descriptors.get(...)` on a missing tag). */
  function DescriptorFor(tag: string): Descriptor {
    if tag in EmotionDescriptors then EmotionDescriptors[tag] else Descriptor([], [], [])
  }

  /** The genres a request uses: the preferred ones, or the emotion's own when none are given. */
  function GenresFor(tag: string, preferred: seq<string>): seq<string> {
    if preferred != [] then preferred else DescriptorFor(tag).genres
  }

  function SpecFor(tag: string): FilterSpec {
    if tag in EmotionFeatureFilters then EmotionFeatureFilters[tag] else NoBounds
  }

  /** The diversified result never exceeds `limit` tracks (none for a limit below 1). */
  lemma DiversifiedBound(tracks: seq<Track>, limit: int, shuffled: seq<Track>, arrange: seq<Track> -> seq<Track>)
    requires multiset(shuffled) == multiset(tracks)
    requires forall s :: multiset(arrange(s)) == multiset(s)
    ensures |Diversified(tracks, limit, shuffled, arrange)| <= Max(0, limit)
  {
    DiversifiedProperties(tracks, limit, shuffled, arrange);
  }

  /** The ids of the formatted tracks, in order: what the feature summary is asked about. */
  function ProcessedIds(tracks: seq<ProcessedTrack>): seq<string> {
    seq(|tracks|, k requires 0 <= k < |tracks| => tracks[k].id)
  }

  /**
   * The steps after collection, as a function of the candidates: the
   * filter (only with the flag on and more than 3×limit candidates), the
   * diversifier (on the raw candidates when the filter kept nothing), the
   * formatting and the summary, which sees the flag the filter left. The
   * result is the recommendation and the flag afterwards.
   */
  function Finish(
    tag: string, genres: seq<string>, candidates: seq<Track>, limit: int, flag: bool,
    fetch: seq<string> -> FeatureReply,
    shuffle: seq<Track> -> seq<Track>, arrange: seq<Track> -> seq<Track>): (Recommendations, bool)
  {
    var filterRuns := flag && |candidates| > limit * 3;
    var outcome := FilterOutcome(candidates, SpecFor(tag), flag, fetch);
    var pool := Pool(candidates, limit, flag, outcome.0);
    var tracks := ProcessedAll(Diversified(pool, limit, shuffle(pool), arrange));
    var analysis := AnalyzeOutcome(ProcessedIds(tracks), if filterRuns then outcome.1 else flag, fetch);
    (Recommendations(tag, tracks, |tracks|, genres[..Min(5, |genres|)], analysis.0), analysis.1)
  }

  /** The whole pipeline for a tag: its candidates collected with the request's genres, then finished. */
  function Recommend(
    tag: string, limit: int, preferred: seq<string>, flag: bool,
    sample: seq<(string, seq<string>)>,
    search: string -> seq<Track>, playlistTracks: string -> seq<Track>, topTracks: string -> seq<Track>,
    fetch: seq<string> -> FeatureReply,
    shuffle: seq<Track> -> seq<Track>, arrange: seq<Track> -> seq<Track>): (Recommendations, bool)
  {
    var genres := GenresFor(tag, preferred);
    var candidates := Collected(tag, genres, DescriptorFor(tag).artists, sample, search, playlistTracks, topTracks, limit * 15);
    Finish(tag, genres, candidates, limit, flag, fetch, shuffle, arrange)
  }

  /**
   * What a recommendation is, whatever the candidates: the tag itself, at
   * most `limit` formatted tracks with ids, counted in `total`, the first
   * five genres used; the flag is never switched on; with the flag off or
   * at most 3×limit candidates the tracks are the diversified candidates
   * themselves, and with the flag off the summary is the default one.
   */
  lemma FinishProperties(
    tag: string, genres: seq<string>, candidates: seq<Track>, limit: int, flag: bool,
    fetch: seq<string> -> FeatureReply,
    shuffle: seq<Track> -> seq<Track>, arrange: seq<Track> -> seq<Track>)
    requires forall s :: multiset(shuffle(s)) == multiset(s)
    requires forall s :: multiset(arrange(s)) == multiset(s)
    ensures var (recs, flag') := Finish(tag, genres, candidates, limit, flag, fetch, shuffle, arrange);
      && recs.emotion == tag
      && recs.total == |recs.tracks| <= Max(0, limit)
      && recs.genresUsed == genres[..Min(5, |genres|)]
      && (forall p :: p in recs.tracks ==> p.id != "")
      && (flag' ==> flag)
      && (!flag || |candidates| <= limit * 3 ==>
            recs.tracks == ProcessedAll(Diversified(candidates, limit, shuffle(candidates), arrange)))
      && (!flag ==> !flag' && recs.summary == DefaultSummary)
  {
    var outcome := FilterOutcome(candidates, SpecFor(tag), flag, fetch);
    var pool := Pool(candidates, limit, flag, outcome.0);
    FilterOutcomeProperties(candidates, SpecFor(tag), flag, fetch);
    DiversifiedBound(pool, limit, shuffle(pool), arrange);
    var finalTracks := Diversified(pool, limit, shuffle(pool), arrange);
    ProcessedAllProperties(finalTracks);
    var tracks := ProcessedAll(finalTracks);
    var filterFlag := if flag && |candidates| > limit * 3 then outcome.1 else flag;
    AnalyzeOutcomeProperties(ProcessedIds(tracks), filterFlag, fetch);
  }

  /** The inner loop of the filter over one reply. */
  method KeepPassing(items: seq<Option<AudioFeatures>>, index: map<string, Track>, spec: FilterSpec)
    returns (kept: seq<Track>)
    ensures kept == Kept(items, index, spec)
  {
    kept := [];
    for j := 0 to |items|
      invariant kept == Kept(items[..j], index, spec)
    {
      assert items[..j + 1][..j] == items[..j];
      var f := items[j];
      if f.Some? && f.value.id != "" {
        var id := f.value.id;
        if id in index {
          if PassesFilters(f.value, spec) {
            kept := kept + [index[id].(features := f)];
          }
        }
      }
    }
    assert items[..|items|] == items;
  }

  /**
   * The filter's batch loop: the features of 50 ids at a time, keeping the
   * indexed tracks whose features pass; the first error stops it.
   */
  method ScanInBatches(ids: seq<string>, index: map<string, Track>, spec: FilterSpec, fetch: seq<string> -> FeatureReply)
    returns (scan: Scan)
    ensures scan == ScanBatches(Chunks(ids, FeatureBatch), index, spec, fetch)
  {
    var filtered: seq<Track> := [];
    var i := 0;
    ghost var done: seq<seq<string>> := [];
    assert ids[0..] == ids;
    while i < |ids|
      invariant 0 <= i <= |ids|
      invariant done + Chunks(ids[i..], FeatureBatch) == Chunks(ids, FeatureBatch)
      invariant ScanBatches(done, index, spec, fetch) == Scanned(filtered)
    {
      var next := Min(i + FeatureBatch, |ids|);
      var batch := ids[i..next];
      ChunksAdvance(ids, FeatureBatch, i, done);
      ScanSnoc(done, batch, index, spec, fetch);
      ghost var rest := Chunks(ids[next..], FeatureBatch);
      assert (done + [batch]) + rest == Chunks(ids, FeatureBatch);
      match fetch(batch) {
        case Denied =>
          AbortStable(done + [batch], rest, index, spec, fetch);
          return Aborted(true);
        case Failed =>
          AbortStable(done + [batch], rest, index, spec, fetch);
          return Aborted(false);
        case Features(items) =>
          var kept := KeepPassing(items, index, spec);
          filtered := filtered + kept;
      }
      done := done + [batch];
      i := next;
    }
    assert Chunks(ids[i..], FeatureBatch) == [];
    assert done == Chunks(ids, FeatureBatch);
    return Scanned(filtered);
  }

  /**
   * The analysis's batch loop: the non-null features of 50 ids at a time;
   * a 403 stops it, any other error skips its batch.
   */
  method GatherInBatches(ids: seq<string>, fetch: seq<string> -> FeatureReply)
    returns (gathered: Option<seq<AudioFeatures>>)
    ensures gathered == GatherFeatures(Chunks(ids, FeatureBatch), fetch)
  {
    var all: seq<AudioFeatures> := [];
    var i := 0;
    ghost var done: seq<seq<string>> := [];
    assert ids[0..] == ids;
    while i < |ids|
      invariant 0 <= i <= |ids|
      invariant done + Chunks(ids[i..], FeatureBatch) == Chunks(ids, FeatureBatch)
      invariant GatherFeatures(done, fetch) == Some(all)
    {
      var next := Min(i + FeatureBatch, |ids|);
      var batch := ids[i..next];
      ChunksAdvance(ids, FeatureBatch, i, done);
      GatherSnoc(done, batch, fetch);
      ghost var rest := Chunks(ids[next..], FeatureBatch);
      assert (done + [batch]) + rest == Chunks(ids, FeatureBatch);
      match fetch(batch) {
        case Denied =>
          GatherDeniedStable(done + [batch], rest, fetch);
          return None;
        case Failed =>
        case Features(items) =>
          all := all + Present(items);
      }
      done := done + [batch];
      i := next;
    }
    assert Chunks(ids[i..], FeatureBatch) == [];
    assert done == Chunks(ids, FeatureBatch);
    return Some(all);
  }

  const UnknownEmotion: string := "Emoci\U{F3}n desconocida: "

  class SpotifyService {
    var audioFeaturesAvailable: bool

    /** The flag starts off: client-credentials access has no audio features. */
    constructor ()
      ensures !audioFeaturesAvailable
    {
      audioFeaturesAvailable := false;
    }

    /**
     * `_test_audio_features`: the flag is on exactly when the probe
     * returned a first entry that is not null; it is the only operation
     * that can turn the flag on.
     */
    method ProbeAudioFeatures(reply: FeatureReply)
      modifies this
      ensures audioFeaturesAvailable <==> reply.Features? && |reply.items| > 0 && reply.items[0].Some?
    {
      match reply
      case Features(items) =>
        audioFeaturesAvailable := |items| > 0 && items[0].Some?;
      case Denied =>
        audioFeaturesAvailable := false;
      case Failed =>
        audioFeaturesAvailable := false;
    }

    /** `_filter_tracks_by_features`. */
    method FilterTracksByFeatures(tracks: seq<Track>, spec: FilterSpec, fetch: seq<string> -> FeatureReply)
      returns (out: seq<Track>)
      modifies this
      ensures (out, audioFeaturesAvailable) == FilterOutcome(tracks, spec, old(audioFeaturesAvailable), fetch)
      ensures audioFeaturesAvailable ==> old(audioFeaturesAvailable)
    {
      if tracks == [] || spec == NoBounds {
        return tracks;
      }
      if !audioFeaturesAvailable {
        return tracks;
      }
      var scan := ScanInBatches(TrackIds(tracks), IdIndex(tracks), spec, fetch);
      if scan.Aborted? {
        if scan.denied {
          audioFeaturesAvailable := false;
        }
        return tracks;
      }
      if 10 * |scan.kept| < 3 * |tracks| {
        return tracks;
      }
      return scan.kept;
    }

    /** `_analyze_track_features`. */
    method AnalyzeTrackFeatures(ids: seq<string>, fetch: seq<string> -> FeatureReply)
      returns (summary: FeatureSummary)
      modifies this
      ensures (summary, audioFeaturesAvailable) == AnalyzeOutcome(ids, old(audioFeaturesAvailable), fetch)
      ensures audioFeaturesAvailable ==> old(audioFeaturesAvailable)
    {
      if ids == [] || !audioFeaturesAvailable {
        return DefaultSummary;
      }
      var gathered := GatherInBatches(ids, fetch);
      if gathered.None? {
        audioFeaturesAvailable := false;
        return DefaultSummary;
      }
      if gathered.value == [] {
        return DefaultSummary;
      }
      return Summarize(gathered.value);
    }

    /** The loop that formats the diversified tracks, dropping those that do not format. */
    method ProcessTracks(tracks: seq<Track>) returns (processed: seq<ProcessedTrack>)
      ensures processed == ProcessedAll(tracks)
    {
      processed := [];
      for k := 0 to |tracks|
        invariant processed == ProcessedAll(tracks[..k])
      {
        assert tracks[..k + 1][..k] == tracks[..k];
        var p := ProcessTrack(tracks[k]);
        if p.Some? {
          processed := processed + [p.value];
        }
      }
      assert tracks[..|tracks|] == tracks;
    }

    /**
     * The part of `get_recommendations` after collection: filtering when
     * the flag is on and there are more than 3×limit candidates,
     * diversification (from the raw candidates when the filter kept
     * nothing), formatting and the feature summary.
     */
    method FinishRecommendations(
      tag: string, genres: seq<string>, candidates: seq<Track>, limit: int,
      fetch: seq<string> -> FeatureReply,
      shuffle: seq<Track> -> seq<Track>, arrange: seq<Track> -> seq<Track>)
      returns (recs: Recommendations)
      requires forall s :: multiset(shuffle(s)) == multiset(s)
      requires forall s :: multiset(arrange(s)) == multiset(s)
      modifies this
      ensures (recs, audioFeaturesAvailable) ==
        Finish(tag, genres, candidates, limit, old(audioFeaturesAvailable), fetch, shuffle, arrange)
    {
      var flag := audioFeaturesAvailable;

      // Filtering, only with the flag on and enough candidates.
      var filtered := candidates;
      if audioFeaturesAvailable && |candidates| > limit * 3 {
        filtered := FilterTracksByFeatures(candidates, SpecFor(tag), fetch);
      }

      // Diversification, from the raw candidates when the filter kept nothing.
      var pool := Pool(candidates, limit, flag, filtered);
      var finalTracks := DiversifyTracks(pool, limit, shuffle(pool), arrange);

      // Formatting.
      var processed := ProcessTracks(finalTracks);

      // Feature summary.
      var summary := AnalyzeTrackFeatures(ProcessedIds(processed), fetch);

      return Recommendations(tag, processed, |processed|, genres[..Min(5, |genres|)], summary);
    }

    /**
     * `get_recommendations`. An emotion that is not one of the eight tags
     * once upper-cased fails before anything else happens. Otherwise the
     * candidates are collected and finished as above. `sample` is the
     * random choice of genres and moods, `shuffle` and `arrange` the
     * diversifier's random orderings.
     */
    method GetRecommendations(
      emotion: string, limit: int, preferred: seq<string>,
      sample: seq<(string, seq<string>)>,
      search: string -> seq<Track>, playlistTracks: string -> seq<Track>, topTracks: string -> seq<Track>,
      fetch: seq<string> -> FeatureReply,
      shuffle: seq<Track> -> seq<Track>, arrange: seq<Track> -> seq<Track>)
      returns (r: Result<Recommendations, string>)
      requires forall s :: multiset(shuffle(s)) == multiset(s)
      requires forall s :: multiset(arrange(s)) == multiset(s)
      modifies this
      ensures Upper(emotion) !in EmotionTags ==>
        r == Failure(UnknownEmotion + Upper(emotion)) && audioFeaturesAvailable == old(audioFeaturesAvailable)
      ensures Upper(emotion) in EmotionTags ==>
        && r.Success?
        && (r.value, audioFeaturesAvailable) == Recommend(Upper(emotion), limit, preferred, old(audioFeaturesAvailable),
             sample, search, playlistTracks, topTracks, fetch, shuffle, arrange)
      ensures r.Success? ==>
        && r.value.emotion == Upper(emotion)
        && r.value.total == |r.value.tracks| <= Max(0, limit)
        && r.value.genresUsed == GenresFor(Upper(emotion), preferred)[..Min(5, |GenresFor(Upper(emotion), preferred)|)]
        && (forall p :: p in r.value.tracks ==> p.id != "")
      ensures audioFeaturesAvailable ==> old(audioFeaturesAvailable)
    {
      var tag := Upper(emotion);
      TablesCoverEmotionTags();
      if tag !in EmotionDescriptors {
        return Failure(UnknownEmotion + tag);
      }
      var descriptor := EmotionDescriptors[tag];
      var genres := GenresFor(tag, preferred);
      var candidates := CollectDiverseCandidates(tag, genres, descriptor, sample, search, playlistTracks, topTracks, limit * 15);
      FinishProperties(tag, genres, candidates, limit, audioFeaturesAvailable, fetch, shuffle, arrange);
      var recs := FinishRecommendations(tag, genres, candidates, limit, fetch, shuffle, arrange);
      return Success(recs);
    }
  }
}

=== FILE: rekognition.dfy ===
/**
 * The face-analysis service (server/app/services/rekognition_service.py):
 * the upload check by size and leading signature, the reduction of a face
 * detection reply to the analysis result, and the mapping of service error
 * codes to messages. The detection call itself is a reply value passed in.
 */
module Rekognition {
  import opened Wrappers
  import opened Text

  newtype byte = x: int | 0 <= x < 256

  // ---------------------------------------------------------------------
  // validate_image
  // ---------------------------------------------------------------------

  const Megabyte := 1024 * 1024
  const DefaultMaxSizeMb := 5

  /** The accepted leading bytes: JPEG, PNG, then "RIFF" for WEBP, in the order they are tried. */
  const JpegSignature: seq<byte> := [0xFF, 0xD8, 0xFF]
  const PngSignature: seq<byte> := [0x89, 0x50, 0x4E, 0x47, 0x0D, 0x0A, 0x1A, 0x0A]
  const WebpSignature: seq<byte> := [0x52, 0x49, 0x46, 0x46]
  const Signatures: seq<seq<byte>> := [JpegSignature, PngSignature, WebpSignature]

  datatype Validation = Valid | Invalid(error: string)

  const BadFormat := "Formato de imagen no v\U{E1}lido. Usa JPG, PNG o WEBP."

  function IntToString(n: int): string {
    if n < 0 then "-" + NatToString(-n) else NatToString(n)
  }

  function TooLarge(maxSizeMb: int): string {
    "La imagen excede el tama\U{F1}o m\U{E1}ximo de " + IntToString(maxSizeMb) + "MB"
  }

  predicate HasPrefix(b: seq<byte>, sig: seq<byte>) {
    |sig| <= |b| && b[..|sig|] == sig
  }

  predicate KnownSignature(b: seq<byte>) {
    exists k :: 0 <= k < |Signatures| && HasPrefix(b, Signatures[k])
  }

  /** The verdict: too large first (`len / 2^20 > max` on exact numbers), then the signature. */
  function ImageVerdict(b: seq<byte>, maxSizeMb: int): Validation {
    if |b| > maxSizeMb * Megabyte then Invalid(TooLarge(maxSizeMb))
    else if !KnownSignature(b) then Invalid(BadFormat)
    else Valid
  }

  /** `validate_image`: tries the signatures in order and stops at the first that matches. */
  method ValidateImage(b: seq<byte>, maxSizeMb: int) returns (r: Validation)
    ensures r == ImageVerdict(b, maxSizeMb)
  {
    if |b| > maxSizeMb * Megabyte {
      return Invalid(TooLarge(maxSizeMb));
    }
    var isValid := false;
    var i := 0;
    while i < |Signatures|
      invariant 0 <= i <= |Signatures|
      invariant !isValid ==> forall k :: 0 <= k < i ==> !HasPrefix(b, Signatures[k])
      invariant isValid ==> KnownSignature(b)
    {
      var sig := Signatures[i];
      if |sig| <= |b| && b[..|sig|] == sig {
        isValid := true;
        break;
      }
      i := i + 1;
    }
    if !isValid {
      return Invalid(BadFormat);
    }
    return Valid;
  }

  /**
   * What passes: at most the size limit and starting with one of the three
   * signatures, so never fewer than three bytes (the empty upload is refused),
   * and every image refused for its size is refused whatever its bytes.
   */
  lemma ImageVerdictProperties(b: seq<byte>, maxSizeMb: int)
    ensures ImageVerdict(b, maxSizeMb) == Valid ==> |b| >= 3 && |b| <= maxSizeMb * Megabyte
    ensures ImageVerdict(b, maxSizeMb) == Valid <==>
      && |b| <= maxSizeMb * Megabyte
      && (HasPrefix(b, JpegSignature) || HasPrefix(b, PngSignature) || HasPrefix(b, WebpSignature))
    ensures ImageVerdict([], maxSizeMb).Invalid?
  {
    if ImageVerdict(b, maxSizeMb) == Valid {
      var k :| 0 <= k < |Signatures| && HasPrefix(b, Signatures[k]);
    }
    if HasPrefix(b, JpegSignature) { assert HasPrefix(b, Signatures[0]); }
    if HasPrefix(b, PngSignature) { assert HasPrefix(b, Signatures[1]); }
    if HasPrefix(b, WebpSignature) { assert HasPrefix(b, Signatures[2]); }
    assert forall k :: 0 <= k < |Signatures| ==> |Signatures[k]| >= 3;
  }

  /** Only the leading bytes and the size matter: a valid upload extended within the size limit stays valid. */
  lemma ImageVerdictExtends(b: seq<byte>, extra: seq<byte>, maxSizeMb: int)
    requires ImageVerdict(b, maxSizeMb) == Valid
    requires |b + extra| <= maxSizeMb * Megabyte
    ensures ImageVerdict(b + extra, maxSizeMb) == Valid
  {
    var k :| 0 <= k < |Signatures| && HasPrefix(b, Signatures[k]);
    assert (b + extra)[..|Signatures[k]|] == b[..|Signatures[k]|];
    assert HasPrefix(b + extra, Signatures[k]);
  }

  // ---------------------------------------------------------------------
  // detect_faces_and_emotions
  // ---------------------------------------------------------------------

  /** One emotion of a face as the service rates it. */
  datatype Emotion = Emotion(kind: string, confidence: real)

  /** A detected face; only its emotions are modelled. */
  datatype Face = Face(emotions: seq<Emotion>)

  /** What the detection call gave back; missing `FaceDetails` is `Detected([])`. */
  datatype DetectReply = Detected(faces: seq<Face>) | ClientError(code: string) | OtherError(details: string)

  datatype FaceAnalysis =
    | NoFace
    | Analyzed(facesDetected: nat, dominant: Option<Emotion>, allEmotions: map<string, real>)
    | ServiceError(message: string, code: string)
    | Unexpected(message: string, details: string)

  const NoFaceMessage := "No se detect\U{F3} ning\U{FA}n rostro en la imagen"
  const UnexpectedMessage := "Error inesperado al procesar la imagen"

  /**
   * The emotion a stable sort by descending confidence puts first: the
   * first of those with the highest confidence.
   */
  function Dominant(es: seq<Emotion>): (d: Option<Emotion>)
    ensures d.None? <==> es == []
    ensures d.Some? ==>
      exists i :: (0 <= i < |es| && es[i] == d.value
                   && forall j :: 0 <= j < i ==> es[j].confidence < d.value.confidence)
    ensures d.Some? ==> forall j :: 0 <= j < |es| ==> es[j].confidence <= d.value.confidence
  {
    if es == [] then None
    else
      var rest := Dominant(es[..|es| - 1]);
      var last := es[|es| - 1];
      if rest.None? || last.confidence > rest.value.confidence then
        Some(last)
      else
        rest
  }

  /** Type → confidence, built in order, so a type rated twice keeps its last rating. */
  function AllEmotions(es: seq<Emotion>): map<string, real> {
    if es == [] then map[]
    else
      var last := es[|es| - 1];
      AllEmotions(es[..|es| - 1])[last.kind := last.confidence]
  }

  /** The map holds exactly the reported types, each with the confidence of its last rating. */
  lemma {:induction false} AllEmotionsProperties(es: seq<Emotion>)
    ensures forall t :: t in AllEmotions(es) <==> exists i :: 0 <= i < |es| && es[i].kind == t
    ensures forall i :: 0 <= i < |es| && (forall j :: i < j < |es| ==> es[j].kind != es[i].kind) ==>
      AllEmotions(es)[es[i].kind] == es[i].confidence
  {
    if es != [] {
      var init := es[..|es| - 1];
      AllEmotionsProperties(init);
      forall t | t in AllEmotions(es) ensures exists i :: 0 <= i < |es| && es[i].kind == t {
        if t != es[|es| - 1].kind {
          assert t in AllEmotions(init);
          var i :| 0 <= i < |init| && init[i].kind == t;
          assert es[i].kind == t;
        }
      }
      forall t | exists i :: 0 <= i < |es| && es[i].kind == t ensures t in AllEmotions(es) {
        var i :| 0 <= i < |es| && es[i].kind == t;
        if i < |init| { assert init[i].kind == t; }
      }
      forall i | 0 <= i < |es| && (forall j :: i < j < |es| ==> es[j].kind != es[i].kind)
        ensures AllEmotions(es)[es[i].kind] == es[i].confidence
      {
        if i < |init| {
          assert init[i] == es[i];
          assert forall j :: i < j < |init| ==> init[j].kind != init[i].kind by {
            forall j | i < j < |init| ensures init[j].kind != init[i].kind {
              assert init[j] == es[j];
            }
          }
        }
      }
    }
  }

  const UnknownCodePrefix := "Error al analizar la imagen: "
  const InvalidFormatMessage := "Formato de imagen inv\U{E1}lido." + " Por favor usa JPG, PNG o WEBP."

  predicate KnownCode(code: string) {
    code == "InvalidImageFormatException" || code == "ImageTooLargeException" || code == "InvalidS3ObjectException"
  }

  /** The message for a service error code; other codes are named in the message. */
  function ErrorMessage(code: string): (msg: string)
    ensures !KnownCode(code) ==> msg == UnknownCodePrefix + code
  {
    if code == "InvalidImageFormatException" then InvalidFormatMessage
    else if code == "ImageTooLargeException" then "La imagen es demasiado grande. M\U{E1}ximo 5MB."
    else if code == "InvalidS3ObjectException" then "Error al procesar la imagen."
    else UnknownCodePrefix + code
  }

  /** Helper for the injectivity proof: a known code's message differs from the unknown-code prefix at position 0 or 9. */
  lemma MessageShape(code: string)
    ensures |ErrorMessage(code)| >= 10
    ensures KnownCode(code) <==> ErrorMessage(code)[0] != 'E' || ErrorMessage(code)[9] != 'a'
  {
    var m := ErrorMessage(code);
    if code == "InvalidImageFormatException" {
      assert m[0] == 'F';
    } else if code == "ImageTooLargeException" {
      assert m == "La imagen es demasiado grande. M\U{E1}ximo 5MB.";
      assert m[0] == 'L';
    } else if code == "InvalidS3ObjectException" {
      assert m == "Error al procesar la imagen.";
      assert m[9] == 'p';
    } else {
      assert m == UnknownCodePrefix + code;
      assert m[0] == 'E' && m[9] == 'a';
    }
  }

  /** No two codes share a message, so the message always tells the code apart. */
  lemma ErrorMessageInjective(c1: string, c2: string)
    requires ErrorMessage(c1) == ErrorMessage(c2)
    ensures c1 == c2
  {
    MessageShape(c1);
    MessageShape(c2);
    if !KnownCode(c1) {
      var p := UnknownCodePrefix;
      assert c1 == (p + c1)[|p|..] && c2 == (p + c2)[|p|..];
    }
  }

  /** `detect_faces_and_emotions` after the call: the first face is the one analysed. */
  function Analyze(reply: DetectReply): (r: FaceAnalysis)
    ensures reply.Detected? && reply.faces == [] <==> r == NoFace
    ensures reply.Detected? && reply.faces != [] <==> r.Analyzed?
    ensures r.Analyzed? ==>
      (&& reply.Detected? && r.facesDetected == |reply.faces| >= 1
       && r.dominant == Dominant(reply.faces[0].emotions)
       && r.allEmotions == AllEmotions(reply.faces[0].emotions))
    ensures reply.ClientError? ==> r == ServiceError(ErrorMessage(reply.code), reply.code)
    ensures reply.OtherError? ==> r == Unexpected(UnexpectedMessage, reply.details)
  {
    match reply
    case Detected(faces) =>
      if faces == [] then NoFace
      else Analyzed(|faces|, Dominant(faces[0].emotions), AllEmotions(faces[0].emotions))
    case ClientError(code) => ServiceError(ErrorMessage(code), code)
    case OtherError(details) => Unexpected(UnexpectedMessage, details)
  }

  /**
   * With at least one emotion, the dominant emotion's type is a key of the
   * map of all emotions.
   */
  lemma DominantInAllEmotions(es: seq<Emotion>)
    requires es != []
    ensures Dominant(es).value.kind in AllEmotions(es)
  {
    AllEmotionsProperties(es);
    var d := Dominant(es).value;
    var i :| 0 <= i < |es| && es[i] == d;
  }
}

=== FILE: spotify_auth.dfy ===
/**
 * Spotify sign-in and account linking (server/app/services/spotify_auth_service.py):
 * username sanitising and de-duplication, link, unlink, create-or-update
 * from a Spotify profile, and the `state` of the authorization request.
 * The profile and token payloads are values; the clock is `now`, the
 * random state token `freshToken` and the new row's id `freshId`.
 */
module SpotifyAuth {
  import opened Wrappers
  import opened Text
  import opened Batching
  import opened Users

  /** The parts of the Spotify `/me` payload the service reads; `images` holds each image's `url`. */
  datatype SpotifyProfile = SpotifyProfile(id: string, email: Option<string>, displayName: Option<string>, images: seq<Option<string>>)

  /** The token endpoint's payload. */
  datatype TokenGrant = TokenGrant(accessToken: Option<string>, refreshToken: Option<string>, expiresIn: Option<int>)

  /** Token lifetime when the grant states none. */
  const DefaultExpiresIn: int := 3600

  function ExpiresAt(now: int, grant: TokenGrant): int {
    now + grant.expiresIn.GetOr(DefaultExpiresIn)
  }

  // ---------------------------------------------------------------------
  // Usernames
  // ---------------------------------------------------------------------

  /** A character `[a-zA-Z0-9_-]` admits. */
  predicate UsernameChar(c: char) {
    IsAsciiLower(c) || IsAsciiUpper(c) || IsDigit(c) || c == '_' || c == '-'
  }

  /** `re.sub(r'[^a-zA-Z0-9_-]', '', s)` */
  function KeepUsernameChars(s: string): (r: string)
    ensures |r| <= |s|
    ensures forall c :: c in r ==> UsernameChar(c)
    ensures forall c :: c in s && UsernameChar(c) ==> c in r
    ensures (forall c :: c in s ==> UsernameChar(c)) ==> r == s
  {
    if s == [] then []
    else
      var front := KeepUsernameChars(s[..|s| - 1]);
      var c := s[|s| - 1];
      assert s == s[..|s| - 1] + [c];
      if UsernameChar(c) then front + [c] else front
  }

  /** Sequence identities for the concatenation proof below, kept apart from the filter's own facts. */
  lemma SnocSplit(a: string, b: string)
    requires b != []
    ensures b == b[..|b| - 1] + [b[|b| - 1]]
    ensures a + b == (a + b[..|b| - 1]) + [b[|b| - 1]]
  {
  }

  lemma AppendAssoc(x: string, y: string, z: string)
    ensures (x + y) + z == x + (y + z)
  {
  }

  /** One more character at the end: kept at the end exactly when allowed. */
  lemma KeepUsernameCharsSnoc(s: string, c: char)
    ensures KeepUsernameChars(s + [c]) == KeepUsernameChars(s) + (if UsernameChar(c) then [c] else [])
  {
    assert (s + [c])[..|s|] == s;
  }

  /**
   * The filter works character by character: a single character survives
   * exactly when it is allowed, and filtering a concatenation filters each
   * part. Together these fix the result's order and multiplicities.
   */
  lemma {:induction false} KeepUsernameCharsAppend(a: string, b: string)
    ensures forall c :: KeepUsernameChars([c]) == (if UsernameChar(c) then [c] else [])
    ensures KeepUsernameChars(a + b) == KeepUsernameChars(a) + KeepUsernameChars(b)
    decreases |b|
  {
    forall c ensures KeepUsernameChars([c]) == (if UsernameChar(c) then [c] else []) {
      KeepUsernameCharsSnoc([], c);
      assert [] + [c] == [c];
    }
    if b == [] {
      assert a + b == a;
    } else {
      var init, c := b[..|b| - 1], b[|b| - 1];
      KeepUsernameCharsAppend(a, init);
      SnocSplit(a, b);
      KeepUsernameCharsSnoc(a + init, c);
      KeepUsernameCharsSnoc(init, c);
      AppendAssoc(KeepUsernameChars(a), KeepUsernameChars(init), if UsernameChar(c) then [c] else []);
    }
  }

  const UsernamePrefix: string := "user_"
  const MaxUsername: nat := 50

  /**
   * `_sanitize_username`: only `[a-zA-Z0-9_-]`, between 3 and 50
   * characters; "user_" in front of a filtered name shorter than 3, the
   * filtered name cut to 50 otherwise.
   */
  function SanitizeUsername(name: string): (r: string)
    ensures 3 <= |r| <= MaxUsername
    ensures forall c :: c in r ==> UsernameChar(c)
    ensures |KeepUsernameChars(name)| < 3 ==> r == UsernamePrefix + KeepUsernameChars(name)
    ensures |KeepUsernameChars(name)| >= 3 ==> r == KeepUsernameChars(name)[..Min(MaxUsername, |KeepUsernameChars(name)|)]
  {
    var kept := KeepUsernameChars(name);
    var padded := if |kept| < 3 then UsernamePrefix + kept else kept;
    assert forall c :: c in padded ==> UsernameChar(c) by {
      assert forall c :: c in UsernamePrefix ==> UsernameChar(c);
    }
    padded[..Min(MaxUsername, |padded|)]
  }

  /** Sanitising a sanitised name changes nothing. */
  lemma SanitizeIdempotent(name: string)
    ensures SanitizeUsername(SanitizeUsername(name)) == SanitizeUsername(name)
  {
    var once := SanitizeUsername(name);
    assert KeepUsernameChars(once) == once;
  }

  /** The k-th name `_generate_unique_username` tries: the base, then the base followed by k. */
  function Candidate(base: string, k: nat): string {
    if k == 0 then base else base + NatToString(k)
  }

  lemma CandidateInjective(base: string, a: nat, b: nat)
    requires Candidate(base, a) == Candidate(base, b)
    ensures a == b
  {
    if a != 0 && b != 0 {
      assert NatToString(a) == Candidate(base, a)[|base|..];
      assert NatToString(b) == Candidate(base, b)[|base|..];
      NatToStringInjective(a, b);
    }
  }

  function UsernameSet(rows: seq<User>): set<string> {
    set j | 0 <= j < |rows| :: rows[j].username
  }

  lemma {:induction false} UsernameSetSize(rows: seq<User>)
    ensures |UsernameSet(rows)| <= |rows|
    decreases |rows|
  {
    if rows != [] {
      var front := rows[..|rows| - 1];
      UsernameSetSize(front);
      assert UsernameSet(rows) == UsernameSet(front) + {rows[|rows| - 1].username} by {
        forall x | x in UsernameSet(rows) ensures x in UsernameSet(front) + {rows[|rows| - 1].username} {
          var j :| 0 <= j < |rows| && rows[j].username == x;
          if j < |rows| - 1 { assert front[j] == rows[j]; }
        }
        forall x | x in UsernameSet(front) ensures x in UsernameSet(rows) {
          var j :| 0 <= j < |front| && front[j].username == x;
          assert rows[j] == front[j];
        }
      }
    }
  }

  function CandidateSet(base: string, k: nat): set<string> {
    set j: nat | j < k :: Candidate(base, j)
  }

  lemma {:induction false} CandidateSetSize(base: string, k: nat)
    ensures |CandidateSet(base, k)| == k
  {
    if k > 0 {
      CandidateSetSize(base, k - 1);
      assert CandidateSet(base, k) == CandidateSet(base, k - 1) + {Candidate(base, k - 1)};
      if Candidate(base, k - 1) in CandidateSet(base, k - 1) {
        var j: nat :| j < k - 1 && Candidate(base, j) == Candidate(base, k - 1);
        CandidateInjective(base, j, k - 1);
      }
    }
  }

  /** Only as many candidates as there are rows can be taken. */
  lemma TakenCandidatesBound(base: string, rows: seq<User>, k: nat)
    requires forall j: nat :: j < k ==> HasUsername(rows, Candidate(base, j))
    ensures k <= |rows|
  {
    CandidateSetSize(base, k);
    UsernameSetSize(rows);
    assert CandidateSet(base, k) <= UsernameSet(rows) by {
      forall x | x in CandidateSet(base, k) ensures x in UsernameSet(rows) {
        var j: nat :| j < k && Candidate(base, j) == x;
        assert HasUsername(rows, Candidate(base, j));
      }
    }
    var rest := UsernameSet(rows) - CandidateSet(base, k);
    assert UsernameSet(rows) == CandidateSet(base, k) + rest;
    assert CandidateSet(base, k) * rest == {};
  }

  /** `name` is candidate number `k`, the first of the candidates no account holds yet. */
  predicate IsFirstFreeCandidate(rows: seq<User>, base: string, name: string, k: nat) {
    && name == Candidate(base, k)
    && !HasUsername(rows, name)
    && forall j: nat :: j < k ==> HasUsername(rows, Candidate(base, j))
  }

  /** There is only one first free candidate: the username chosen is determined by the base and the table. */
  lemma FirstFreeCandidateUnique(rows: seq<User>, base: string, n1: string, k1: nat, n2: string, k2: nat)
    requires IsFirstFreeCandidate(rows, base, n1, k1) && IsFirstFreeCandidate(rows, base, n2, k2)
    ensures k1 == k2 && n1 == n2
  {
  }

  /**
   * `_generate_unique_username`: a name no row holds, namely the first
   * candidate (the base, then the base followed by 1, 2, ...) that is free.
   */
  method GenerateUniqueUsername(base: string, rows: seq<User>) returns (username: string, ghost k: nat)
    ensures !HasUsername(rows, username)
    ensures username == Candidate(base, k)
    ensures forall j: nat :: j < k ==> HasUsername(rows, Candidate(base, j))
  {
    username := base;
    var counter: nat := 1;
    k := 0;
    while HasUsername(rows, username)
      invariant counter == k + 1 && username == Candidate(base, k)
      invariant forall j: nat :: j < k ==> HasUsername(rows, Candidate(base, j))
      decreases |rows| - k
    {
      TakenCandidatesBound(base, rows, k + 1);
      username := base + NatToString(counter);
      counter := counter + 1;
      k := k + 1;
    }
  }

  // ---------------------------------------------------------------------
  // Account fields
  // ---------------------------------------------------------------------

  /** The fields no Spotify operation touches are equal. */
  predicate SameIdentity(a: User, b: User) {
    && a.id == b.id && a.email == b.email && a.username == b.username
    && a.passwordHash == b.passwordHash && a.firstName == b.firstName && a.lastName == b.lastName
    && a.isActive == b.isActive && a.isVerified == b.isVerified
  }

  /** `display_name or id` */
  function DisplayOrId(profile: SpotifyProfile): string {
    if Truthy(profile.displayName) then profile.displayName.value else profile.id
  }

  /** The profile picture after a link: Spotify's first image only when the account had none. */
  function PictureAfter(current: Option<string>, images: seq<Option<string>>): (p: Option<string>)
    ensures Truthy(current) || |images| == 0 ==> p == current
    ensures !Truthy(current) && |images| > 0 ==> p == images[0]
  {
    if !Truthy(current) && |images| > 0 then images[0] else current
  }

  const NotLinked := Error(400, "No tienes una cuenta de Spotify vinculada")
  const OnlySignInMethod := Error(400, "No puedes desvincular Spotify porque es tu \U{FA}nico m\U{E9}todo de autenticaci\U{F3}n")
  const LinkedElsewhere := Error(400, "Esta cuenta de Spotify ya est\U{E1} vinculada a otro usuario")
  /** The database's unique-email constraint failing on insert. */
  const EmailTaken := Error(500, "users.email")

  /** No Spotify data left and the account marked unlinked. */
  predicate SpotifyCleared(u: User) {
    && u.spotifyId.None? && u.spotifyEmail.None? && u.spotifyDisplayName.None?
    && u.spotifyAccessToken.None? && u.spotifyRefreshToken.None? && u.spotifyTokenExpiresAt.None?
    && !u.spotifyConnected && u.spotifyConnectedAt.None?
  }

  /**
   * `disconnect_spotify` on one account: an unlinked account is refused,
   * then an account without a password; otherwise the Spotify data is
   * cleared and every other field, the picture and last login included, is kept.
   */
  function Unlinked(u: User): (r: Result<User, Error>)
    ensures !u.spotifyConnected ==> r == Failure(NotLinked)
    ensures u.spotifyConnected && !Truthy(u.passwordHash) ==> r == Failure(OnlySignInMethod)
    ensures u.spotifyConnected && Truthy(u.passwordHash) ==> r.Success?
    ensures r.Success? ==>
      && SpotifyCleared(r.value) && SameIdentity(r.value, u)
      && r.value.profilePicture == u.profilePicture && r.value.lastLogin == u.lastLogin
  {
    if !u.spotifyConnected then Failure(NotLinked)
    else if !Truthy(u.passwordHash) then Failure(OnlySignInMethod)
    else Success(u.(spotifyId := None, spotifyEmail := None, spotifyDisplayName := None,
                    spotifyAccessToken := None, spotifyRefreshToken := None,
                    spotifyTokenExpiresAt := None, spotifyConnected := false, spotifyConnectedAt := None))
  }

  /** An account that can unlink has a password to sign in with afterwards. */
  lemma UnlinkKeepsSignIn(u: User)
    requires Unlinked(u).Success?
    ensures Truthy(Unlinked(u).value.passwordHash)
  {
  }

  /** `link_spotify_to_existing_user` on the account, once the guard passed. */
  function LinkedAccount(u: User, profile: SpotifyProfile, grant: TokenGrant, now: int): (v: User)
    ensures SameIdentity(v, u) && v.lastLogin == u.lastLogin
    ensures v.spotifyId == Some(profile.id) && v.spotifyConnected && v.spotifyConnectedAt == Some(now)
    ensures v.spotifyEmail == profile.email && v.spotifyDisplayName == profile.displayName
    ensures v.spotifyAccessToken == grant.accessToken && v.spotifyRefreshToken == grant.refreshToken
    ensures v.spotifyTokenExpiresAt == Some(now + grant.expiresIn.GetOr(3600))
    ensures v.profilePicture != u.profilePicture ==> !Truthy(u.profilePicture) && |profile.images| > 0
  {
    u.(spotifyId := Some(profile.id), spotifyEmail := profile.email, spotifyDisplayName := profile.displayName,
       spotifyAccessToken := grant.accessToken, spotifyRefreshToken := grant.refreshToken,
       spotifyTokenExpiresAt := Some(ExpiresAt(now, grant)), spotifyConnected := true,
       spotifyConnectedAt := Some(now), profilePicture := PictureAfter(u.profilePicture, profile.images))
  }

  /** Another row than row `i` already holds this Spotify id. */
  predicate HeldElsewhere(rows: seq<User>, i: nat, spotifyId: string)
    requires i < |rows|
  {
    exists j :: 0 <= j < |rows| && rows[j].spotifyId == Some(spotifyId) && rows[j].id != rows[i].id
  }

  /** Re-linking the Spotify account an account already holds passes the guard when no other row holds it. */
  lemma RelinkAllowed(rows: seq<User>, i: nat, spotifyId: string)
    requires UniqueKeys(rows) && i < |rows|
    requires forall j :: 0 <= j < |rows| && j != i ==> rows[j].spotifyId != Some(spotifyId)
    ensures !HeldElsewhere(rows, i, spotifyId)
  {
  }

  /** The update of an account that signs in with Spotify again. */
  function RefreshedAccount(u: User, profile: SpotifyProfile, grant: TokenGrant, now: int): (v: User)
    ensures SameIdentity(v, u)
    ensures v.spotifyId == u.spotifyId && v.spotifyConnectedAt == u.spotifyConnectedAt
    ensures v.spotifyConnected && v.lastLogin == Some(now)
    ensures v.spotifyEmail == profile.email && v.spotifyDisplayName == Some(DisplayOrId(profile))
    ensures v.spotifyAccessToken == grant.accessToken && v.spotifyRefreshToken == grant.refreshToken
    ensures v.spotifyTokenExpiresAt == Some(now + grant.expiresIn.GetOr(3600))
    ensures v.profilePicture != u.profilePicture ==> !Truthy(u.profilePicture) && |profile.images| > 0
  {
    u.(spotifyAccessToken := grant.accessToken, spotifyRefreshToken := grant.refreshToken,
       spotifyTokenExpiresAt := Some(ExpiresAt(now, grant)), spotifyEmail := profile.email,
       spotifyDisplayName := Some(DisplayOrId(profile)), spotifyConnected := true,
       lastLogin := Some(now), profilePicture := PictureAfter(u.profilePicture, profile.images))
  }

  /** The email of an account created from Spotify: Spotify's, or `{id}@spotify.temp` when it has none. */
  function SignupEmail(profile: SpotifyProfile): (email: string)
    ensures Truthy(profile.email) ==> email == profile.email.value
    ensures !Truthy(profile.email) ==> email == profile.id + "@spotify.temp"
  {
    if Truthy(profile.email) then profile.email.value else profile.id + "@spotify.temp"
  }

  /** An account created from a Spotify profile: verified, without password, linked now. */
  function SpotifyAccount(id: nat, username: string, profile: SpotifyProfile, grant: TokenGrant, now: int): (u: User)
    ensures u.id == id && u.username == username && u.email == SignupEmail(profile)
    ensures u.passwordHash.None? && u.isVerified && u.isActive
    ensures u.spotifyId == Some(profile.id) && u.spotifyConnected && u.spotifyConnectedAt == Some(now)
    ensures u.spotifyTokenExpiresAt == Some(now + grant.expiresIn.GetOr(3600))
    ensures u.profilePicture == (if |profile.images| > 0 then profile.images[0] else None)
  {
    var name := DisplayOrId(profile);
    User(id, SignupEmail(profile), username, None, Some(name), None,
         if |profile.images| > 0 then profile.images[0] else None,
         true, true, None,
         Some(profile.id), profile.email, Some(name), grant.accessToken, grant.refreshToken,
         Some(ExpiresAt(now, grant)), true, Some(now))
  }

  // ---------------------------------------------------------------------
  // The table operations
  // ---------------------------------------------------------------------

  /** `disconnect_spotify` on row `i`. */
  method Disconnect(table: UserTable, i: nat) returns (r: Result<User, Error>)
    requires table.Valid() && i < |table.rows|
    modifies table
    ensures table.Valid()
    ensures r == Unlinked(old(table.rows)[i])
    ensures r.Failure? ==> table.rows == old(table.rows)
    ensures r.Success? ==> table.rows == old(table.rows)[i := r.value]
  {
    r := Unlinked(table.rows[i]);
    if r.Success? {
      SameKeysKeepUnique(table.rows, i, r.value);
      table.rows := table.rows[i := r.value];
    }
  }

  /** `link_spotify_to_existing_user` on row `i`. */
  method Link(table: UserTable, i: nat, profile: SpotifyProfile, grant: TokenGrant, now: int)
    returns (r: Result<User, Error>)
    requires table.Valid() && i < |table.rows|
    modifies table
    ensures table.Valid()
    ensures HeldElsewhere(old(table.rows), i, profile.id) ==> r == Failure(LinkedElsewhere) && table.rows == old(table.rows)
    ensures !HeldElsewhere(old(table.rows), i, profile.id) ==>
      r == Success(LinkedAccount(old(table.rows)[i], profile, grant, now)) && table.rows == old(table.rows)[i := r.value]
  {
    var me := table.rows[i].id;
    var other := FirstIndex(table.rows, (u: User) => u.spotifyId == Some(profile.id) && u.id != me);
    if other.Some? {
      return Failure(LinkedElsewhere);
    }
    var user := LinkedAccount(table.rows[i], profile, grant, now);
    SameKeysKeepUnique(table.rows, i, user);
    table.rows := table.rows[i := user];
    return Success(user);
  }

  /**
   * `create_or_update_user_from_spotify`: the first row holding the Spotify
   * id is updated in place; otherwise one row is added, with a sanitised,
   * unused username, unless its email is already registered.
   */
  method CreateOrUpdate(table: UserTable, profile: SpotifyProfile, grant: TokenGrant, now: int, freshId: nat)
    returns (r: Result<User, Error>)
    requires table.Valid() && !HasId(table.rows, freshId)
    modifies table
    ensures table.Valid()
    ensures var existing := FirstIndex(old(table.rows), (u: User) => u.spotifyId == Some(profile.id));
      existing.Some? ==>
        r == Success(RefreshedAccount(old(table.rows)[existing.value], profile, grant, now))
        && table.rows == old(table.rows)[existing.value := r.value]
    ensures var existing := FirstIndex(old(table.rows), (u: User) => u.spotifyId == Some(profile.id));
      existing.None? && HasEmail(old(table.rows), SignupEmail(profile)) ==>
        r == Failure(EmailTaken) && table.rows == old(table.rows)
    ensures var existing := FirstIndex(old(table.rows), (u: User) => u.spotifyId == Some(profile.id));
      existing.None? && !HasEmail(old(table.rows), SignupEmail(profile)) ==>
        && r.Success?
        && r.value == SpotifyAccount(freshId, r.value.username, profile, grant, now)
        && !HasUsername(old(table.rows), r.value.username)
        && (exists k: nat :: IsFirstFreeCandidate(old(table.rows), SanitizeUsername(DisplayOrId(profile)), r.value.username, k))
        && table.rows == old(table.rows) + [r.value]
  {
    var existing := FirstIndex(table.rows, (u: User) => u.spotifyId == Some(profile.id));
    if existing.Some? {
      var i := existing.value;
      var user := RefreshedAccount(table.rows[i], profile, grant, now);
      SameKeysKeepUnique(table.rows, i, user);
      table.rows := table.rows[i := user];
      return Success(user);
    }
    var base := SanitizeUsername(DisplayOrId(profile));
    var username, k := GenerateUniqueUsername(base, table.rows);
    assert IsFirstFreeCandidate(table.rows, base, username, k);
    var user := SpotifyAccount(freshId, username, profile, grant, now);
    if FirstIndex(table.rows, (u: User) => u.email == user.email).Some? {
      return Failure(EmailTaken);
    }
    FreshKeysKeepUnique(table.rows, user);
    table.rows := table.rows + [user];
    return Success(user);
  }

  // ---------------------------------------------------------------------
  // Authorization request (`get_authorization_url`)
  // ---------------------------------------------------------------------

  const Scopes: seq<string> := [
    "user-read-email", "user-read-private", "playlist-modify-public",
    "playlist-modify-private", "playlist-read-private", "user-library-read"]

  /**
   * The query parameters of the authorization URL and the state returned
   * with it: the caller's state when it is non-empty, a fresh random token
   * otherwise; the same state goes into the URL.
   */
  function AuthorizationRequest(clientId: string, redirectUri: string, state: Option<string>, freshToken: string)
    : (r: (seq<(string, string)>, string))
    ensures Truthy(state) ==> r.1 == state.value
    ensures !Truthy(state) ==> r.1 == freshToken
    ensures ("state", r.1) in r.0
    ensures ("scope", Join(Scopes, " ")) in r.0 && ("response_type", "code") in r.0
  {
    var s := if Truthy(state) then state.value else freshToken;
    ([("client_id", clientId), ("response_type", "code"), ("redirect_uri", redirectUri),
      ("scope", Join(Scopes, " ")), ("state", s), ("show_dialog", "false")], s)
  }
}

=== FILE: spotify_user.dfy ===
/**
 * Operations on a user's own Spotify account
 * (server/app/services/spotify_user_service.py): keeping the access token
 * fresh, writing tracks to playlists in batches of 100, and the ownership
 * check. The token endpoint and the Web API calls are the replies passed
 * in; the clock is `now`.
 */
module SpotifyUser {
  import opened Wrappers
  import opened Text
  import opened Batching
  import opened Users
  import opened SpotifyAuth

  /** The token endpoint's answer to a refresh request. */
  datatype RefreshReply = Refreshed(grant: TokenGrant) | RefreshFailed

  const NotConnected := Error(400, "Debes conectar tu cuenta de Spotify primero")
  const SessionExpired := Error(401, "Tu sesi\U{F3}n de Spotify ha expirado. Por favor, vuelve a conectar tu cuenta.")

  /** The stored expiry is set and not in the future. */
  predicate NeedsRefresh(u: User, now: int) {
    u.spotifyTokenExpiresAt.Some? && u.spotifyTokenExpiresAt.value <= now
  }

  /**
   * `_ensure_valid_token` on one account: the account afterwards, whose
   * `spotifyAccessToken` is the token handed back. An unlinked account is
   * refused; an expired token is refreshed (401 when that fails), and only
   * the token and its expiry change; any other account is left as it is.
   */
  function TokenCheck(u: User, now: int, refresh: Option<string> -> RefreshReply): (r: Result<User, Error>)
    ensures !u.spotifyConnected ==> r == Failure(NotConnected)
    ensures u.spotifyConnected && !NeedsRefresh(u, now) ==> r == Success(u)
    ensures u.spotifyConnected && NeedsRefresh(u, now) && refresh(u.spotifyRefreshToken).RefreshFailed? ==>
      r == Failure(SessionExpired)
    ensures u.spotifyConnected && NeedsRefresh(u, now) && refresh(u.spotifyRefreshToken).Refreshed? ==>
      && r.Success?
      && r.value.spotifyTokenExpiresAt == Some(now + refresh(u.spotifyRefreshToken).grant.expiresIn.GetOr(3600))
      && r.value.spotifyAccessToken == refresh(u.spotifyRefreshToken).grant.accessToken
    ensures r.Success? ==> r.value.(spotifyAccessToken := u.spotifyAccessToken, spotifyTokenExpiresAt := u.spotifyTokenExpiresAt) == u
  {
    if !u.spotifyConnected then Failure(NotConnected)
    else if NeedsRefresh(u, now) then
      match refresh(u.spotifyRefreshToken)
      case RefreshFailed => Failure(SessionExpired)
      case Refreshed(grant) =>
        Success(u.(spotifyAccessToken := grant.accessToken, spotifyTokenExpiresAt := Some(ExpiresAt(now, grant))))
    else Success(u)
  }

  /** After a refresh with a positive lifetime, a second check at the same instant changes nothing. */
  lemma TokenCheckSettles(u: User, now: int, refresh: Option<string> -> RefreshReply, again: Option<string> -> RefreshReply)
    requires TokenCheck(u, now, refresh).Success?
    requires refresh(u.spotifyRefreshToken).Refreshed? ==> refresh(u.spotifyRefreshToken).grant.expiresIn.GetOr(3600) > 0
    ensures TokenCheck(TokenCheck(u, now, refresh).value, now, again) == TokenCheck(u, now, refresh)
  {
  }

  /** `_ensure_valid_token` on row `i`: the access token to use, with the row updated when it was refreshed. */
  method EnsureValidToken(table: UserTable, i: nat, now: int, refresh: Option<string> -> RefreshReply)
    returns (r: Result<Option<string>, Error>)
    requires table.Valid() && i < |table.rows|
    modifies table
    ensures table.Valid() && |table.rows| == |old(table.rows)|
    ensures TokenCheck(old(table.rows)[i], now, refresh).Failure? ==>
      r == Failure(TokenCheck(old(table.rows)[i], now, refresh).error) && table.rows == old(table.rows)
    ensures TokenCheck(old(table.rows)[i], now, refresh).Success? ==>
      table.rows == old(table.rows)[i := TokenCheck(old(table.rows)[i], now, refresh).value]
      && r == Success(table.rows[i].spotifyAccessToken)
  {
    var checked := TokenCheck(table.rows[i], now, refresh);
    if checked.Failure? {
      return Failure(checked.error);
    }
    SameKeysKeepUnique(table.rows, i, checked.value);
    table.rows := table.rows[i := checked.value];
    return Success(checked.value.spotifyAccessToken);
  }

  // ---------------------------------------------------------------------
  // Track URIs
  // ---------------------------------------------------------------------

  const TrackUriPrefix: string := "spotify:track:"
  const SpotifyUriPrefix: string := "spotify:"

  /** `create_playlist`'s conversion: "spotify:track:" in front of anything not already starting with it. */
  function CreateUri(t: string): (uri: string)
    ensures StartsWith(uri, TrackUriPrefix)
    ensures uri == t <==> StartsWith(t, TrackUriPrefix)
    ensures uri != t ==> uri == TrackUriPrefix + t
  {
    if StartsWith(t, TrackUriPrefix) then t
    else
      assert (TrackUriPrefix + t)[..|TrackUriPrefix|] == TrackUriPrefix;
      TrackUriPrefix + t
  }

  /** `add_tracks_to_playlist`'s conversion: "spotify:track:" in front of anything not starting with "spotify:". */
  function AddUri(t: string): (uri: string)
    ensures StartsWith(uri, SpotifyUriPrefix)
    ensures uri == t <==> StartsWith(t, SpotifyUriPrefix)
    ensures uri != t ==> uri == TrackUriPrefix + t
  {
    if StartsWith(t, SpotifyUriPrefix) then t
    else
      assert (TrackUriPrefix + t)[..|SpotifyUriPrefix|] == SpotifyUriPrefix;
      TrackUriPrefix + t
  }

  /**
   * The two conversions agree on bare ids, and both leave a track URI as it
   * is, but they part on other Spotify URIs: `add_tracks_to_playlist` keeps
   * "spotify:album:1" while `create_playlist` turns it into
   * "spotify:track:spotify:album:1".
   */
  lemma UriConversionsDiverge()
    ensures forall t :: !StartsWith(t, SpotifyUriPrefix) ==> CreateUri(t) == AddUri(t)
    ensures forall t :: StartsWith(t, TrackUriPrefix) ==> CreateUri(t) == t == AddUri(t)
    ensures AddUri("spotify:album:1") == "spotify:album:1"
    ensures CreateUri("spotify:album:1") == "spotify:track:spotify:album:1"
  {
    forall t | StartsWith(t, TrackUriPrefix) ensures StartsWith(t, SpotifyUriPrefix) {
      assert t[..|SpotifyUriPrefix|] == TrackUriPrefix[..|SpotifyUriPrefix|];
    }
    assert !StartsWith("spotify:album:1", TrackUriPrefix) by {
      assert "spotify:album:1"[8] != TrackUriPrefix[8];
    }
  }

  /** The URIs `create_playlist` sends for the tracks, in order. */
  function CreateUris(tracks: seq<string>): seq<string> {
    seq(|tracks|, k requires 0 <= k < |tracks| => CreateUri(tracks[k]))
  }

  /** The URIs `add_tracks_to_playlist` sends for the ids, in order. */
  function AddUris(trackIds: seq<string>): seq<string> {
    seq(|trackIds|, k requires 0 <= k < |trackIds| => AddUri(trackIds[k]))
  }

  /** The loop of `create_playlist` that builds `track_uris`. */
  method CreatePlaylistUris(tracks: seq<string>) returns (uris: seq<string>)
    ensures uris == CreateUris(tracks)
    ensures |uris| == |tracks|
    ensures forall k :: 0 <= k < |tracks| ==> uris[k] == CreateUri(tracks[k])
    ensures forall k :: 0 <= k < |uris| ==> StartsWith(uris[k], TrackUriPrefix)
  {
    uris := [];
    for k := 0 to |tracks|
      invariant |uris| == k
      invariant forall j :: 0 <= j < k ==> uris[j] == CreateUri(tracks[j])
    {
      if StartsWith(tracks[k], TrackUriPrefix) {
        uris := uris + [tracks[k]];
      } else {
        uris := uris + [TrackUriPrefix + tracks[k]];
      }
    }
  }

  // ---------------------------------------------------------------------
  // Batched writes
  // ---------------------------------------------------------------------

  const PlaylistBatch: nat := 100

  /** The reply to one `POST /playlists/{id}/tracks`: success, or a failure with the error message it carried. */
  datatype PostReply = Posted | PostFailed(message: Option<string>)

  lemma FlattenSnoc<T>(a: seq<seq<T>>, b: seq<T>)
    ensures Flatten(a + [b]) == Flatten(a) + b
  {
    FlattenAppend(a, [b]);
    assert Flatten([b]) == b + Flatten([b][1..]);
  }

  /** One step of the batch loop keeps the batches sent a prefix of all batches, covering the URIs up to the new offset. */
  lemma PostStep(uris: seq<string>, sent: seq<seq<string>>, i: nat)
    requires i < |uris|
    requires sent + Chunks(uris[i..], PlaylistBatch) == Chunks(uris, PlaylistBatch)
    requires Flatten(sent) == uris[..i]
    ensures var next := Min(i + PlaylistBatch, |uris|);
      && (sent + [uris[i..next]]) + Chunks(uris[next..], PlaylistBatch) == Chunks(uris, PlaylistBatch)
      && Flatten(sent + [uris[i..next]]) == uris[..next]
  {
    var next := Min(i + PlaylistBatch, |uris|);
    ChunksStep(uris, PlaylistBatch, i);
    FlattenSnoc(sent, uris[i..next]);
    assert uris[..i] + uris[i..next] == uris[..next];
  }

  /** Batches sent so far are the first batches, each of 1 to 100 URIs. */
  lemma SentIsPrefix(uris: seq<string>, sent: seq<seq<string>>, rest: seq<seq<string>>)
    requires sent + rest == Chunks(uris, PlaylistBatch)
    ensures |sent| <= |Chunks(uris, PlaylistBatch)| && sent == Chunks(uris, PlaylistBatch)[..|sent|]
    ensures forall k :: 0 <= k < |sent| ==> 1 <= |sent[k]| <= PlaylistBatch
  {
    ChunksBounded(uris, PlaylistBatch);
    assert (sent + rest)[..|sent|] == sent;
    forall k | 0 <= k < |sent| ensures 1 <= |sent[k]| <= PlaylistBatch {
      assert sent[k] == Chunks(uris, PlaylistBatch)[k];
    }
  }

  /**
   * The batches posted in order, stopping at the first that fails: the
   * failure's message, or the number of URIs sent.
   */
  function PostAll(batches: seq<seq<string>>, post: seq<string> -> PostReply): Result<nat, Option<string>>
    decreases |batches|
  {
    if batches == [] then Success(0)
    else match post(batches[0])
      case PostFailed(message) => Failure(message)
      case Posted =>
        var rest := PostAll(batches[1..], post);
        if rest.Success? then Success(|batches[0]| + rest.value) else rest
  }

  /**
   * The batched write succeeds exactly when every batch is posted, and then
   * counts every URI; otherwise it fails with the message of the first
   * batch that failed, every earlier one having been posted.
   */
  lemma {:induction false} PostAllProperties(batches: seq<seq<string>>, post: seq<string> -> PostReply)
    ensures PostAll(batches, post).Success? <==> forall k :: 0 <= k < |batches| ==> post(batches[k]) == Posted
    ensures PostAll(batches, post).Success? ==> PostAll(batches, post).value == |Flatten(batches)|
    ensures PostAll(batches, post).Failure? ==>
      exists k :: 0 <= k < |batches| && post(batches[k]) == PostFailed(PostAll(batches, post).error)
               && forall j :: 0 <= j < k ==> post(batches[j]) == Posted
    decreases |batches|
  {
    if batches != [] {
      PostAllProperties(batches[1..], post);
      var r := PostAll(batches, post);
      if post(batches[0]) == Posted {
        forall k | 1 <= k < |batches| ensures batches[k] == batches[1..][k - 1] {}
        if r.Failure? {
          var k :| 0 <= k < |batches[1..]| && post(batches[1..][k]) == PostFailed(r.error)
                   && forall j :: 0 <= j < k ==> post(batches[1..][j]) == Posted;
          assert post(batches[k + 1]) == PostFailed(r.error);
          forall j | 0 <= j < k + 1 ensures post(batches[j]) == Posted {
            if j > 0 { assert batches[j] == batches[1..][j - 1]; }
          }
        }
      } else {
        assert post(batches[0]) == PostFailed(r.error);
      }
    }
  }

  /** Adds `offset` to a success count. */
  function Shifted(r: Result<nat, Option<string>>, offset: nat): Result<nat, Option<string>> {
    if r.Success? then Success(r.value + offset) else r
  }

  /** One batch of the loop: it either ends the write with its failure or moves the offset past it. */
  lemma PostAllStep(uris: seq<string>, i: nat, post: seq<string> -> PostReply)
    requires i < |uris|
    ensures var next := Min(i + PlaylistBatch, |uris|);
      var batch := uris[i..next];
      Shifted(PostAll(Chunks(uris[i..], PlaylistBatch), post), i) ==
        if post(batch).PostFailed? then Failure(post(batch).message)
        else Shifted(PostAll(Chunks(uris[next..], PlaylistBatch), post), next)
  {
    var next := Min(i + PlaylistBatch, |uris|);
    var batch := uris[i..next];
    ChunksStep(uris, PlaylistBatch, i);
    assert ([batch] + Chunks(uris[next..], PlaylistBatch))[1..] == Chunks(uris[next..], PlaylistBatch);
  }

  /**
   * The batch loop of both playlist writes: the batches are the
   * consecutive slices of at most 100 URIs, posted in order until one
   * fails. On success every URI went out exactly once, in order, and the
   * count of added tracks is the number of URIs.
   */
  method PostInBatches(uris: seq<string>, post: seq<string> -> PostReply)
    returns (r: Result<nat, Option<string>>, ghost sent: seq<seq<string>>)
    ensures r == PostAll(Chunks(uris, PlaylistBatch), post)
    ensures r.Success? <==>
      forall k :: 0 <= k < |Chunks(uris, PlaylistBatch)| ==> post(Chunks(uris, PlaylistBatch)[k]) == Posted
    ensures r.Success? ==> r.value == |uris|
    ensures |sent| <= |Chunks(uris, PlaylistBatch)| && sent == Chunks(uris, PlaylistBatch)[..|sent|]
    ensures forall k :: 0 <= k < |sent| ==> 1 <= |sent[k]| <= PlaylistBatch
    ensures r.Success? ==> sent == Chunks(uris, PlaylistBatch) && Flatten(sent) == uris && r.value == |uris|
    ensures r.Success? ==> forall k :: 0 <= k < |sent| ==> post(sent[k]) == Posted
    ensures r.Failure? ==>
      && |sent| > 0 && post(sent[|sent| - 1]) == PostFailed(r.error)
      && forall k :: 0 <= k < |sent| - 1 ==> post(sent[k]) == Posted
  {
    var i := 0;
    var added := 0;
    sent := [];
    assert uris[0..] == uris;
    while i < |uris|
      invariant 0 <= i <= |uris|
      invariant sent + Chunks(uris[i..], PlaylistBatch) == Chunks(uris, PlaylistBatch)
      invariant Flatten(sent) == uris[..i] && added == i
      invariant forall k :: 0 <= k < |sent| ==> post(sent[k]) == Posted
      invariant PostAll(Chunks(uris, PlaylistBatch), post) == Shifted(PostAll(Chunks(uris[i..], PlaylistBatch), post), i)
    {
      var next := Min(i + PlaylistBatch, |uris|);
      var batch := uris[i..next];
      PostStep(uris, sent, i);
      PostAllStep(uris, i, post);
      sent := sent + [batch];
      match post(batch) {
        case PostFailed(message) =>
          SentIsPrefix(uris, sent, Chunks(uris[next..], PlaylistBatch));
          assert Chunks(uris, PlaylistBatch)[|sent| - 1] == batch;
          return Failure(message), sent;
        case Posted =>
      }
      added := added + |batch|;
      i := next;
    }
    assert Chunks(uris[i..], PlaylistBatch) == [];
    assert sent + [] == sent;
    assert PostAll(Chunks(uris, PlaylistBatch), post) == Success(i);
    SentIsPrefix(uris, sent, []);
    assert uris[..i] == uris;
    r := Success(added);
  }

  // ---------------------------------------------------------------------
  // Playlist operations
  // ---------------------------------------------------------------------

  /** The reply to `POST /users/{id}/playlists`. */
  datatype CreateReply = Created(playlistId: Option<string>) | CreateFailed(message: Option<string>)

  datatype PlaylistCreated = PlaylistCreated(id: Option<string>, tracksTotal: nat)
  datatype TracksAdded = TracksAdded(tracksAdded: nat, playlistId: string)

  const CreateError := "Error al crear la playlist en Spotify"
  const AddError := Error(400, "Error al agregar canciones a la playlist")

  /**
   * `create_playlist`: the token check, the creation request, then the
   * tracks in batches when there are any. A failed request gives 400 with
   * the message Spotify sent, or a fixed one; `tracks_total` is the number
   * of tracks asked for.
   */
  method CreatePlaylist(table: UserTable, i: nat, now: int, refresh: Option<string> -> RefreshReply,
                        tracks: seq<string>, create: CreateReply, post: seq<string> -> PostReply)
    returns (r: Result<PlaylistCreated, Error>)
    requires table.Valid() && i < |table.rows|
    modifies table
    ensures table.Valid() && |table.rows| == |old(table.rows)|
    ensures TokenCheck(old(table.rows)[i], now, refresh).Failure? ==>
      r == Failure(TokenCheck(old(table.rows)[i], now, refresh).error) && table.rows == old(table.rows)
    ensures TokenCheck(old(table.rows)[i], now, refresh).Success? ==>
      table.rows == old(table.rows)[i := TokenCheck(old(table.rows)[i], now, refresh).value]
    ensures TokenCheck(old(table.rows)[i], now, refresh).Success? && create.CreateFailed? ==>
      r == Failure(Error(400, create.message.GetOr(CreateError)))
    ensures TokenCheck(old(table.rows)[i], now, refresh).Success? && create.Created? ==>
      && (r.Success? <==> tracks == [] || PostAll(Chunks(CreateUris(tracks), PlaylistBatch), post).Success?)
      && (r.Failure? ==> r.error == Error(400, PostAll(Chunks(CreateUris(tracks), PlaylistBatch), post).error.GetOr(CreateError)))
    ensures r.Success? ==> create.Created? && r.value == PlaylistCreated(create.playlistId, |tracks|)
    ensures r.Failure? ==> r.error.status in {400, 401}
  {
    var token := EnsureValidToken(table, i, now, refresh);
    if token.Failure? {
      return Failure(token.error);
    }
    match create {
      case CreateFailed(message) =>
        return Failure(Error(400, message.GetOr(CreateError)));
      case Created(playlistId) =>
        if tracks != [] {
          var uris := CreatePlaylistUris(tracks);
          var posted, _ := PostInBatches(uris, post);
          if posted.Failure? {
            return Failure(Error(400, posted.error.GetOr(CreateError)));
          }
        }
        return Success(PlaylistCreated(playlistId, |tracks|));
    }
  }

  /** `add_tracks_to_playlist`: on success `tracks_added` is the number of ids given. */
  method AddTracksToPlaylist(table: UserTable, i: nat, now: int, refresh: Option<string> -> RefreshReply,
                             playlistId: string, trackIds: seq<string>, post: seq<string> -> PostReply)
    returns (r: Result<TracksAdded, Error>)
    requires table.Valid() && i < |table.rows|
    modifies table
    ensures table.Valid() && |table.rows| == |old(table.rows)|
    ensures TokenCheck(old(table.rows)[i], now, refresh).Failure? ==>
      r == Failure(TokenCheck(old(table.rows)[i], now, refresh).error) && table.rows == old(table.rows)
    ensures TokenCheck(old(table.rows)[i], now, refresh).Success? ==>
      && table.rows == old(table.rows)[i := TokenCheck(old(table.rows)[i], now, refresh).value]
      && (r.Success? <==> PostAll(Chunks(AddUris(trackIds), PlaylistBatch), post).Success?)
    ensures r.Success? ==> r.value == TracksAdded(|trackIds|, playlistId)
    ensures r.Failure? ==> r.error == AddError || TokenCheck(old(table.rows)[i], now, refresh).Failure?
  {
    var token := EnsureValidToken(table, i, now, refresh);
    if token.Failure? {
      return Failure(token.error);
    }
    var uris := AddUris(trackIds);
    var posted, _ := PostInBatches(uris, post);
    if posted.Failure? {
      return Failure(AddError);
    }
    return Success(TracksAdded(posted.value, playlistId));
  }

  /**
   * `check_playlist_ownership`: after the token check, true exactly when
   * the playlist's owner id equals the account's Spotify id; a failed
   * request (`owner == None`) is false.
   */
  method CheckPlaylistOwnership(table: UserTable, i: nat, now: int, refresh: Option<string> -> RefreshReply,
                                owner: Option<Option<string>>)
    returns (r: Result<bool, Error>)
    requires table.Valid() && i < |table.rows|
    modifies table
    ensures table.Valid() && |table.rows| == |old(table.rows)|
    ensures TokenCheck(old(table.rows)[i], now, refresh).Failure? ==>
      r == Failure(TokenCheck(old(table.rows)[i], now, refresh).error) && table.rows == old(table.rows)
    ensures TokenCheck(old(table.rows)[i], now, refresh).Success? ==>
      && table.rows == old(table.rows)[i := TokenCheck(old(table.rows)[i], now, refresh).value]
      && r == Success(owner.Some? && owner.value == old(table.rows)[i].spotifyId)
  {
    var token := EnsureValidToken(table, i, now, refresh);
    if token.Failure? {
      return Failure(token.error);
    }
    if owner.None? {
      return Success(false);
    }
    return Success(owner.value == table.rows[i].spotifyId);
  }
}

=== FILE: text.dfy ===
/**
 * Character and string helpers used by several services: ASCII case
 * mapping (Python's `str.upper`/`str.lower` restricted to ASCII), decimal
 * rendering of naturals (Python's `str(n)`, JavaScript's `${n}`), prefixes
 * and left padding.
 */
module Text {

  predicate IsAsciiLower(c: char) { 'a' <= c <= 'z' }
  predicate IsAsciiUpper(c: char) { 'A' <= c <= 'Z' }
  predicate IsDigit(c: char) { '0' <= c <= '9' }

  function UpperChar(c: char): (r: char)
    ensures !IsAsciiLower(r)
    ensures IsAsciiLower(c) ==> IsAsciiUpper(r) && r as int - c as int == 'A' as int - 'a' as int
    ensures !IsAsciiLower(c) ==> r == c
  {
    if IsAsciiLower(c) then (c as int - 'a' as int + 'A' as int) as char else c
  }

  function LowerChar(c: char): (r: char)
    ensures !IsAsciiUpper(r)
    ensures IsAsciiUpper(c) ==> IsAsciiLower(r)
    ensures !IsAsciiUpper(c) ==> r == c
  {
    if IsAsciiUpper(c) then (c as int - 'A' as int + 'a' as int) as char else c
  }

  /** `s.upper()` on ASCII text. */
  function Upper(s: string): (r: string)
    ensures |r| == |s|
    ensures forall i :: 0 <= i < |s| ==> r[i] == UpperChar(s[i])
  {
    seq(|s|, i requires 0 <= i < |s| => UpperChar(s[i]))
  }

  /** `s.lower()` on ASCII text. */
  function Lower(s: string): (r: string)
    ensures |r| == |s|
    ensures forall i :: 0 <= i < |s| ==> r[i] == LowerChar(s[i])
  {
    seq(|s|, i requires 0 <= i < |s| => LowerChar(s[i]))
  }

  /** Upper-casing twice is upper-casing once. */
  lemma UpperIdempotent(s: string)
    ensures Upper(Upper(s)) == Upper(s)
  {
  }

  predicate StartsWith(s: string, prefix: string) {
    |prefix| <= |s| && s[..|prefix|] == prefix
  }

  predicate AllDigits(s: string) {
    forall i :: 0 <= i < |s| ==> IsDigit(s[i])
  }

  function DigitChar(d: nat): (c: char)
    requires d < 10
    ensures IsDigit(c)
  {
    ('0' as int + d) as char
  }

  /** Decimal rendering of a natural number, without leading zeros. */
  function NatToString(n: nat): (s: string)
    ensures |s| >= 1 && AllDigits(s)
    decreases n
  {
    if n < 10 then [DigitChar(n)] else NatToString(n / 10) + [DigitChar(n % 10)]
  }

  /** Value of a string of decimal digits (`int(s)` for such a string). */
  function DigitsValue(s: string): (v: nat)
    requires AllDigits(s)
  {
    if s == [] then 0 else 10 * DigitsValue(s[..|s| - 1]) + (s[|s| - 1] as int - '0' as int)
  }

  /** Reading back a rendered number gives the number. */
  lemma {:induction false} DigitsValueOfNatToString(n: nat)
    ensures DigitsValue(NatToString(n)) == n
    decreases n
  {
    var s := NatToString(n);
    if n >= 10 {
      assert s[..|s| - 1] == NatToString(n / 10);
      DigitsValueOfNatToString(n / 10);
    }
  }

  /** Distinct numbers render as distinct strings. */
  lemma NatToStringInjective(a: nat, b: nat)
    requires NatToString(a) == NatToString(b)
    ensures a == b
  {
    DigitsValueOfNatToString(a);
    DigitsValueOfNatToString(b);
  }

  /** `s.padStart(width, fill)`: left padding up to `width` characters. */
  function PadStart(s: string, width: nat, fill: char): (r: string)
    ensures |r| == if |s| < width then width else |s|
    ensures r[|r| - |s|..] == s
    ensures forall i :: 0 <= i < |r| - |s| ==> r[i] == fill
  {
    if |s| < width then seq(width - |s|, _ => fill) + s else s
  }

  /** `sep.join(parts)`. */
  function Join(parts: seq<string>, sep: string): (r: string)
    ensures |parts| == 1 ==> r == parts[0]
  {
    if parts == [] then "" else if |parts| == 1 then parts[0] else parts[0] + sep + Join(parts[1..], sep)
  }
}

=== FILE: users.dfy ===
/**
 * The user record the services read and write, and the users table they
 * share. The record carries the columns the Spotify services write
 * (server/app/services/spotify_auth_service.py) besides those of
 * server/app/models/user.py. Timestamps are whole seconds.
 */
module Users {
  import opened Wrappers

  datatype User = User(
    id: nat,
    email: string,
    username: string,
    passwordHash: Option<string>,
    firstName: Option<string>,
    lastName: Option<string>,
    profilePicture: Option<string>,
    isActive: bool,
    isVerified: bool,
    lastLogin: Option<int>,
    spotifyId: Option<string>,
    spotifyEmail: Option<string>,
    spotifyDisplayName: Option<string>,
    spotifyAccessToken: Option<string>,
    spotifyRefreshToken: Option<string>,
    spotifyTokenExpiresAt: Option<int>,
    spotifyConnected: bool,
    spotifyConnectedAt: Option<int>)

  /** Python truthiness of an optional string: present and not empty. */
  predicate Truthy(s: Option<string>) {
    s.Some? && s.value != ""
  }

  /** The first row satisfying `p`, as the services' `.first()` queries read it. */
  function FirstIndex(rows: seq<User>, p: User -> bool): (r: Option<nat>)
    ensures r.Some? ==> r.value < |rows| && p(rows[r.value]) && forall j :: 0 <= j < r.value ==> !p(rows[j])
    ensures r.None? ==> forall j :: 0 <= j < |rows| ==> !p(rows[j])
  {
    if rows == [] then None
    else if p(rows[0]) then Some(0)
    else
      var rest := FirstIndex(rows[1..], p);
      if rest.Some? then Some(rest.value + 1) else None
  }

  predicate HasId(rows: seq<User>, id: nat) {
    exists j :: 0 <= j < |rows| && rows[j].id == id
  }

  predicate HasEmail(rows: seq<User>, email: string) {
    exists j :: 0 <= j < |rows| && rows[j].email == email
  }

  predicate HasUsername(rows: seq<User>, username: string) {
    exists j :: 0 <= j < |rows| && rows[j].username == username
  }

  /** The table's unique columns: id, email and username. */
  ghost predicate UniqueKeys(rows: seq<User>) {
    forall j, k :: 0 <= j < k < |rows| ==>
      rows[j].id != rows[k].id && rows[j].email != rows[k].email && rows[j].username != rows[k].username
  }

  /** The users table. */
  class UserTable {
    var rows: seq<User>

    ghost predicate Valid()
      reads this
    {
      UniqueKeys(rows)
    }

    constructor ()
      ensures rows == [] && Valid()
    {
      rows := [];
    }
  }

  /** Replacing one row by a row with the same keys keeps the keys unique. */
  lemma SameKeysKeepUnique(rows: seq<User>, i: nat, u: User)
    requires UniqueKeys(rows) && i < |rows|
    requires u.id == rows[i].id && u.email == rows[i].email && u.username == rows[i].username
    ensures UniqueKeys(rows[i := u])
  {
  }

  /** Appending a row whose keys are all new keeps the keys unique. */
  lemma FreshKeysKeepUnique(rows: seq<User>, u: User)
    requires UniqueKeys(rows)
    requires !HasId(rows, u.id) && !HasEmail(rows, u.email) && !HasUsername(rows, u.username)
    ensures UniqueKeys(rows + [u])
  {
    forall j, k | 0 <= j < k < |rows + [u]|
      ensures (rows + [u])[j].id != (rows + [u])[k].id
      ensures (rows + [u])[j].email != (rows + [u])[k].email
      ensures (rows + [u])[j].username != (rows + [u])[k].username
    {
      if k == |rows| {
        assert (rows + [u])[j] == rows[j];
      }
    }
  }
}

=== FILE: wrappers.dfy ===
/** Option, Result and the HTTP error shared by every module of the model. */
module Wrappers {

  datatype Option<+T> = None | Some(value: T) {
    function GetOr(default: T): T {
      match this
      case Some(v) => v
      case None => default
    }
  }

  datatype Result<+R, +E> = Success(value: R) | Failure(error: E)

  /** An HTTP error as the server raises it: a status code and a detail message. */
  datatype Error = Error(status: int, detail: string)
}
